=== FILE: README.md ===
# Avalonia composition core, modelled in Dafny

This project models the server side of Avalonia's composition renderer. It also models a few value conversions and diagnostics that sit around it:

- **`ServerCompositor`** (module `Compositor`, `compositor.dfy`): the render-thread compositor. It holds a queue of composition batches sent by the UI thread. It applies each batch's serialized changes, which means reading the server jobs, the post-target jobs, the dispose list and the per-object changes. It then notifies the batches as processed, runs animations and resource changes, executes the jobs and renders the active targets. Finally it notifies the batches as rendered. The class keeps the C# fields. Every method is proved against a specification function over a `State` value. Lemmas about those functions state what one render cycle promises:
  - the fixed order of its steps;
  - each batch is notified processed once and rendered once, even when rendering throws;
  - the context-lost exception filter decides which exceptions are caught;
  - re-entrancy from the UI thread is rejected;
  - only the rendering thread passes `CheckAccess`.
- **The batch stream** (module `Transport`, `transport.dfy`): the reader the compositor and the brushes consume. One token sequence stands for the object stream and the data stream together.
- **`ServerSimpleCompositionBrush`** (module `ServerBrushes`, `brushes.dfy`): the server gradient and solid-colour brushes. It covers their `ToImmutable` conversions and the gradient brushes' `DeserializeChangesCore`, which replaces the stop list with the stops read from the stream.
- **`GradientStops`** (module `GradientStopList`, `gradient_stops.dfy`): the client stop list and `AsImmutable`. `AsImmutable` fills a fresh array index by index.
- **`BrushExtensions`** (modules `BrushExtensions` and `PenExtensions`, `brush_extensions.dfy`): the `ToImmutable` dispatchers for brushes, dash styles and pens. Each is a type switch where the first matching arm wins, and null or unknown kinds throw.
- **`ServerCompositionSimplePen`** (module `ServerPen`, `server_pen.dfy`): the server pen's conversion to an `ImmutablePen`.
- **`RenderDataBitmapNode`** (module `RenderDataNodes`, `bitmap_node.dfy`): the render-data node that draws a bitmap. It covers the node's hit test, its draw call, its disposal of the bitmap reference and its diagnostic properties.
- **`CompositionTreeSnapshot`** (module `TreeSnapshot`, `snapshot.dfy`, with the drawing-call vocabulary in `drawing.dfy`):
  - the diagnostic copy of the server visual tree;
  - the recording drawing-context walker, which logs each call as a dictionary and forwards it;
  - the replay of each draw-list visual's render data through the walker;
  - the disposal of the snapshot's bitmaps.
- **`ScrollViewerIRefreshInfoProviderAdapter`** (module `PullToRefresh`, `refresh_adapter.dfy`): the depth-limited search for the scroll viewer below a pull-to-refresh control. Also the validation `Adapt` performs before it creates a refresh-info provider.

## Model

Source paths are relative to the repository root.

| member | source | states |
|---|---|---|
| Compositor.ServerCompositor.constructor | src/Avalonia.Base/Rendering/Composition/Server/ServerCompositor.cs:23-63 | A new compositor has no batches, no queued jobs, no targets, no safe thread, and `LastBatchId` and the server time at zero |
| Compositor.ServerCompositor.EnqueueBatch | src/Avalonia.Base/Rendering/Composition/Server/ServerCompositor.cs:65-69 | The batch is appended at the back of the queue and nothing else changes |
| Compositor.ServerCompositor.UpdateServerTime | src/Avalonia.Base/Rendering/Composition/Server/ServerCompositor.cs:71 | The server time becomes the given time and nothing else changes |
| Compositor.ReadJobsExact | src/Avalonia.Base/Rendering/Composition/Server/ServerCompositor.cs:128-133 | A complete job list is the objects before the first end marker, appended to the queue in stream order; the marker is consumed and never enqueued |
| Compositor.ServerCompositor.ReadServerJobs | src/Avalonia.Base/Rendering/Composition/Server/ServerCompositor.cs:128-133 | Reading jobs into the pre-target or post-target queue is the job-list specification: same queue, same read position, same error (a non-job object is an invalid cast, an exhausted stream an end-of-stream error) |
| Compositor.ReadDisposeExact | src/Avalonia.Base/Rendering/Composition/Server/ServerCompositor.cs:135-143 | A complete dispose list reads exactly one count and then exactly that many objects (none for a non-positive count), and disposes exactly the disposable server objects among them, in order |
| Compositor.DisposeObjectsFails | src/Avalonia.Base/Rendering/Composition/Server/ServerCompositor.cs:138-142 | The dispose loop fails exactly when fewer objects remain than the count, and then with end of stream |
| Compositor.ServerCompositor.ReadDisposeJobs | src/Avalonia.Base/Rendering/Composition/Server/ServerCompositor.cs:135-143 | The method disposes and reads as the dispose-list specification says |
| Compositor.DebugEndCheck | src/Avalonia.Base/Rendering/Composition/Server/ServerCompositor.cs:112-119 | With the serialization check on, an object passes exactly when its changes are followed by the end marker and then the magic value; a missing marker and a wrong magic value are told apart |
| Compositor.ServerCompositor.CheckObjectEnd | src/Avalonia.Base/Rendering/Composition/Server/ServerCompositor.cs:112-119 | The check consumes and reports as the end-check specification says |
| Compositor.ServerCompositor.DeserializeChanges | src/Avalonia.Base/Rendering/Composition/Server/ServerCompositor.cs:110-111 | The object's own deserializer consumes its entries and records that the object was deserialized for this batch |
| Compositor.ServerCompositor.ApplyObject | src/Avalonia.Base/Rendering/Composition/Server/ServerCompositor.cs:110-119 | One server object's changes, then the debug check when it is compiled in |
| Compositor.ApplyStream | src/Avalonia.Base/Rendering/Composition/Server/ServerCompositor.cs:88-121 | Reading a batch's stream changes only the two job queues and the trace |
| Compositor.ServerCompositor.ApplyBatchStream | src/Avalonia.Base/Rendering/Composition/Server/ServerCompositor.cs:88-121 | The stream loop over one batch does exactly what the stream specification says, whatever the entries are |
| Compositor.ApplyFront | src/Avalonia.Base/Rendering/Composition/Server/ServerCompositor.cs:80-124 | One batch taken off the front of the queue: on success it is queued for the processed notification and becomes the last applied batch; on failure neither changes; the thread flags, clock, targets and rendered list are untouched |
| Compositor.DrainSuccess | src/Avalonia.Base/Rendering/Composition/Server/ServerCompositor.cs:76-126 | When every batch applies, the queue ends empty, the batches are appended in enqueue order to the processed list, and `LastBatchId` is the last batch's sequence id (unchanged when there was none) |
| Compositor.DrainFailure | src/Avalonia.Base/Rendering/Composition/Server/ServerCompositor.cs:76-126 | When a batch fails, the batches before it are applied and listed, the failing batch is dequeued but not listed, and later batches stay queued; `LastBatchId` is the last batch applied in full, or unchanged when the first batch fails |
| Compositor.ServerCompositor.ApplyPendingBatches | src/Avalonia.Base/Rendering/Composition/Server/ServerCompositor.cs:76-126 | Applying the pending batches is the drain specification, state and error alike |
| Compositor.ServerCompositor.ApplyNextBatch | src/Avalonia.Base/Rendering/Composition/Server/ServerCompositor.cs:80-124 | Applying the front batch leaves exactly the state and exception of one step of the batch-draining specification |
| Compositor.JobEvents | src/Avalonia.Base/Rendering/Composition/Server/ServerCompositor.cs:145-156 | Each queued job runs once, in queue order, and a job that throws is recorded as having thrown (the source ignores the exception) and does not stop the others |
| Compositor.ServerCompositor.ExecuteServerJobs | src/Avalonia.Base/Rendering/Composition/Server/ServerCompositor.cs:145-156 | All jobs of the chosen queue run as the job-events specification says, and the queue ends empty |
| Compositor.ServerCompositor.DequeueJob | src/Avalonia.Base/Rendering/Composition/Server/ServerCompositor.cs:150 | The front job of the chosen queue is returned and removed from it; nothing else changes |
| Compositor.ServerCompositor.NotifyBatchesProcessed | src/Avalonia.Base/Rendering/Composition/Server/ServerCompositor.cs:158-167 | Each listed batch is notified processed in order and moved to the to-be-rendered list |
| Compositor.ServerCompositor.NotifyEachProcessed | src/Avalonia.Base/Rendering/Composition/Server/ServerCompositor.cs:160-161 | Each listed batch is notified processed, in list order, and nothing else changes |
| Compositor.ServerCompositor.CopyProcessedToRendered | src/Avalonia.Base/Rendering/Composition/Server/ServerCompositor.cs:163-164 | The listed batches are appended, in order, to the rendered-notification list, and nothing else changes |
| Compositor.ServerCompositor.NotifyBatchesRendered | src/Avalonia.Base/Rendering/Composition/Server/ServerCompositor.cs:169-175 | Each batch on the to-be-rendered list is notified rendered in order, and the list is cleared |
| Compositor.ServerCompositor.RenderTargets | src/Avalonia.Base/Rendering/Composition/Server/ServerCompositor.cs:239-240 | The active targets are rendered in list order; a target that throws stops the later ones |
| Compositor.ServerCompositor.RenderPass | src/Avalonia.Base/Rendering/Composition/Server/ServerCompositor.cs:235-241 | The backend context is ensured, then the pre-target jobs run, then the targets, then the post-target jobs; an exception ends the pass where it is raised |
| Compositor.ServerCompositor.AdvanceFrame | src/Avalonia.Base/Rendering/Composition/Server/ServerCompositor.cs:226-231 | The processed notifications are sent, then animations are processed, then the enqueued resource changes are applied |
| Compositor.ServerCompositor.RenderIfReady | src/Avalonia.Base/Rendering/Composition/Server/ServerCompositor.cs:233-246 | The pass runs only when the render interface is ready; the exception filter decides whether its exception is caught and logged |
| Compositor.ServerCompositor.RenderCore | src/Avalonia.Base/Rendering/Composition/Server/ServerCompositor.cs:222-247 | One render cycle follows the cycle specification, including its error |
| Compositor.CycleOrder | src/Avalonia.Base/Rendering/Composition/Server/ServerCompositor.cs:222-247 | With a ready interface and no exception, the cycle runs in this order: time, batches, processed notifications, animations, resource changes, backend context, every pre-target job, every target in list order, every post-target job; both job queues end empty |
| Compositor.NotReadyKeepsJobs | src/Avalonia.Base/Rendering/Composition/Server/ServerCompositor.cs:235-236 | When the render interface is not ready, the jobs and targets are skipped and the jobs stay queued |
| Compositor.PassFaultVerdict | src/Avalonia.Base/Rendering/Composition/Server/ServerCompositor.cs:233-246 | An exception in the pass carries the context-lost filter's verdict; the post-target jobs do not run, and a throwing target stops the targets after it |
| Compositor.RenderCoreError | src/Avalonia.Base/Rendering/Composition/Server/ServerCompositor.cs:222-247 | A cycle fails with a stream error exactly when a batch fails; otherwise it fails exactly when the interface is ready and the pass throws an exception that is not both context-lost and caught; a swallowed exception is logged |
| Compositor.RenderCoreNotifications | src/Avalonia.Base/Rendering/Composition/Server/ServerCompositor.cs:222-247 | The only notifications a cycle adds are the processed notifications of the drained batches |
| Compositor.CycleNotifiesEachBatchOnce | src/Avalonia.Base/Rendering/Composition/Server/ServerCompositor.cs:199-220 | Every batch is notified processed once and rendered once, in order, whether or not the pass threw. After a batch failure the already-listed batches are still notified rendered. The rendered list ends empty and the safe thread is reset |
| Compositor.ServerCompositor.RenderReentrancySafe | src/Avalonia.Base/Rendering/Composition/Server/ServerCompositor.cs:199-220 | The cycle runs with the calling thread as the safe thread; in `finally` the batches are notified rendered and the safe thread is cleared |
| Compositor.SafeThreadDuringRender | src/Avalonia.Base/Rendering/Composition/Server/ServerCompositor.cs:203-218 | During the cycle the safe thread is the calling thread; afterwards there is none |
| Compositor.RenderReentrancy | src/Avalonia.Base/Rendering/Composition/Server/ServerCompositor.cs:177-197 | A re-entrant call from the UI thread fails and changes nothing; any other call ends with no safe thread, an empty rendered list and the UI flag as it was |
| Compositor.ServerCompositor.Render | src/Avalonia.Base/Rendering/Composition/Server/ServerCompositor.cs:177-197 | Render is the render specification: the re-entrancy guard, the UI-thread flag set and restored around the cycle |
| Compositor.RemoveFirstPosition | src/Avalonia.Base/Rendering/Composition/Server/ServerCompositor.cs:254-257 | Removing a listed target drops exactly its first occurrence and keeps the rest in order |
| Compositor.RemoveFirstAbsent | src/Avalonia.Base/Rendering/Composition/Server/ServerCompositor.cs:254-257 | Removing a target that is not listed changes nothing |
| Compositor.RemoveFirstMultiset | src/Avalonia.Base/Rendering/Composition/Server/ServerCompositor.cs:254-257 | Removing a listed target takes exactly one copy of it out of the list |
| Compositor.ServerCompositor.AddCompositionTarget | src/Avalonia.Base/Rendering/Composition/Server/ServerCompositor.cs:249-252 | The target is appended to the active targets and nothing else changes |
| Compositor.ServerCompositor.RemoveCompositionTarget | src/Avalonia.Base/Rendering/Composition/Server/ServerCompositor.cs:254-257 | The first occurrence of the target is removed and nothing else changes |
| Compositor.ServerCompositor.CheckAccess | src/Avalonia.Base/Rendering/Composition/Server/ServerCompositor.cs:265 | The safe thread has access, and no thread has access while there is no safe thread |
| Compositor.CheckAccessExclusive | src/Avalonia.Base/Rendering/Composition/Server/ServerCompositor.cs:265 | At most one thread has access at a time |
| Compositor.ServerCompositor.VerifyAccess | src/Avalonia.Base/Rendering/Composition/Server/ServerCompositor.cs:265-270 | Access fails, with the not-under-compositor-lock error, exactly when the caller is not the safe thread |
| ServerBrushes.ImmutableTransformOf | src/Avalonia.Base/Rendering/Composition/Brushes/ServerSimpleCompositionBrush.cs:46-76 | `Transform?.ToImmutable()`: a transform is converted when present and stays null otherwise |
| ServerBrushes.GradientToImmutable | src/Avalonia.Base/Rendering/Composition/Brushes/ServerSimpleCompositionBrush.cs:43-69 | The conic, linear and radial conversions carry the stops through `AsImmutable`, keep opacity, transform origin and spread method, convert the transform when present, and keep each kind's geometry unchanged (start and end point; centre and angle; centre and gradient origin); the radial radius is `RadiusX`'s scalar |
| ServerBrushes.ServerGradientBrush.ToImmutable | src/Avalonia.Base/Rendering/Composition/Brushes/ServerSimpleCompositionBrush.cs:43-69 | The brush converts to a gradient brush with the immutable copy of its stops and its own opacity, origin and spread method |
| ServerBrushes.SolidColorToImmutable | src/Avalonia.Base/Rendering/Composition/Brushes/ServerSimpleCompositionBrush.cs:74-77 | A solid-colour brush keeps its colour and opacity, and its transform is the server brush's transform converted, or null when there is none |
| ServerBrushes.ReadStopsExact | src/Avalonia.Base/Rendering/Composition/Brushes/ServerSimpleCompositionBrush.cs:36-37 | A complete read takes exactly `count` stop objects (none for a non-positive count), in stream order |
| ServerBrushes.DeserializeReplacesStops | src/Avalonia.Base/Rendering/Composition/Brushes/ServerSimpleCompositionBrush.cs:30-38 | After a complete deserialization the previous stops are gone, the stop list is exactly the stops read, in stream order, and the immutable brush carries exactly those stops |
| ServerBrushes.ReadStopObjects | src/Avalonia.Base/Rendering/Composition/Brushes/ServerSimpleCompositionBrush.cs:36-37 | The stop loop reads as the stop-list specification says and stops at the first failed read or cast |
| ServerBrushes.ServerGradientBrush.DeserializeChangesCore | src/Avalonia.Base/Rendering/Composition/Brushes/ServerSimpleCompositionBrush.cs:30-38 | The brush takes exactly the state, read position and error of the deserialization specification: base fields, spread method, then the cleared list refilled from the count and stops |
| GradientStopList.ImmutableStopsAt | src/Avalonia.Base/Media/GradientStops.cs:23-32 | Element i of the immutable copy has the offset and colour of stop i, and the copy has one element per stop |
| GradientStopList.ImmutableStopsOfImmutable | src/Avalonia.Base/Media/GradientStops.cs:23-32 | Copying a list of immutable stops gives the same stops back |
| GradientStopList.AsImmutable | src/Avalonia.Base/Media/GradientStops.cs:23-32 | A fresh array holding the immutable copy of the stops, index for index |
| GradientStopList.GradientStops.ToImmutable | src/Avalonia.Base/Media/GradientStops.cs:18-21 | A fresh array holding the immutable copy of the list |
| BrushExtensions.BrushToImmutable | src/Avalonia.Base/Media/BrushExtensions.cs:20-29 | A null brush throws argument-null, and a brush of no known kind throws argument-out-of-range (both if and only if). An immutable brush is returned as it is. A mutable one is converted |
| BrushExtensions.BrushToImmutableIdempotent | src/Avalonia.Base/Media/BrushExtensions.cs:20-29 | Converting a converted brush again returns it unchanged |
| BrushExtensions.ImmutableArmFirst | src/Avalonia.Base/Media/BrushExtensions.cs:24-25 | A brush that is both immutable and mutable is returned as it is, not converted |
| BrushExtensions.DashStyleToImmutable | src/Avalonia.Base/Media/BrushExtensions.cs:39-48 | A null style throws argument-null, and an unknown style throws argument-out-of-range (both if and only if). An immutable style is returned as it is, and a client style converted |
| BrushExtensions.DashStyleToImmutableIdempotent | src/Avalonia.Base/Media/BrushExtensions.cs:39-48 | Converting a converted dash style again returns it unchanged |
| PenExtensions.PenToImmutable | src/Avalonia.Base/Media/BrushExtensions.cs:58-68 | Null and unknown pens throw. An immutable pen is returned as it is. A client pen and a server pen are converted by their own conversions |
| PenExtensions.PenToImmutableIdempotent | src/Avalonia.Base/Media/BrushExtensions.cs:58-68 | Converting a converted pen again returns it unchanged |
| PenExtensions.ServerPenFailsOnlyThroughParts | src/Avalonia.Base/Media/BrushExtensions.cs:64 | A server pen fails to convert exactly when its brush or its dash style is of an unknown kind |
| ServerPen.ServerPenToImmutable | src/Avalonia.Base/Rendering/Composition/Drawing/ServerCompositionSimplePen.cs:13-22 | The immutable pen keeps thickness, caps, join and miter limit; its brush and dash style are the converted ones, and null stays null |
| ServerPen.ServerPenToImmutableErrors | src/Avalonia.Base/Rendering/Composition/Drawing/ServerCompositionSimplePen.cs:13-22 | The conversion can only throw argument-out-of-range. It cannot fail with a null brush and dash style. The brush is converted before the dash style |
| RenderDataNodes.BitmapDrawCalls | src/Avalonia.Base/Rendering/Composition/Drawing/Nodes/RenderDataBitmapNode.cs:17-21 | Exactly one bitmap draw with the node's values when a bitmap is held, and none otherwise |
| RenderDataNodes.RenderDataBitmapNode.Invoke | src/Avalonia.Base/Rendering/Composition/Drawing/Nodes/RenderDataBitmapNode.cs:17-21 | Invoking a node draws exactly when it holds a bitmap, and then draws that bitmap with its opacity and rectangles |
| RenderDataNodes.RenderDataBitmapNode.HitTest | src/Avalonia.Base/Rendering/Composition/Drawing/Nodes/RenderDataBitmapNode.cs:15 | A point hits the node exactly when it lies in the bounds |
| RenderDataNodes.RenderDataBitmapNode.Bounds | src/Avalonia.Base/Rendering/Composition/Drawing/Nodes/RenderDataBitmapNode.cs:23 | The bounds are never null: they are always the node's `DestRect` |
| RenderDataNodes.RenderDataBitmapNode.Dispose | src/Avalonia.Base/Rendering/Composition/Drawing/Nodes/RenderDataBitmapNode.cs:24-28 | The held reference is disposed and forgotten, after which nothing is drawn; the other fields stay, and a second call changes nothing |
| RenderDataNodes.RenderDataBitmapNode.DiagnosticProperties | src/Avalonia.Base/Rendering/Composition/Drawing/Nodes/RenderDataBitmapNode.cs:30-37 | Exactly the five diagnostic keys; the bitmap entry is null exactly when there is no bitmap; bounds and destination rectangle agree |
| RenderDataNodes.RenderDataBitmapNode.PopulateDiagnosticProperties | src/Avalonia.Base/Rendering/Composition/Drawing/Nodes/RenderDataBitmapNode.cs:30-37 | The caller's dictionary gets the five diagnostic entries overwritten |
| RenderDataNodes.DiagnosticUpdateKeepsOtherKeys | src/Avalonia.Base/Rendering/Composition/Drawing/Nodes/RenderDataBitmapNode.cs:30-37 | Populating adds the five keys and leaves every other key and its value as it was |
| DrawingContext.LoggedBrush | src/Avalonia.Base/Diagnostics/CompositionTreeSnapshot.cs:199-208 | A logged brush is null for a null brush and otherwise its immutable conversion, which fails exactly when the conversion throws |
| DrawingContext.LoggedPen | src/Avalonia.Base/Diagnostics/CompositionTreeSnapshot.cs:188-197 | A logged pen is null for a null pen and otherwise its immutable conversion, which fails exactly when the conversion throws |
| DrawingContext.Fields | src/Avalonia.Base/Diagnostics/CompositionTreeSnapshot.cs:155-386 | The dictionary a walker method builds never holds "Operation" itself, and only the calls that convert a brush, pen or opacity mask can fail to build it |
| DrawingContext.EntryOf | src/Avalonia.Base/Diagnostics/CompositionTreeSnapshot.cs:149-153 | A call's entry is built exactly when its dictionary is |
| DrawingContext.EntryOfAddsOperation | src/Avalonia.Base/Diagnostics/CompositionTreeSnapshot.cs:149-153 | `AddItem` adds exactly one key, "Operation", and keeps every other key and value the walker method built |
| DrawingContext.EntryNamesOperation | src/Avalonia.Base/Diagnostics/CompositionTreeSnapshot.cs:149-153 | Every log entry that can be built names the walker method that received the call |
| DrawingContext.PopEntryHoldsOnlyName | src/Avalonia.Base/Diagnostics/CompositionTreeSnapshot.cs:290-386 | A pop call is always logged, and its entry holds its operation name and nothing else |
| DrawingContext.EntryOfNullBrushAndPen | src/Avalonia.Base/Diagnostics/CompositionTreeSnapshot.cs:155-386 | A geometry, rectangle, region or ellipse call with a null brush and a null pen is always logged, with null for both |
| DrawingContext.EntryOfWithoutConversion | src/Avalonia.Base/Diagnostics/CompositionTreeSnapshot.cs:155-386 | Only a brush, pen or opacity-mask conversion can throw: clears, bitmaps, layers, clips, opacity, geometry clips, render options, effects and pops are always logged |
| TreeSnapshot.Forwarded | src/Avalonia.Base/Diagnostics/CompositionTreeSnapshot.cs:373-386 | Every logged call is forwarded except an effect call when the inner context does not support effects |
| TreeSnapshot.DrawingContextWalker.SetTransform | src/Avalonia.Base/Diagnostics/CompositionTreeSnapshot.cs:143-147 | The transform setter writes the inner context's transform, which the getter then reads back, and logs nothing |
| TreeSnapshot.DrawingContextWalker.Dispose | src/Avalonia.Base/Diagnostics/CompositionTreeSnapshot.cs:139-141 | Disposing the walker logs and forwards nothing |
| TreeSnapshot.DrawingContextWalker.AddItem | src/Avalonia.Base/Diagnostics/CompositionTreeSnapshot.cs:149-153 | The dictionary, named after its caller, is appended to the log |
| TreeSnapshot.DrawingContextWalker.Record | src/Avalonia.Base/Diagnostics/CompositionTreeSnapshot.cs:155-386 | A call whose dictionary cannot be built throws and leaves log and inner context untouched; otherwise its entry is logged and the call forwarded |
| TreeSnapshot.DrawingContextWalker.CreateLayer | src/Avalonia.Base/Diagnostics/CompositionTreeSnapshot.cs:254-261 | The size is logged and the inner context's new layer is returned |
| TreeSnapshot.ReplayLogsEveryCall | src/Avalonia.Base/Diagnostics/CompositionTreeSnapshot.cs:80-85 | Whatever the rule that builds each call's entry, a complete replay logs one entry per call, in call order, each the entry of its call |
| TreeSnapshot.ReplayNamesEveryCall | src/Avalonia.Base/Diagnostics/CompositionTreeSnapshot.cs:80-85 | Each entry the walker logs in a complete replay names the walker method of its call, and a pop entry holds nothing else |
| TreeSnapshot.ReplayStopsAtFirstFailure | src/Avalonia.Base/Diagnostics/CompositionTreeSnapshot.cs:80-85 | A failed replay has logged exactly the calls before the first one whose entry cannot be built, and reports that call's exception |
| TreeSnapshot.ReplayFailurePersists | src/Avalonia.Base/Diagnostics/CompositionTreeSnapshot.cs:80-85 | Once a prefix of the calls has failed, nothing after it is logged or forwarded |
| TreeSnapshot.ReplayAppend | src/Avalonia.Base/Diagnostics/CompositionTreeSnapshot.cs:80-85 | Replaying two call lists in a row is replaying the first, then, unless it failed, the second, with the results appended |
| TreeSnapshot.ReplayCalls | src/Avalonia.Base/Diagnostics/CompositionTreeSnapshot.cs:80-83 | Recording the calls one by one appends the replay's log and forwarded calls and ends with its exception |
| TreeSnapshot.RecordNext | src/Avalonia.Base/Diagnostics/CompositionTreeSnapshot.cs:82 | Recording one more call continues the replay of the calls before it: the log, the forwarded calls and the exception are those of the longer replay |
| TreeSnapshot.InvokeItem | src/Avalonia.Base/Diagnostics/CompositionTreeSnapshot.cs:82 | Invoking one more item continues the replay of the items before it |
| TreeSnapshot.ReplayItems | src/Avalonia.Base/Diagnostics/CompositionTreeSnapshot.cs:79-85 | Invoking every render-data item through the walker appends the replay of all their calls, in order, and ends with its exception |
| TreeSnapshot.ChildrenOfAt | src/Avalonia.Base/Diagnostics/CompositionTreeSnapshot.cs:94-95 | Child item i is the item of child visual i |
| TreeSnapshot.ItemOf | src/Avalonia.Base/Diagnostics/CompositionTreeSnapshot.cs:67-98 | A built item carries the visual's type name, diagnostic properties, combined transform, clip settings and size; a visual that is neither a container nor has render data never throws and has no children |
| TreeSnapshot.ChildrenOf | src/Avalonia.Base/Diagnostics/CompositionTreeSnapshot.cs:94-95 | When every child's item is built, there is one item per child |
| TreeSnapshot.ItemOfShape | src/Avalonia.Base/Diagnostics/CompositionTreeSnapshot.cs:67-98 | The item has its children in order, one per child of a container and none otherwise. It has draw operations and a bitmap exactly for a draw-list visual with render data; those operations are the log entries of the data's calls, in order, and the bitmap has the visual's size truncated to integers |
| TreeSnapshot.BitmapsPerDrawList | src/Avalonia.Base/Diagnostics/CompositionTreeSnapshot.cs:72-97 | A snapshot holds one bitmap per draw-list visual with render data in the tree |
| TreeSnapshot.Destroy | src/Avalonia.Base/Diagnostics/CompositionTreeSnapshot.cs:126-131 | Every bitmap of the item tree is disposed, the item's own first, then each child's tree in order |
| TreeSnapshot.CompositionTreeSnapshot.constructor | src/Avalonia.Base/Diagnostics/CompositionTreeSnapshot.cs:26-30 | A snapshot holds its root item and is not disposed |
| TreeSnapshot.CompositionTreeSnapshot.HitTest | src/Avalonia.Base/Diagnostics/CompositionTreeSnapshot.cs:54-57 | Hit testing never finds an item |
| TreeSnapshot.CompositionTreeSnapshot.DisposeAsync | src/Avalonia.Base/Diagnostics/CompositionTreeSnapshot.cs:34-41 | The snapshot is marked disposed and every bitmap of its tree is disposed |
| TreeSnapshot.TakeAsync | src/Avalonia.Base/Diagnostics/CompositionTreeSnapshot.cs:43-52 | No snapshot for a visual without a root. Otherwise a fresh, undisposed snapshot whose root is the item of the server visual. It fails exactly when building that item throws |
| TreeSnapshot.RenderToBitmap | src/Avalonia.Base/Diagnostics/CompositionTreeSnapshot.cs:114-124 | There is no bitmap exactly when the item has none; otherwise it is the item's rendered content |
| MediaTypes.TruncateToInt | src/Avalonia.Base/Diagnostics/CompositionTreeSnapshot.cs:74 | The `(int)` cast of the size truncates toward zero |
| PullToRefresh.FirstScrollViewer | src/Avalonia.Controls/PullToRefresh/ScrollViewerIRefreshInfoProviderAdapter.cs:51-60 | There is none exactly when no node in the list is a scroll viewer; otherwise it is the scroll viewer of the first node that is one |
| PullToRefresh.FindAtLevel | src/Avalonia.Controls/PullToRefresh/ScrollViewerIRefreshInfoProviderAdapter.cs:47-72 | The recursive helper at depth d returns the leftmost scroll viewer among the nodes d + 1 levels below the root |
| PullToRefresh.SearchFromShallowest | src/Avalonia.Controls/PullToRefresh/ScrollViewerIRefreshInfoProviderAdapter.cs:33-44 | A found scroll viewer is the leftmost one on the shallowest level, below the search depth limit, that has any |
| PullToRefresh.SearchFromNone | src/Avalonia.Controls/PullToRefresh/ScrollViewerIRefreshInfoProviderAdapter.cs:33-44 | The loop finds nothing exactly when no level up to the depth limit holds a scroll viewer |
| PullToRefresh.SearchFindsNothing | src/Avalonia.Controls/PullToRefresh/ScrollViewerIRefreshInfoProviderAdapter.cs:33-44 | The search from the root finds nothing exactly when no node of levels 1 to the depth limit is a scroll viewer |
| PullToRefresh.SearchTargetShallowestLeftmost | src/Avalonia.Controls/PullToRefresh/ScrollViewerIRefreshInfoProviderAdapter.cs:25-75 | A root that is a scroll viewer is itself the target. Otherwise the target is the leftmost scroll viewer on the shallowest level from 1 to `MaxSearchDepth` that has one. There is none when no such level has one |
| PullToRefresh.AdaptOutcome | src/Avalonia.Controls/PullToRefresh/ScrollViewerIRefreshInfoProviderAdapter.cs:77-141 | Adapt fails exactly on a null adaptee, a null or non-visual content, or content with a visual parent whose logical parent is not an input element, whatever was adapted before. On success the provider is kept and a gesture recognizer is created, and it is attached, with the provider's handlers, whenever an interaction source is already known |
| PullToRefresh.AdaptAsWrittenSecondCallThrows | src/Avalonia.Controls/PullToRefresh/ScrollViewerIRefreshInfoProviderAdapter.cs:172-183 | As written, a second adapt of a scroll viewer whose content already sits under an input element throws a null reference, although the validation accepts it |
| PullToRefresh.ScrollViewerRefreshAdapter.constructor | src/Avalonia.Controls/PullToRefresh/ScrollViewerIRefreshInfoProviderAdapter.cs:20-23 | A new adapter has adapted nothing and keeps the pull direction |
| PullToRefresh.ScrollViewerRefreshAdapter.MakeInteractionSource | src/Avalonia.Controls/PullToRefresh/ScrollViewerIRefreshInfoProviderAdapter.cs:172-183 | The interaction source is recorded; when a recognizer exists, the provider's handlers are attached only if there is a provider. This is the corrected form: as written, lines 176-179 throw when there is a recognizer but no provider (see "## Findings"); `MakeInteractionSourceSpec(…, false)` models that form |
| PullToRefresh.ScrollViewerRefreshAdapter.ScrollViewerLoaded | src/Avalonia.Controls/PullToRefresh/ScrollViewerIRefreshInfoProviderAdapter.cs:154-170 | The loaded handler re-checks the content and its parent and makes the interaction source |
| PullToRefresh.ScrollViewerRefreshAdapter.Adapt | src/Avalonia.Controls/PullToRefresh/ScrollViewerIRefreshInfoProviderAdapter.cs:77-141 | Adapt follows the corrected adapt specification, result and new state alike |
| PullToRefresh.ScrollViewerRefreshAdapter.AdaptFromTree | src/Avalonia.Controls/PullToRefresh/ScrollViewerIRefreshInfoProviderAdapter.cs:25-75 | When the search finds no scroll viewer, the result is no provider and nothing changes; otherwise the found scroll viewer is adapted |

## Left out

- Compositor.RenderCoreError: `Animations.Process()` and `ApplyEnqueuedRenderResourceChanges()` (ServerCompositor.cs lines 228 and 231) are modelled as steps that cannot throw. In the source they run before the `try`, so an exception from them would escape `Render` whatever `catchExceptions` and the context-lost filter say; the model's "fails exactly when" covers only batch-stream and pass exceptions.
- ServerBrushes.DeserializeReplacesStops: the base brush deserializer (`base.DeserializeChangesCore`, ServerSimpleCompositionBrush.cs line 32) is modelled as one token that always sets opacity, transform and transform origin. The generated base code's per-property change mask is not modelled, so the claim that opacity is the token's value relies on that abstraction.
- Threads, locks and the dispatcher: the compositor's lock and the UI-thread test are flags, and the calling thread is a parameter. `Dispatcher.DisableProcessing` is not modelled.
- Collaborators of the compositor (animations, render-resource changes, the render interface, targets, jobs and batch notifications) appear as events appended to a trace. Whether the render interface is ready, which jobs throw and where the pass throws come from a `RenderEnvironment` parameter. A job never touches the compositor's own queues.
- The object stream and the data stream of a batch are one token sequence in reading order. Memory blocks, pooling and byte layout are not modelled. A server object's own `DeserializeChanges` is represented by the number of entries it reads.
- Compositor.ServerCompositor.UpdateServerTime: the clock is a parameter, and the time arithmetic of `ServerNow` is not modelled.
- The compositor's construction side (creating the render loop, registering with it, `CreateRenderTarget`, the render-interface context and its disposal, `DisposeAsync` of the UI compositor) is not modelled.
- Floating point is modelled as `real`; rounding is not.
- Rasterisation: the snapshot bitmap is the pixel size plus the calls drawn into it. `Save`, the memory stream and `new Bitmap(ms)` in `RenderToBitmapAsync` are not modelled, nor is its `drawOperationIndex` parameter, which the source ignores.
- TreeSnapshot.CompositionTreeSnapshot.DisposeAsync: the server job is run at once instead of on the compositor's job queue, and the returned task is not modelled.
- TreeSnapshot.TakeAsync: the snapshot is built directly instead of inside a server job, and `Compositor` is not kept.
- The snapshot item's diagnostic properties, transform, clip and size are copied values. The visual's own `PopulateDiagnosticProperties` is represented by the dictionary it produces.
- The walker's log dictionaries are keyed by `LogKey`, one value per constant key name the walker writes (`LogKey.Name` is that string), rather than by arbitrary strings; no other key can occur.
- `GetFeature` of the walker passes the request on to the inner context (`inner.GetFeature(t)`); features are not modelled, so neither is this call. `ToString()` of brushes, bitmaps and other resources is a resource value.
- Reference counting of `IRef<IBitmapImpl>`: a bitmap reference is a flag that disposing sets.
- The client `Pen`, `DashStyle` and other mutable brushes are represented by the value their own `ToImmutable` yields. `ITransform.ToImmutable` and the effect conversion are taken as given.
- The pull-to-refresh adapter's event wiring is not modelled:
  - the `Loaded` subscription and its removal;
  - `ScrollChanged`, `PointerPressed` and `PointerReleased`;
  - the offset threshold;
  - interaction ratio updates;
  - `CleanUpScrollViewer`.
  `ScrollViewer_Loaded` is modelled as called directly, as `Adapt` does when the content already has a visual parent.
- PullToRefresh.ScrollViewerRefreshAdapter.MakeInteractionSource: adding the recognizer to the element's gesture recognizers is recorded as a flag; the gesture itself is not modelled.

## Findings

| source | as written | input that shows it | evidently intended | confidence | as-written member | corrected member |
|---|---|---|---|---|---|---|
| src/Avalonia.Controls/PullToRefresh/ScrollViewerIRefreshInfoProviderAdapter.cs:172-183 | `MakeInteractionSource` calls a method on `_refreshInfoProvider` whenever the pull gesture recognizer already exists. But `Adapt` clears the provider before it calls `ScrollViewer_Loaded` | `Adapt` called twice on the same scroll viewer whose content already has a visual parent under an input element: the second call throws (a null-target exception, whose exact type depends on the runtime) | The provider's handlers are attached only when there is a provider (`Adapt` attaches them itself at lines 124-134), so a valid adaptee is accepted whatever was adapted before | not executed | PullToRefresh.AdaptAsWrittenSecondCallThrows | PullToRefresh.AdaptOutcome |

=== FILE: bitmap_node.dfy ===
/** `RenderDataBitmapNode`: the render-data item that draws a bitmap. */
module RenderDataNodes {
  import opened Wrappers
  import opened MediaTypes
  import opened DrawingContext

  /** `IRef<IBitmapImpl>`: a counted reference to a platform bitmap; disposing
      it releases this reference. */
  class BitmapRef {
    const item: BitmapImpl
    var disposed: bool

    constructor (item: BitmapImpl)
      ensures this.item == item && !disposed
    {
      this.item := item;
      disposed := false;
    }

    method Dispose()
      modifies this
      ensures disposed
    {
      disposed := true;
    }
  }

  /** The calls `Invoke` makes for the given field values: one `DrawBitmap`
      with those values when there is a bitmap, none otherwise. */
  function BitmapDrawCalls(bitmap: Option<BitmapImpl>, opacity: real, sourceRect: Rect, destRect: Rect): (r: seq<DrawCall>)
    ensures |r| <= 1
    ensures r != [] <==> bitmap.Some?
    ensures bitmap.Some? ==> r[0] == DrawBitmap(bitmap.value, opacity, sourceRect, destRect)
  {
    if bitmap.Some? then [DrawBitmap(bitmap.value, opacity, sourceRect, destRect)] else []
  }

  /** A caller's `Dictionary<string, object?>`. */
  class PropertyDictionary {
    var items: map<string, LogValue>

    constructor ()
      ensures items == map[]
    {
      items := map[];
    }
  }

  /** The keys `PopulateDiagnosticProperties` writes. */
  const DiagnosticKeys: set<string> := {"Bounds", "Bitmap", "Opacity", "SourceRect", "DestRect"}

  class RenderDataBitmapNode {
    var bitmap: BitmapRef?
    var opacity: real
    var sourceRect: Rect
    var destRect: Rect

    constructor (bitmap: BitmapRef?, opacity: real, sourceRect: Rect, destRect: Rect)
      ensures this.bitmap == bitmap && this.opacity == opacity
      ensures this.sourceRect == sourceRect && this.destRect == destRect
    {
      this.bitmap := bitmap;
      this.opacity := opacity;
      this.sourceRect := sourceRect;
      this.destRect := destRect;
    }

    /** `Bitmap?.Item`. */
    function Item(): Option<BitmapImpl>
      reads this
    {
      if bitmap == null then None else Some(bitmap.item)
    }

    /** A point hits the node exactly when it lies inside `Bounds`. */
    predicate HitTest(p: Point): (r: bool)
      reads this
      ensures r <==> Bounds().value.Contains(p)
    {
      destRect.Contains(p)
    }

    /** The bounds are never null: they are the destination rectangle. */
    function Bounds(): (r: Option<Rect>)
      reads this
      ensures r.Some?
      ensures r == Some(destRect)
    {
      Some(destRect)
    }

    /** The calls made on the render context's drawing context: a draw
        exactly when the node holds a bitmap, of that bitmap with the node's
        opacity and rectangles. */
    function Invoke(): (r: seq<DrawCall>)
      reads this
      ensures |r| <= 1
      ensures r != [] <==> bitmap != null
      ensures bitmap != null ==> r == [DrawBitmap(bitmap.item, opacity, sourceRect, destRect)]
    {
      BitmapDrawCalls(Item(), opacity, sourceRect, destRect)
    }

    /** The values written into the diagnostic dictionary. */
    function DiagnosticProperties(): (r: map<string, LogValue>)
      reads this
      ensures r.Keys == DiagnosticKeys
      ensures r["Bitmap"] == NullValue <==> bitmap == null
      ensures bitmap != null ==> r["Bitmap"] == ResourceString(BitmapResource(bitmap.item))
      ensures r["Bounds"] == r["DestRect"] == RectValue(destRect)
      ensures r["Opacity"] == RealValue(opacity) && r["SourceRect"] == RectValue(sourceRect)
    {
      map["Bounds" := RectValue(Bounds().value),
          "Bitmap" := if Item().Some? then ResourceString(BitmapResource(Item().value)) else NullValue,
          "Opacity" := RealValue(opacity),
          "SourceRect" := RectValue(sourceRect),
          "DestRect" := RectValue(destRect)]
    }

    /** Releases the bitmap reference, if any, and forgets it; a second call
        changes nothing. */
    method Dispose()
      modifies this, bitmap
      ensures bitmap == null && Invoke() == []
      ensures old(bitmap) != null ==> old(bitmap).disposed
      ensures opacity == old(opacity) && sourceRect == old(sourceRect) && destRect == old(destRect)
      ensures old(bitmap) == null ==> unchanged(this)
    {
      if bitmap != null {
        bitmap.Dispose();
      }
      bitmap := null;
    }

    /** Overwrites the five diagnostic keys and leaves every other key as it was. */
    method PopulateDiagnosticProperties(properties: PropertyDictionary)
      modifies properties
      ensures properties.items == old(properties.items) + DiagnosticProperties()
    {
      ghost var before := properties.items;
      properties.items := properties.items["Bounds" := RectValue(Bounds().value)];
      properties.items := properties.items["Bitmap" := if Item().Some? then ResourceString(BitmapResource(Item().value)) else NullValue];
      properties.items := properties.items["Opacity" := RealValue(opacity)];
      properties.items := properties.items["SourceRect" := RectValue(sourceRect)];
      properties.items := properties.items["DestRect" := RectValue(destRect)];
      UpdatesAreUnion(before, "Bounds", "Bitmap", "Opacity", "SourceRect", "DestRect",
        RectValue(Bounds().value), if Item().Some? then ResourceString(BitmapResource(Item().value)) else NullValue,
        RealValue(opacity), RectValue(sourceRect), RectValue(destRect));
    }
  }

  /** Five updates in a row are the union with the display of those updates. */
  lemma UpdatesAreUnion<K, V>(m: map<K, V>, k1: K, k2: K, k3: K, k4: K, k5: K, v1: V, v2: V, v3: V, v4: V, v5: V)
    ensures m[k1 := v1][k2 := v2][k3 := v3][k4 := v4][k5 := v5] == m + map[k1 := v1, k2 := v2, k3 := v3, k4 := v4, k5 := v5]
  {
  }

  /** Adding the diagnostic values to a dictionary sets the five keys and
      leaves every other key, and its value, as it was. */
  lemma DiagnosticUpdateKeepsOtherKeys(before: map<string, LogValue>, node: RenderDataBitmapNode)
    ensures var after := before + node.DiagnosticProperties();
      && after.Keys == before.Keys + DiagnosticKeys
      && (forall k :: k in DiagnosticKeys ==> after[k] == node.DiagnosticProperties()[k])
      && (forall k :: k in before && k !in DiagnosticKeys ==> after[k] == before[k])
  {
  }
}

=== FILE: brush_extensions.dfy ===
/** `BrushExtensions`: the `ToImmutable` dispatchers for brushes and dash
    styles. A brush is seen through the interfaces it implements, because the
    dispatcher is a type switch whose first matching arm wins. */
module BrushExtensions {
  import opened Wrappers
  import opened ServerBrushes

  /** The two exceptions the dispatchers throw. */
  datatype ArgumentError = ArgumentNull | ArgumentOutOfRange

  /** An `IMutableBrush`: the server gradient and solid-colour brushes of this
      model, or a client brush, whose own `ToImmutable` is not part of this
      model and is represented by the value it yields. */
  datatype MutableBrush =
    | ServerGradient(gradient: GradientBrushState)
    | ServerSolidColor(solid: SolidColorBrushState)
    | ClientMutable(converted: ImmutableBrush)

  /** The mutable brush's own `ToImmutable()`. */
  function MutableToImmutable(m: MutableBrush): ImmutableBrush {
    match m
    case ServerGradient(g) => GradientToImmutable(g)
    case ServerSolidColor(s) => SolidColorToImmutable(s)
    case ClientMutable(c) => c
  }

  /** A non-null `IBrush`: the immutable brush it is when it implements
      `IImmutableBrush`, and the mutable brush it is when it implements
      `IMutableBrush`. A brush implementing neither is some other kind. */
  datatype Brush = Brush(asImmutable: Option<ImmutableBrush>, asMutable: Option<MutableBrush>)

  /** An immutable brush passed where an `IBrush` is expected. */
  function ImmutableAsBrush(b: ImmutableBrush): Brush {
    Brush(Some(b), None)
  }

  /** A mutable brush passed where an `IBrush` is expected. */
  function MutableAsBrush(m: MutableBrush): Brush {
    Brush(None, Some(m))
  }

  /** `BrushExtensions.ToImmutable(IBrush)`; `None` is a null brush. */
  function BrushToImmutable(brush: Option<Brush>): (r: Result<ImmutableBrush, ArgumentError>)
    ensures r == Failure(ArgumentNull) <==> brush.None?
    ensures r == Failure(ArgumentOutOfRange) <==>
      brush.Some? && brush.value.asImmutable.None? && brush.value.asMutable.None?
    ensures brush.Some? && brush.value.asImmutable.Some? ==> r == Success(brush.value.asImmutable.value)
    ensures brush.Some? && brush.value.asImmutable.None? && brush.value.asMutable.Some? ==>
      r == Success(MutableToImmutable(brush.value.asMutable.value))
  {
    match brush
    case None => Failure(ArgumentNull)
    case Some(b) =>
      if b.asImmutable.Some? then Success(b.asImmutable.value)
      else if b.asMutable.Some? then Success(MutableToImmutable(b.asMutable.value))
      else Failure(ArgumentOutOfRange)
  }

  /** Converting the result again returns it unchanged: `ToImmutable` is
      idempotent, and so is the conversion of a mutable brush. */
  lemma BrushToImmutableIdempotent(brush: Option<Brush>)
    requires BrushToImmutable(brush).Success?
    ensures var r := BrushToImmutable(brush).value;
      BrushToImmutable(Some(ImmutableAsBrush(r))) == Success(r)
  {
  }

  /** The immutable arm is tried first: a brush that is both immutable and
      mutable is returned as it is, not converted. */
  lemma ImmutableArmFirst(i: ImmutableBrush, m: MutableBrush)
    ensures BrushToImmutable(Some(Brush(Some(i), Some(m)))) == Success(i)
    ensures BrushToImmutable(Some(MutableAsBrush(m))) == Success(MutableToImmutable(m))
  {
  }

  /** An `ImmutableDashStyle`. */
  datatype ImmutableDashStyle = ImmutableDashStyle(dashes: seq<real>, offset: real)

  /** A non-null `IDashStyle`: a client `DashStyle` (its own `ToImmutable` is
      not part of this model and is represented by the value it yields), an
      `ImmutableDashStyle`, or some other implementation. */
  datatype DashStyle =
    | ClientDashStyle(converted: ImmutableDashStyle)
    | ImmutableDash(style: ImmutableDashStyle)
    | OtherDashStyle(id: nat)

  /** `BrushExtensions.ToImmutable(IDashStyle)`; `None` is a null style. */
  function DashStyleToImmutable(style: Option<DashStyle>): (r: Result<ImmutableDashStyle, ArgumentError>)
    ensures r == Failure(ArgumentNull) <==> style.None?
    ensures r == Failure(ArgumentOutOfRange) <==> style.Some? && style.value.OtherDashStyle?
    ensures style.Some? && style.value.ImmutableDash? ==> r == Success(style.value.style)
    ensures style.Some? && style.value.ClientDashStyle? ==> r == Success(style.value.converted)
  {
    match style
    case None => Failure(ArgumentNull)
    case Some(ClientDashStyle(c)) => Success(c)
    case Some(ImmutableDash(s)) => Success(s)
    case Some(OtherDashStyle(_)) => Failure(ArgumentOutOfRange)
  }

  /** Dash-style conversion is idempotent. */
  lemma DashStyleToImmutableIdempotent(style: Option<DashStyle>)
    requires DashStyleToImmutable(style).Success?
    ensures var r := DashStyleToImmutable(style).value;
      DashStyleToImmutable(Some(ImmutableDash(r))) == Success(r)
  {
  }
}

/** `BrushExtensions.ToImmutable(IPen)`: the pen dispatcher. It lives in its
    own module because it delegates to the server pen, which in turn uses the
    brush and dash-style dispatchers. */
module PenExtensions {
  import opened Wrappers
  import opened BrushExtensions
  import opened ServerPen

  /** A non-null `IPen`: an `ImmutablePen`, a client `Pen` (its own
      `ToImmutable` is not part of this model and is represented by the
      outcome it yields), a server simple pen, or some other implementation. */
  datatype Pen =
    | ImmutablePenRef(pen: ImmutablePen)
    | ClientPen(converted: Result<ImmutablePen, ArgumentError>)
    | ServerSimplePen(state: ServerPenState)
    | OtherPen(id: nat)

  function PenToImmutable(pen: Option<Pen>): (r: Result<ImmutablePen, ArgumentError>)
    ensures pen.None? ==> r == Failure(ArgumentNull)
    ensures pen.Some? && pen.value.OtherPen? ==> r == Failure(ArgumentOutOfRange)
    ensures pen.Some? && pen.value.ImmutablePenRef? ==> r == Success(pen.value.pen)
    ensures pen.Some? && pen.value.ClientPen? ==> r == pen.value.converted
    ensures pen.Some? && pen.value.ServerSimplePen? ==> r == ServerPenToImmutable(pen.value.state)
  {
    match pen
    case None => Failure(ArgumentNull)
    case Some(ImmutablePenRef(p)) => Success(p)
    case Some(ClientPen(c)) => c
    case Some(ServerSimplePen(s)) => ServerPenToImmutable(s)
    case Some(OtherPen(_)) => Failure(ArgumentOutOfRange)
  }

  /** Pen conversion is idempotent. */
  lemma PenToImmutableIdempotent(pen: Option<Pen>)
    requires PenToImmutable(pen).Success?
    ensures var r := PenToImmutable(pen).value;
      PenToImmutable(Some(ImmutablePenRef(r))) == Success(r)
  {
  }

  /** A server pen whose brush and dash style are null or of a known kind is
      always converted; the conversion fails only through its brush or its
      dash style. */
  lemma ServerPenFailsOnlyThroughParts(s: ServerPenState)
    ensures PenToImmutable(Some(ServerSimplePen(s))).Failure? <==>
      (s.brush.Some? && s.brush.value.asImmutable.None? && s.brush.value.asMutable.None?)
      || (s.dashStyle.Some? && s.dashStyle.value.OtherDashStyle?)
  {
  }
}

=== FILE: brushes.dfy ===
/** The server-side simple brushes: gradient brushes that read their stop list
    from the batch stream, and the conversion of every server brush to an
    immutable brush. The three gradient kinds (linear, conic, radial) share one
    class here; the kind-specific fields are its `geometry`. */
module ServerBrushes {
  import opened Wrappers
  import opened MediaTypes
  import opened Transport
  import opened GradientStopList
  import opened Sequences

  /** The immutable brushes the conversions produce. Image, visual and other
      immutable brushes are not part of this model and appear as `OtherImmutableBrush`. */
  datatype ImmutableBrush =
    | ImmutableSolidColorBrush(color: Color, opacity: real, transform: Option<ImmutableTransform>)
    | ImmutableLinearGradientBrush(stops: seq<ImmutableGradientStop>, opacity: real,
                                   transform: Option<ImmutableTransform>, transformOrigin: RelativePoint,
                                   spreadMethod: GradientSpreadMethod,
                                   startPoint: RelativePoint, endPoint: RelativePoint)
    | ImmutableConicGradientBrush(stops: seq<ImmutableGradientStop>, opacity: real,
                                  transform: Option<ImmutableTransform>, transformOrigin: RelativePoint,
                                  spreadMethod: GradientSpreadMethod,
                                  center: RelativePoint, angle: real)
    | ImmutableRadialGradientBrush(stops: seq<ImmutableGradientStop>, opacity: real,
                                   transform: Option<ImmutableTransform>, transformOrigin: RelativePoint,
                                   spreadMethod: GradientSpreadMethod,
                                   center: RelativePoint, gradientOrigin: RelativePoint, radius: real)
    | OtherImmutableBrush(id: nat)
  {
    predicate IsGradient() {
      ImmutableLinearGradientBrush? || ImmutableConicGradientBrush? || ImmutableRadialGradientBrush?
    }
  }

  /** The fields that distinguish the three server gradient brushes. */
  datatype GradientGeometry =
    | LinearGeometry(startPoint: RelativePoint, endPoint: RelativePoint)
    | ConicGeometry(center: RelativePoint, angle: real)
    | RadialGeometry(center: RelativePoint, gradientOrigin: RelativePoint, radiusX: RelativeScalar)

  /** The field values of a server gradient brush. */
  datatype GradientBrushState = GradientBrushState(
    opacity: real,
    transform: Option<Transform>,
    transformOrigin: RelativePoint,
    spreadMethod: GradientSpreadMethod,
    gradientStops: seq<GradientStop>,
    geometry: GradientGeometry)

  /** The field values of a server solid-colour brush. */
  datatype SolidColorBrushState = SolidColorBrushState(color: Color, opacity: real, transform: Option<Transform>)

  /** `Transform?.ToImmutable()`: converted when present, null otherwise. */
  function ImmutableTransformOf(t: Option<Transform>): (r: Option<ImmutableTransform>)
    ensures r.Some? <==> t.Some?
    ensures t.Some? ==> r.value == TransformToImmutable(t.value)
  {
    match t
    case None => None
    case Some(x) => Some(TransformToImmutable(x))
  }

  /** The radial brush's `Radius`: the scalar of `RadiusX`. */
  function Radius(radiusX: RelativeScalar): real {
    radiusX.scalar
  }

  /** `ToImmutable` of the linear, conic and radial server brushes: the stops
      go through `AsImmutable`; opacity, transform origin and spread method
      are kept, the transform is converted when present, and the radial
      brush gets `RadiusX.Scalar` as its radius. */
  function GradientToImmutable(b: GradientBrushState): (r: ImmutableBrush)
    ensures r.IsGradient()
    ensures r.stops == ImmutableStops(b.gradientStops) && |r.stops| == |b.gradientStops|
    ensures r.opacity == b.opacity && r.transformOrigin == b.transformOrigin && r.spreadMethod == b.spreadMethod
    ensures r.transform.None? <==> b.transform.None?
    ensures b.transform.Some? ==> r.transform == Some(TransformToImmutable(b.transform.value))
    ensures r.ImmutableLinearGradientBrush? <==> b.geometry.LinearGeometry?
    ensures r.ImmutableConicGradientBrush? <==> b.geometry.ConicGeometry?
    ensures r.ImmutableRadialGradientBrush? <==> b.geometry.RadialGeometry?
    ensures b.geometry.LinearGeometry? ==> r.startPoint == b.geometry.startPoint && r.endPoint == b.geometry.endPoint
    ensures b.geometry.ConicGeometry? ==> r.center == b.geometry.center && r.angle == b.geometry.angle
    ensures b.geometry.RadialGeometry? ==>
      r.center == b.geometry.center && r.gradientOrigin == b.geometry.gradientOrigin && r.radius == b.geometry.radiusX.scalar
  {
    var stops := ImmutableStops(b.gradientStops);
    var transform := ImmutableTransformOf(b.transform);
    match b.geometry
    case LinearGeometry(startPoint, endPoint) =>
      ImmutableLinearGradientBrush(stops, b.opacity, transform, b.transformOrigin, b.spreadMethod, startPoint, endPoint)
    case ConicGeometry(center, angle) =>
      ImmutableConicGradientBrush(stops, b.opacity, transform, b.transformOrigin, b.spreadMethod, center, angle)
    case RadialGeometry(center, gradientOrigin, radiusX) =>
      ImmutableRadialGradientBrush(stops, b.opacity, transform, b.transformOrigin, b.spreadMethod,
                                   center, gradientOrigin, Radius(radiusX))
  }

  /** `ToImmutable` of the server solid-colour brush. */
  function SolidColorToImmutable(b: SolidColorBrushState): (r: ImmutableBrush)
    ensures r.ImmutableSolidColorBrush?
    ensures r.color == b.color && r.opacity == b.opacity
    ensures r.transform.Some? <==> b.transform.Some?
    ensures b.transform.Some? ==> r.transform == Some(TransformToImmutable(b.transform.value))
  {
    ImmutableSolidColorBrush(b.color, b.opacity, ImmutableTransformOf(b.transform))
  }

  /** What `DeserializeChangesCore` leaves behind: the new field values, the
      number of entries it read and the exception that stopped it, if any. */
  datatype GradientChanges = GradientChanges(state: GradientBrushState, consumed: nat, error: Option<StreamError>)

  datatype StopsRead = StopsRead(stops: seq<ImmutableGradientStop>, consumed: nat, error: Option<StreamError>)

  /** Reads `count` gradient-stop objects (none when `count` is not positive). */
  function ReadStops(s: seq<Token>, count: int): (r: StopsRead)
    ensures r.consumed <= |s|
    decreases if count < 0 then 0 else count
  {
    if count <= 0 then StopsRead([], 0, None)
    else if s == [] then StopsRead([], 0, Some(EndOfStream))
    else if !s[0].GradientStopObject? then StopsRead([], 1, Some(InvalidCast))
    else
      var rest := ReadStops(s[1..], count - 1);
      StopsRead([s[0].stop] + rest.stops, rest.consumed + 1, rest.error)
  }

  /** A complete read takes exactly `count` entries (none if `count` <= 0),
      each a gradient stop, and yields those stops in stream order. */
  lemma {:induction false} ReadStopsExact(s: seq<Token>, count: int)
    requires ReadStops(s, count).error.None?
    ensures var r := ReadStops(s, count);
      && r.consumed == (if count <= 0 then 0 else count)
      && |r.stops| == r.consumed
      && forall i :: 0 <= i < r.consumed ==> s[i] == GradientStopObject(r.stops[i])
    decreases if count < 0 then 0 else count
  {
    if 0 < count {
      ReadStopsExact(s[1..], count - 1);
    }
  }

  /** The specification of `DeserializeChangesCore`: the base brush's fields,
      then the spread method, then (after the old stops are discarded) an int
      count and that many stops. */
  function DeserializeGradient(st: GradientBrushState, s: seq<Token>): (r: GradientChanges)
    ensures r.consumed <= |s|
  {
    match BrushBaseAt(s)
    case Failure(e) => GradientChanges(st, 0, Some(e))
    case Success(base) =>
      var st1 := st.(opacity := base.opacity, transform := base.transform, transformOrigin := base.transformOrigin);
      match SpreadMethodAt(s[1..])
      case Failure(e) => GradientChanges(st1, 1, Some(e))
      case Success(m) =>
        var st2 := st1.(spreadMethod := m, gradientStops := []);
        match IntAt(s[2..])
        case Failure(e) => GradientChanges(st2, 2, Some(e))
        case Success(count) =>
          var read := ReadStops(s[3..], count);
          GradientChanges(st2.(gradientStops := AsGradientStops(read.stops)), 3 + read.consumed, read.error)
  }

  /** After a complete deserialization the stop list is exactly the stops read,
      in stream order, the previous stops are gone, and converting the brush to
      an immutable brush yields exactly those stops. */
  lemma DeserializeReplacesStops(st: GradientBrushState, s: seq<Token>)
    requires DeserializeGradient(st, s).error.None?
    ensures var r := DeserializeGradient(st, s);
      3 <= |s| && s[0].BrushBaseData? && s[1].SpreadMethodData? && s[2].IntData?
      && var n := if s[2].n <= 0 then 0 else s[2].n;
      && r.consumed == 3 + n
      && r.state.spreadMethod == s[1].spreadMethod
      && r.state.opacity == s[0].opacity
      && r.state.geometry == st.geometry
      && |r.state.gradientStops| == n
      && (forall i :: 0 <= i < n ==> s[3 + i] == GradientStopObject(r.state.gradientStops[i].stop))
      && (forall i :: 0 <= i < n ==> r.state.gradientStops[i].ImmutableStop?)
      && GradientToImmutable(r.state).stops == ImmutableStops(r.state.gradientStops)
      && forall i :: 0 <= i < n ==> s[3 + i] == GradientStopObject(GradientToImmutable(r.state).stops[i])
  {
    var r := DeserializeGradient(st, s);
    var read := ReadStops(s[3..], s[2].n);
    ReadStopsExact(s[3..], s[2].n);
    ImmutableStopsOfImmutable(read.stops);
    assert r.state.gradientStops == AsGradientStops(read.stops);
  }

  /** What reading the stop at offset `c` of `s` does to the rest of the read. */
  lemma ReadStopsStep(s: seq<Token>, c: nat, count: int)
    requires c < count && c <= |s|
    ensures c == |s| ==> ReadStops(s[c..], count - c) == StopsRead([], 0, Some(EndOfStream))
    ensures c < |s| && !s[c].GradientStopObject? ==> ReadStops(s[c..], count - c) == StopsRead([], 1, Some(InvalidCast))
    ensures c < |s| && s[c].GradientStopObject? ==>
      var next := ReadStops(s[c + 1..], count - c - 1);
      ReadStops(s[c..], count - c) == StopsRead([s[c].stop] + next.stops, next.consumed + 1, next.error)
  {
    if c < |s| {
      assert s[c..][1..] == s[c + 1..];
    }
  }

  /** The `for` loop of `DeserializeChangesCore`: reads `count` stop objects,
      stopping at the first failed read or cast. */
  method ReadStopObjects(reader: BatchStreamReader, count: int)
      returns (stops: seq<ImmutableGradientStop>, err: Option<StreamError>)
    requires reader.Valid()
    modifies reader`pos
    ensures reader.Valid()
    ensures var r := ReadStops(old(reader.Remaining()), count);
      stops == r.stops && err == r.error && reader.pos == old(reader.pos) + r.consumed
  {
    ghost var s := reader.Remaining();
    ghost var total := ReadStops(s, count);
    stops := [];
    var c := 0;
    while c < count
      invariant reader.Valid() && 0 <= c == |stops| <= |s|
      invariant reader.pos == old(reader.pos) + c
      invariant var rest := ReadStops(s[c..], count - c);
        total.stops == stops + rest.stops && total.consumed == c + rest.consumed && total.error == rest.error
      decreases count - c
    {
      ReadStopsStep(s, c, count);
      var obj := reader.ReadObject();
      if obj.Failure? {
        return stops, Some(obj.error);
      }
      if !obj.value.GradientStopObject? {
        return stops, Some(InvalidCast);
      }
      AppendAssoc(stops, [obj.value.stop], ReadStops(s[c + 1..], count - c - 1).stops);
      stops := stops + [obj.value.stop];
      c := c + 1;
    }
    return stops, None;
  }

  /** A server linear, conic or radial gradient brush. */
  class ServerGradientBrush {
    var opacity: real
    var transform: Option<Transform>
    var transformOrigin: RelativePoint
    var spreadMethod: GradientSpreadMethod
    var gradientStops: seq<GradientStop>
    var geometry: GradientGeometry

    constructor (initial: GradientBrushState)
      ensures State() == initial
    {
      opacity := initial.opacity;
      transform := initial.transform;
      transformOrigin := initial.transformOrigin;
      spreadMethod := initial.spreadMethod;
      gradientStops := initial.gradientStops;
      geometry := initial.geometry;
    }

    function State(): GradientBrushState
      reads this
    {
      GradientBrushState(opacity, transform, transformOrigin, spreadMethod, gradientStops, geometry)
    }

    /** The override of `ToImmutable` for the brush's own kind: a gradient
        brush with the converted stops and the brush's own opacity, origin
        and spread method. */
    function ToImmutable(): (r: ImmutableBrush)
      reads this
      ensures r.IsGradient() && r.stops == ImmutableStops(gradientStops)
      ensures r.opacity == opacity && r.transformOrigin == transformOrigin && r.spreadMethod == spreadMethod
    {
      GradientToImmutable(State())
    }

    method DeserializeChangesCore(reader: BatchStreamReader) returns (err: Option<StreamError>)
      requires reader.Valid()
      modifies this, reader`pos
      ensures reader.Valid()
      ensures var d := DeserializeGradient(old(State()), old(reader.Remaining()));
        && State() == d.state
        && reader.pos == old(reader.pos) + d.consumed
        && err == d.error
    {
      ghost var s := reader.Remaining();
      var base := reader.ReadBrushBase();
      if base.Failure? {
        return Some(base.error);
      }
      opacity, transform, transformOrigin := base.value.opacity, base.value.transform, base.value.transformOrigin;
      assert reader.Remaining() == s[1..];
      var spread := reader.ReadSpreadMethod();
      if spread.Failure? {
        return Some(spread.error);
      }
      spreadMethod := spread.value;
      gradientStops := [];
      assert reader.Remaining() == s[2..];
      var count := reader.ReadInt();
      if count.Failure? {
        return Some(count.error);
      }
      assert reader.Remaining() == s[3..];
      var stops;
      stops, err := ReadStopObjects(reader, count.value);
      gradientStops := AsGradientStops(stops);
    }
  }
}

=== FILE: common.dfy ===
/** Failure-compatible wrappers used by every module of the model: a nullable
    value, the result of an operation that may throw, and the outcome of a
    void operation that may throw. */
module Wrappers {

  datatype Option<+T> = None | Some(value: T)

  datatype Result<+T, +E> = Success(value: T) | Failure(error: E)

  datatype Outcome<+E> = Pass | Fail(error: E)
}

/** Sequence helpers shared by the other modules. */
module Sequences {

  /** Applies `f` to every element, keeping the order. Defined from the back so
      that a loop appending one element at a time matches it step by step. */
  function MapSeq<A, B>(s: seq<A>, f: A -> B): (r: seq<B>)
    ensures |r| == |s|
    ensures forall i :: 0 <= i < |s| ==> r[i] == f(s[i])
  {
    if s == [] then [] else MapSeq(s[..|s| - 1], f) + [f(s[|s| - 1])]
  }

  /** Mapping distributes over concatenation. */
  lemma MapSeqAppend<A, B>(a: seq<A>, b: seq<A>, f: A -> B)
    ensures MapSeq(a + b, f) == MapSeq(a, f) + MapSeq(b, f)
  {
    assert |MapSeq(a + b, f)| == |MapSeq(a, f) + MapSeq(b, f)|;
  }

  /** Mapping a prefix one element longer appends that element's image. */
  lemma MapSeqSnoc<A, B>(s: seq<A>, i: nat, f: A -> B)
    requires i < |s|
    ensures MapSeq(s[..i + 1], f) == MapSeq(s[..i], f) + [f(s[i])]
  {
    assert s[..i + 1][..i] == s[..i];
  }

  /** Concatenation is associative; stated once so that proofs can cite it
      instead of rediscovering it. */
  lemma AppendAssoc<T>(a: seq<T>, b: seq<T>, c: seq<T>)
    ensures (a + b) + c == a + (b + c)
  {
  }
}

=== FILE: compositor.dfy ===
/** `ServerCompositor`: the render-thread side of the compositor. It drains
    the batches the UI thread enqueued, sorts each batch's object stream into
    job queues, dispose lists and server-object changes, notifies the batches,
    and runs the render cycle.

    Locks and threads are a single sequential cycle here: the calling thread
    is a parameter, and `safeThread` and `uiThreadIsInsideRender` are the
    flags the source keeps. The collaborators the compositor calls (batch
    notifications, object deserializers, `Dispose`, jobs, animations, the
    render interface, targets, the logger) are not part of this model: each
    call is recorded as an `Event` in `trace`, and what they decide (the
    time, readiness, which jobs throw, where rendering throws and whether the
    context-lost filter accepts it) is given by a `RenderEnvironment`. */
module Compositor {
  import opened Wrappers
  import opened Sequences
  import opened Transport

  type ThreadId = nat

  type TargetId = nat

  datatype CompositionBatch = CompositionBatch(sequenceId: int, changes: seq<Token>)

  /** A call from the compositor into a collaborator. */
  datatype Event =
    | ServerTimeUpdated(now: int)
    | ObjectDeserialized(id: ObjectId, batchId: int)
    | ObjectDisposed(id: ObjectId)
    | BatchProcessedNotified(batch: CompositionBatch)
    | BatchRenderedNotified(batch: CompositionBatch)
    | AnimationsProcessed
    | RenderResourceChangesApplied
    | BackendContextEnsured
    | JobExecuted(job: JobId, threw: bool)
    | TargetRendered(target: TargetId)
    | RenderErrorLogged
  {
    predicate IsNotification() {
      BatchProcessedNotified? || BatchRenderedNotified?
    }
  }

  /** The compositor's fields. */
  datatype State = State(
    batches: seq<CompositionBatch>,
    receivedJobQueue: seq<JobId>,
    receivedPostTargetJobQueue: seq<JobId>,
    lastBatchId: int,
    serverNow: int,
    activeTargets: seq<TargetId>,
    safeThread: Option<ThreadId>,
    uiThreadIsInsideRender: bool,
    toNotifyProcessed: seq<CompositionBatch>,
    toNotifyRendered: seq<CompositionBatch>,
    trace: seq<Event>)

  /** Where the render pass throws, and whether `RT_OnContextLostExceptionFilterObserver`
      accepts the exception. */
  datatype FaultSite = AtEnsureBackendContext | AtTarget(index: nat)

  datatype Fault = Fault(site: FaultSite, contextLost: bool)

  /** What the collaborators decide during one cycle. */
  datatype RenderEnvironment = RenderEnvironment(
    now: int,
    isReady: bool,
    failingJobs: set<JobId>,
    fault: Option<Fault>)

  datatype RenderError =
    | StreamFailure(streamError: StreamError)  // an exception while applying a batch
    | RenderFailure                            // a render-pass exception the filter did not swallow
    | Reentrancy                               // "Reentrancy is not supported"

  /** The access error `VerifyAccess` throws. */
  datatype AccessError = NotUnderCompositorLock

  // ---------------------------------------------------------------------
  // Reading one batch

  datatype JobsRead = JobsRead(queue: seq<JobId>, rest: seq<Token>, error: Option<StreamError>)

  /** `ReadServerJobs`: appends every object up to `endMarker` to `queue`,
      casting each to a job, and consumes the end marker. */
  function ReadJobs(queue: seq<JobId>, s: seq<Token>, endMarker: Token): (r: JobsRead)
    ensures |r.rest| <= |s|
    decreases |s|
  {
    if s == [] then JobsRead(queue, s, Some(EndOfStream))
    else if s[0] == endMarker then JobsRead(queue, s[1..], None)
    else if s[0].Job? then ReadJobs(queue + [s[0].job], s[1..], endMarker)
    else JobsRead(queue, s[1..], Some(InvalidCast))
  }

  /** A complete job list: the objects before the first end marker are all
      jobs and are appended in stream order; the end marker itself is
      consumed and never enqueued. */
  lemma {:induction false} ReadJobsExact(queue: seq<JobId>, s: seq<Token>, endMarker: Token) returns (k: nat)
    requires !endMarker.Job?
    requires ReadJobs(queue, s, endMarker).error.None?
    ensures var r := ReadJobs(queue, s, endMarker);
      && k < |s| && s[k] == endMarker && r.rest == s[k + 1..]
      && |r.queue| == |queue| + k && r.queue[..|queue|] == queue
      && forall i :: 0 <= i < k ==> s[i] == Job(r.queue[|queue| + i])
    decreases |s|
  {
    if s[0] == endMarker {
      k := 0;
    } else {
      var k' := ReadJobsExact(queue + [s[0].job], s[1..], endMarker);
      k := k' + 1;
      var r := ReadJobs(queue, s, endMarker);
      assert r.queue[..|queue| + 1][..|queue|] == r.queue[..|queue|];
      forall i | 0 <= i < k
        ensures s[i] == Job(r.queue[|queue| + i])
      {
        if i > 0 {
          assert s[i] == s[1..][i - 1];
        }
      }
    }
  }

  datatype TraceRead = TraceRead(trace: seq<Event>, rest: seq<Token>, error: Option<StreamError>)

  /** `(obj as IDisposable)?.Dispose()`. */
  function DisposalOf(t: Token): seq<Event> {
    if t.ServerObject? && t.disposable then [ObjectDisposed(t.id)] else []
  }

  /** The disposals of the objects `ts`, in order. */
  function Disposals(ts: seq<Token>): seq<Event> {
    if ts == [] then [] else DisposalOf(ts[0]) + Disposals(ts[1..])
  }

  /** The `while (count > 0)` loop of `ReadDisposeJobs`. */
  function DisposeObjects(trace: seq<Event>, s: seq<Token>, count: int): (r: TraceRead)
    ensures |r.rest| <= |s|
    decreases if count < 0 then 0 else count
  {
    if count <= 0 then TraceRead(trace, s, None)
    else if s == [] then TraceRead(trace, s, Some(EndOfStream))
    else DisposeObjects(trace + DisposalOf(s[0]), s[1..], count - 1)
  }

  /** `ReadDisposeJobs`: one int count, then that many objects. */
  function ReadDispose(trace: seq<Event>, s: seq<Token>): (r: TraceRead)
    ensures |r.rest| <= |s|
  {
    match IntAt(s)
    case Failure(e) => TraceRead(trace, s, Some(e))
    case Success(count) => DisposeObjects(trace, s[1..], count)
  }

  /** A complete dispose list reads exactly one int and then exactly `count`
      objects (none when `count` <= 0), and disposes exactly the disposable
      server objects among them, in order; it fails only when the stream
      ends first. */
  lemma {:induction false} ReadDisposeExact(trace: seq<Event>, s: seq<Token>)
    requires ReadDispose(trace, s).error.None?
    ensures |s| > 0 && s[0].IntData?
    ensures var n := if s[0].n <= 0 then 0 else s[0].n;
      var r := ReadDispose(trace, s);
      && 1 + n <= |s|
      && r.rest == s[1 + n..]
      && r.trace == trace + Disposals(s[1..1 + n])
  {
    DisposeObjectsExact(trace, s[1..], s[0].n);
    var n := if s[0].n <= 0 then 0 else s[0].n;
    assert s[1..][..n] == s[1..1 + n];
  }

  lemma {:induction false} DisposeObjectsExact(trace: seq<Event>, s: seq<Token>, count: int)
    requires DisposeObjects(trace, s, count).error.None?
    ensures var n := if count <= 0 then 0 else count;
      var r := DisposeObjects(trace, s, count);
      && n <= |s| && r.rest == s[n..] && r.trace == trace + Disposals(s[..n])
    decreases if count < 0 then 0 else count
  {
    if count > 0 {
      DisposeObjectsExact(trace + DisposalOf(s[0]), s[1..], count - 1);
      assert s[..count][1..] == s[1..][..count - 1];
      assert s[..count][0] == s[0];
    }
  }

  /** The dispose loop fails exactly when fewer than `count` objects remain. */
  lemma {:induction false} DisposeObjectsFails(trace: seq<Event>, s: seq<Token>, count: int)
    ensures DisposeObjects(trace, s, count).error.Some? <==> |s| < count
    ensures DisposeObjects(trace, s, count).error.Some? ==> DisposeObjects(trace, s, count).error == Some(EndOfStream)
    decreases if count < 0 then 0 else count
  {
    if count > 0 && s != [] {
      DisposeObjectsFails(trace + DisposalOf(s[0]), s[1..], count - 1);
    }
  }

  datatype EndCheck = EndCheck(rest: seq<Token>, error: Option<StreamError>)

  /** The debug check after an object's changes: an `ObjectEndMarker` on the
      object stream, then `ObjectEndMagic` on the data stream. */
  function ObjectEndCheck(s: seq<Token>): (r: EndCheck)
    ensures |r.rest| <= |s|
  {
    if s == [] then EndCheck(s, Some(EndOfStream))
    else if s[0] != ObjectEndMarker then EndCheck(s[1..], Some(ObjectEndMismatch(true)))
    else match GuidAt(s[1..])
      case Failure(e) => EndCheck(s[1..], Some(e))
      case Success(g) =>
        if g != ObjectEndMagic then EndCheck(s[2..], Some(ObjectEndMismatch(false)))
        else EndCheck(s[2..], None)
  }

  /** A server object's `DeserializeChanges` (which reads its own
      `changeCount` entries), followed in debug builds by the end check. */
  function DeserializeObject(trace: seq<Event>, s: seq<Token>, target: Token, batch: CompositionBatch, debug: bool): (r: TraceRead)
    requires target.ServerObject?
    ensures |r.rest| <= |s|
  {
    if |s| < target.changeCount then TraceRead(trace, [], Some(EndOfStream))
    else
      var trace' := trace + [ObjectDeserialized(target.id, batch.sequenceId)];
      var s' := s[target.changeCount..];
      if !debug then TraceRead(trace', s', None)
      else
        var c := ObjectEndCheck(s');
        TraceRead(trace', c.rest, c.error)
  }

  /** In debug builds an object whose changes are not followed by the marker
      and the magic value fails the batch. */
  lemma DebugEndCheck(trace: seq<Event>, s: seq<Token>, target: Token, batch: CompositionBatch)
    requires target.ServerObject? && target.changeCount <= |s|
    ensures var r := DeserializeObject(trace, s, target, batch, true);
      var after := s[target.changeCount..];
      && (r.error.None? <==> |after| >= 2 && after[0] == ObjectEndMarker && after[1] == GuidData(ObjectEndMagic))
      && (after != [] && after[0] != ObjectEndMarker ==> r.error == Some(ObjectEndMismatch(true)))
      && ((|after| >= 2 && after[0] == ObjectEndMarker && after[1].GuidData? && after[1].guid != ObjectEndMagic)
          ==> r.error == Some(ObjectEndMismatch(false)))
  {
  }

  datatype Applied = Applied(state: State, error: Option<StreamError>)

  /** Only the job queues and the trace change while a batch is read. */
  predicate StreamFrame(a: State, b: State) {
    b == a.(receivedJobQueue := b.receivedJobQueue,
            receivedPostTargetJobQueue := b.receivedPostTargetJobQueue,
            trace := b.trace)
  }

  /** The `while (!stream.IsObjectEof)` loop of `ApplyPendingBatches` over one
      batch's stream. */
  function ApplyStream(st: State, s: seq<Token>, batch: CompositionBatch, debug: bool): (r: Applied)
    ensures StreamFrame(st, r.state)
    decreases |s|
  {
    if s == [] then Applied(st, None)
    else
      var t := s[0];
      if t == RenderThreadJobsStartMarker then
        var j := ReadJobs(st.receivedJobQueue, s[1..], RenderThreadJobsEndMarker);
        var st' := st.(receivedJobQueue := j.queue);
        if j.error.Some? then Applied(st', j.error) else ApplyStream(st', j.rest, batch, debug)
      else if t == RenderThreadPostTargetJobsStartMarker then
        var j := ReadJobs(st.receivedPostTargetJobQueue, s[1..], RenderThreadPostTargetJobsEndMarker);
        var st' := st.(receivedPostTargetJobQueue := j.queue);
        if j.error.Some? then Applied(st', j.error) else ApplyStream(st', j.rest, batch, debug)
      else if t == RenderThreadDisposeStartMarker then
        var d := ReadDispose(st.trace, s[1..]);
        var st' := st.(trace := d.trace);
        if d.error.Some? then Applied(st', d.error) else ApplyStream(st', d.rest, batch, debug)
      else if t.ServerObject? then
        var o := DeserializeObject(st.trace, s[1..], t, batch, debug);
        var st' := st.(trace := o.trace);
        if o.error.Some? then Applied(st', o.error) else ApplyStream(st', o.rest, batch, debug)
      else
        Applied(st, Some(InvalidCast))
  }

  /** The fields that reading batches leaves alone. */
  predicate DrainFrame(a: State, b: State) {
    && b.serverNow == a.serverNow && b.activeTargets == a.activeTargets
    && b.safeThread == a.safeThread && b.uiThreadIsInsideRender == a.uiThreadIsInsideRender
    && b.toNotifyRendered == a.toNotifyRendered
  }

  /** One iteration of the `ApplyPendingBatches` loop: the front batch is dequeued and its stream
      read; when that succeeds the batch is listed as processed and becomes
      `LastBatchId`, and when it fails it is dropped. */
  function ApplyFront(st: State, debug: bool): (r: Applied)
    requires st.batches != []
    ensures r.state.batches == st.batches[1..]
    ensures r.error.None? ==> r.state.toNotifyProcessed == st.toNotifyProcessed + [st.batches[0]]
    ensures r.error.None? ==> r.state.lastBatchId == st.batches[0].sequenceId
    ensures r.error.Some? ==> r.state.toNotifyProcessed == st.toNotifyProcessed && r.state.lastBatchId == st.lastBatchId
    ensures DrainFrame(st, r.state)
  {
    var batch := st.batches[0];
    var a := ApplyStream(st.(batches := st.batches[1..]), batch.changes, batch, debug);
    if a.error.Some? then a
    else Applied(a.state.(toNotifyProcessed := a.state.toNotifyProcessed + [batch], lastBatchId := batch.sequenceId), None)
  }

  /** `ApplyPendingBatches`: dequeue from the front until the queue is empty;
      each batch applied in full is added to the processed list and becomes
      `LastBatchId`. An exception leaves the failing batch dequeued and
      unlisted. */
  function Drain(st: State, debug: bool): (r: Applied)
    ensures DrainFrame(st, r.state)
    decreases |st.batches|
  {
    if st.batches == [] then Applied(st, None)
    else
      var a := ApplyFront(st, debug);
      if a.error.Some? then a else Drain(a.state, debug)
  }

  /** When every batch applies, they are applied in enqueue order: the queue
      ends empty, every batch is appended, in order, to the processed list,
      and `LastBatchId` is the last one's `SequenceId` (unchanged if there
      was none). */
  lemma {:induction false} DrainSuccess(st: State, debug: bool)
    requires Drain(st, debug).error.None?
    ensures var r := Drain(st, debug).state;
      && r.batches == []
      && r.toNotifyProcessed == st.toNotifyProcessed + st.batches
      && r.lastBatchId == (if st.batches == [] then st.lastBatchId else st.batches[|st.batches| - 1].sequenceId)
    decreases |st.batches|
  {
    if st.batches != [] {
      DrainSuccess(ApplyFront(st, debug).state, debug);
      DequeueAll(st.toNotifyProcessed, st.batches);
    }
  }

  /** When a batch fails, the batches before it have been applied and listed,
      it is dequeued but not listed, and the ones after it stay queued;
      `LastBatchId` is the last batch applied in full (unchanged if the
      first one failed). */
  lemma {:induction false} DrainFailure(st: State, debug: bool) returns (k: nat)
    requires Drain(st, debug).error.Some?
    ensures var r := Drain(st, debug).state;
      && k < |st.batches|
      && r.batches == st.batches[k + 1..]
      && r.toNotifyProcessed == st.toNotifyProcessed + st.batches[..k]
      && r.lastBatchId == (if k == 0 then st.lastBatchId else st.batches[k - 1].sequenceId)
    decreases |st.batches|
  {
    var a := ApplyFront(st, debug);
    if a.error.Some? {
      k := 0;
    } else {
      var k' := DrainFailure(a.state, debug);
      k := k' + 1;
      DequeueShift(st.toNotifyProcessed, st.batches, k');
    }
  }

  /** Listing the front batch, then `k` more, lists the first `k + 1`
      batches; the ones after them are the same either way. */
  lemma DequeueShift(done: seq<CompositionBatch>, bs: seq<CompositionBatch>, k: nat)
    requires k + 1 < |bs|
    ensures bs[1..][k + 1..] == bs[k + 2..]
    ensures (done + [bs[0]]) + bs[1..][..k] == done + bs[..k + 1]
  {
    assert bs[..k + 1] == [bs[0]] + bs[1..][..k];
  }

  /** Listing the front batch, then all the others, lists every batch. */
  lemma DequeueAll(done: seq<CompositionBatch>, bs: seq<CompositionBatch>)
    requires bs != []
    ensures (done + [bs[0]]) + bs[1..] == done + bs
    ensures bs[1..] != [] ==> bs[1..][|bs[1..]| - 1] == bs[|bs| - 1]
  {
    assert bs == [bs[0]] + bs[1..];
  }

  // ---------------------------------------------------------------------
  // Jobs, notifications and targets

  /** One `JobExecuted` per job, in queue order; a job that throws is
      recorded as such and does not stop the others. */
  function JobEvents(q: seq<JobId>, failing: set<JobId>): (r: seq<Event>)
    ensures |r| == |q|
    ensures forall i :: 0 <= i < |q| ==> r[i] == JobExecuted(q[i], q[i] in failing)
  {
    if q == [] then [] else JobEvents(q[..|q| - 1], failing) + [JobExecuted(q[|q| - 1], q[|q| - 1] in failing)]
  }

  /** The events of a queue prefix one job longer end with that job's event. */
  lemma JobEventsSnoc(q: seq<JobId>, k: nat, failing: set<JobId>)
    requires k < |q|
    ensures JobEvents(q[..k + 1], failing) == JobEvents(q[..k], failing) + [JobExecuted(q[k], q[k] in failing)]
  {
    assert q[..k + 1][..k] == q[..k];
  }

  function ProcessedEvent(b: CompositionBatch): Event {
    BatchProcessedNotified(b)
  }

  function RenderedEvent(b: CompositionBatch): Event {
    BatchRenderedNotified(b)
  }

  function TargetEvent(t: TargetId): Event {
    TargetRendered(t)
  }

  /** `NotifyBatchesProcessed`. */
  function NotifyProcessedSpec(st: State): State {
    st.(trace := st.trace + MapSeq(st.toNotifyProcessed, ProcessedEvent),
        toNotifyRendered := st.toNotifyRendered + st.toNotifyProcessed,
        toNotifyProcessed := [])
  }

  /** `NotifyBatchesRendered`. */
  function NotifyRenderedSpec(st: State): State {
    st.(trace := st.trace + MapSeq(st.toNotifyRendered, RenderedEvent), toNotifyRendered := [])
  }

  /** `ExecuteServerJobs` on the pre-target (`post` false) or post-target queue. */
  function ExecuteJobsSpec(st: State, post: bool, failing: set<JobId>): State {
    if post then st.(trace := st.trace + JobEvents(st.receivedPostTargetJobQueue, failing), receivedPostTargetJobQueue := [])
    else st.(trace := st.trace + JobEvents(st.receivedJobQueue, failing), receivedJobQueue := [])
  }

  /** The index of the target whose `Render` throws, if the fault is there. */
  function FailingTarget(env: RenderEnvironment): Option<nat> {
    if env.fault.Some? && env.fault.value.site.AtTarget? then Some(env.fault.value.site.index) else None
  }

  datatype TargetsRendered = TargetsRendered(trace: seq<Event>, threw: bool)

  /** `foreach (var t in _activeTargets) t.Render()`: targets render in list
      order until one throws. */
  function RenderTargetsSpec(trace: seq<Event>, targets: seq<TargetId>, failAt: Option<nat>): (r: TargetsRendered)
  {
    if failAt.Some? && failAt.value < |targets| then TargetsRendered(trace + MapSeq(targets[..failAt.value], TargetEvent), true)
    else TargetsRendered(trace + MapSeq(targets, TargetEvent), false)
  }

  datatype PassOutcome = PassOutcome(state: State, thrown: Option<bool>)

  /** The body of the `try` in `RenderCore` after the readiness check;
      `thrown` is the filter's verdict on the exception, if one was thrown. */
  function RenderPassSpec(st: State, env: RenderEnvironment): PassOutcome {
    if env.fault.Some? && env.fault.value.site.AtEnsureBackendContext? then PassOutcome(st, Some(env.fault.value.contextLost))
    else
      var st1 := st.(trace := st.trace + [BackendContextEnsured]);
      var st2 := ExecuteJobsSpec(st1, false, env.failingJobs);
      var t := RenderTargetsSpec(st2.trace, st2.activeTargets, FailingTarget(env));
      var st3 := st2.(trace := t.trace);
      if t.threw then PassOutcome(st3, Some(env.fault.value.contextLost))
      else PassOutcome(ExecuteJobsSpec(st3, true, env.failingJobs), None)
  }

  datatype Cycle = Cycle(state: State, error: Option<RenderError>)

  /** The start of `RenderCore`: `UpdateServerTime`, then `ApplyPendingBatches`. */
  function PrepareSpec(st: State, now: int, debug: bool): Applied {
    Drain(st.(serverNow := now, trace := st.trace + [ServerTimeUpdated(now)]), debug)
  }

  /** `NotifyBatchesProcessed`, `Animations.Process` and
      `ApplyEnqueuedRenderResourceChanges`, in that order. */
  function AdvanceSpec(st: State): State {
    var n := NotifyProcessedSpec(st);
    n.(trace := n.trace + [AnimationsProcessed, RenderResourceChangesApplied])
  }

  /** The readiness check and the `try` of `RenderCore`: an exception is
      swallowed and logged exactly when the context-lost filter accepts it
      and `catchExceptions` is set. */
  function FinishSpec(st: State, env: RenderEnvironment, catchExceptions: bool): Cycle {
    if !env.isReady then Cycle(st, None)
    else
      var p := RenderPassSpec(st, env);
      if p.thrown.None? then Cycle(p.state, None)
      else if p.thrown.value && catchExceptions then Cycle(p.state.(trace := p.state.trace + [RenderErrorLogged]), None)
      else Cycle(p.state, Some(RenderFailure))
  }

  /** `RenderCore`. */
  function RenderCoreSpec(st: State, env: RenderEnvironment, catchExceptions: bool, debug: bool): Cycle {
    var d := PrepareSpec(st, env.now, debug);
    if d.error.Some? then Cycle(d.state, Some(StreamFailure(d.error.value)))
    else FinishSpec(AdvanceSpec(d.state), env, catchExceptions)
  }

  /** `RenderReentrancySafe`: `RenderCore` on the calling thread, with the
      rendered notifications and the reset of `_safeThread` in `finally`. */
  function RenderSafeSpec(st: State, thread: ThreadId, env: RenderEnvironment, catchExceptions: bool, debug: bool): Cycle {
    var c := RenderCoreSpec(st.(safeThread := Some(thread)), env, catchExceptions, debug);
    Cycle(NotifyRenderedSpec(c.state).(safeThread := None), c.error)
  }

  /** `Render(catchExceptions)`. */
  function RenderSpec(st: State, onUiThread: bool, thread: ThreadId, env: RenderEnvironment,
                      catchExceptions: bool, debug: bool): Cycle {
    if onUiThread then
      if st.uiThreadIsInsideRender then Cycle(st, Some(Reentrancy))
      else
        var c := RenderSafeSpec(st.(uiThreadIsInsideRender := true), thread, env, catchExceptions, debug);
        Cycle(c.state.(uiThreadIsInsideRender := false), c.error)
    else RenderSafeSpec(st, thread, env, catchExceptions, debug)
  }

  /** `List.Remove`: removes the first occurrence, if any. */
  function RemoveFirst(s: seq<TargetId>, t: TargetId): (r: seq<TargetId>)
  {
    if s == [] then []
    else if s[0] == t then s[1..]
    else [s[0]] + RemoveFirst(s[1..], t)
  }

  /** Removing a target that is not listed changes nothing. */
  lemma {:induction false} RemoveFirstAbsent(s: seq<TargetId>, t: TargetId)
    requires t !in s
    ensures RemoveFirst(s, t) == s
  {
    if s != [] {
      RemoveFirstAbsent(s[1..], t);
      assert s == [s[0]] + s[1..];
    }
  }

  /** Removing a listed target drops exactly its first occurrence and keeps
      the others in order. */
  lemma {:induction false} RemoveFirstPosition(s: seq<TargetId>, t: TargetId) returns (k: nat)
    requires t in s
    ensures k < |s| && s[k] == t && t !in s[..k]
    ensures RemoveFirst(s, t) == s[..k] + s[k + 1..]
  {
    if s[0] == t {
      k := 0;
    } else {
      var k' := RemoveFirstPosition(s[1..], t);
      k := k' + 1;
      assert s[..k] == [s[0]] + s[1..][..k'];
      assert s[k + 1..] == s[1..][k' + 1..];
    }
  }

  /** Removing a listed target takes exactly one copy of it out of the list. */
  lemma RemoveFirstMultiset(s: seq<TargetId>, t: TargetId)
    requires t in s
    ensures multiset(RemoveFirst(s, t)) == multiset(s) - multiset{t}
  {
    var k := RemoveFirstPosition(s, t);
    var a, b := s[..k], s[k + 1..];
    assert s == a + ([t] + b);
    assert multiset(s) == multiset(a) + (multiset{t} + multiset(b));
    assert multiset(a + b) == multiset(a) + multiset(b);
  }

  // ---------------------------------------------------------------------
  // The notifications in the trace

  /** The batch notifications of a trace, in order. */
  function Notifications(trace: seq<Event>): seq<Event> {
    if trace == [] then []
    else Notifications(trace[..|trace| - 1]) + (if trace[|trace| - 1].IsNotification() then [trace[|trace| - 1]] else [])
  }

  lemma {:induction false} NotificationsAppend(a: seq<Event>, b: seq<Event>)
    ensures Notifications(a + b) == Notifications(a) + Notifications(b)
  {
    if b == [] {
      assert a + b == a;
    } else {
      var n := |b| - 1;
      assert (a + b)[..|a + b| - 1] == a + b[..n];
      NotificationsAppend(a, b[..n]);
    }
  }

  /** A sequence of events none of which is a notification adds none. */
  lemma {:induction false} NoNotifications(es: seq<Event>)
    requires forall i :: 0 <= i < |es| ==> !es[i].IsNotification()
    ensures Notifications(es) == []
  {
    if es != [] {
      NoNotifications(es[..|es| - 1]);
    }
  }

  lemma {:induction false} NotificationsOfBatches(bs: seq<CompositionBatch>)
    ensures Notifications(MapSeq(bs, ProcessedEvent)) == MapSeq(bs, ProcessedEvent)
    ensures Notifications(MapSeq(bs, RenderedEvent)) == MapSeq(bs, RenderedEvent)
  {
    if bs != [] {
      NotificationsOfBatches(bs[..|bs| - 1]);
    }
  }

  /** Reading a batch notifies nothing. */
  lemma {:induction false} ApplyStreamNotifiesNothing(st: State, s: seq<Token>, batch: CompositionBatch, debug: bool)
    ensures Notifications(ApplyStream(st, s, batch, debug).state.trace) == Notifications(st.trace)
    decreases |s|
  {
    if s != [] {
      var t := s[0];
      if t == RenderThreadJobsStartMarker {
        var j := ReadJobs(st.receivedJobQueue, s[1..], RenderThreadJobsEndMarker);
        if j.error.None? {
          ApplyStreamNotifiesNothing(st.(receivedJobQueue := j.queue), j.rest, batch, debug);
        }
      } else if t == RenderThreadPostTargetJobsStartMarker {
        var j := ReadJobs(st.receivedPostTargetJobQueue, s[1..], RenderThreadPostTargetJobsEndMarker);
        if j.error.None? {
          ApplyStreamNotifiesNothing(st.(receivedPostTargetJobQueue := j.queue), j.rest, batch, debug);
        }
      } else if t == RenderThreadDisposeStartMarker {
        var d := ReadDispose(st.trace, s[1..]);
        DisposeNotifiesNothing(st.trace, s[1..]);
        if d.error.None? {
          ApplyStreamNotifiesNothing(st.(trace := d.trace), d.rest, batch, debug);
        }
      } else if t.ServerObject? {
        var o := DeserializeObject(st.trace, s[1..], t, batch, debug);
        if |s[1..]| >= t.changeCount {
          NotificationsAppend(st.trace, [ObjectDeserialized(t.id, batch.sequenceId)]);
          NoNotifications([ObjectDeserialized(t.id, batch.sequenceId)]);
        }
        if o.error.None? {
          ApplyStreamNotifiesNothing(st.(trace := o.trace), o.rest, batch, debug);
        }
      }
    }
  }

  /** Appending events none of which is a notification keeps the notifications. */
  lemma NotificationsAppendNone(a: seq<Event>, b: seq<Event>)
    requires forall i :: 0 <= i < |b| ==> !b[i].IsNotification()
    ensures Notifications(a + b) == Notifications(a)
  {
    NotificationsAppend(a, b);
    NoNotifications(b);
  }

  lemma {:induction false} DisposeNotifiesNothing(trace: seq<Event>, s: seq<Token>)
    ensures Notifications(ReadDispose(trace, s).trace) == Notifications(trace)
  {
    if IntAt(s).Success? {
      DisposeObjectsNotifiesNothing(trace, s[1..], IntAt(s).value);
    }
  }

  lemma {:induction false} DisposeObjectsNotifiesNothing(trace: seq<Event>, s: seq<Token>, count: int)
    ensures Notifications(DisposeObjects(trace, s, count).trace) == Notifications(trace)
    decreases if count < 0 then 0 else count
  {
    if count > 0 && s != [] {
      var next := trace + DisposalOf(s[0]);
      NotificationsAppendNone(trace, DisposalOf(s[0]));
      DisposeObjectsNotifiesNothing(next, s[1..], count - 1);
    }
  }

  lemma {:induction false} DrainNotifiesNothing(st: State, debug: bool)
    ensures Notifications(Drain(st, debug).state.trace) == Notifications(st.trace)
    decreases |st.batches|
  {
    if st.batches != [] {
      var batch := st.batches[0];
      ApplyStreamNotifiesNothing(st.(batches := st.batches[1..]), batch.changes, batch, debug);
      var a := ApplyFront(st, debug);
      if a.error.None? {
        DrainNotifiesNothing(a.state, debug);
      }
    }
  }

  /** Updating the time and applying the batches notifies nothing; on success
      the queue is empty and every batch is listed as processed. */
  lemma PrepareNotifiesNothing(st: State, now: int, debug: bool)
    ensures var d := PrepareSpec(st, now, debug);
      && Notifications(d.state.trace) == Notifications(st.trace)
      && d.state.safeThread == st.safeThread && d.state.uiThreadIsInsideRender == st.uiThreadIsInsideRender
      && d.state.toNotifyRendered == st.toNotifyRendered
      && (d.error.None? ==> d.state.batches == [] && d.state.toNotifyProcessed == st.toNotifyProcessed + st.batches)
  {
    var st1 := st.(serverNow := now, trace := st.trace + [ServerTimeUpdated(now)]);
    NotificationsAppendNone(st.trace, [ServerTimeUpdated(now)]);
    DrainNotifiesNothing(st1, debug);
    if Drain(st1, debug).error.None? {
      DrainSuccess(st1, debug);
    } else {
      var k := DrainFailure(st1, debug);
    }
  }

  /** The "processed" wave: one notification per listed batch, in order, and
      every one of them moves to the rendered list. */
  lemma AdvanceNotifiesProcessed(st: State)
    ensures var a := AdvanceSpec(st);
      && Notifications(a.trace) == Notifications(st.trace) + MapSeq(st.toNotifyProcessed, ProcessedEvent)
      && a.toNotifyProcessed == [] && a.toNotifyRendered == st.toNotifyRendered + st.toNotifyProcessed
      && a.batches == st.batches && a.safeThread == st.safeThread
      && a.uiThreadIsInsideRender == st.uiThreadIsInsideRender
  {
    var n := NotifyProcessedSpec(st);
    NotificationsAppend(st.trace, MapSeq(st.toNotifyProcessed, ProcessedEvent));
    NotificationsOfBatches(st.toNotifyProcessed);
    NotificationsAppendNone(n.trace, [AnimationsProcessed, RenderResourceChangesApplied]);
  }

  lemma ExecuteJobsNotifiesNothing(st: State, post: bool, failing: set<JobId>)
    ensures var e := ExecuteJobsSpec(st, post, failing);
      && Notifications(e.trace) == Notifications(st.trace)
      && e == st.(trace := e.trace, receivedJobQueue := e.receivedJobQueue,
                  receivedPostTargetJobQueue := e.receivedPostTargetJobQueue)
  {
    NotificationsAppendNone(st.trace, JobEvents(if post then st.receivedPostTargetJobQueue else st.receivedJobQueue, failing));
  }

  lemma TargetsNotifyNothing(trace: seq<Event>, targets: seq<TargetId>, failAt: Option<nat>)
    ensures Notifications(RenderTargetsSpec(trace, targets, failAt).trace) == Notifications(trace)
  {
    var shown := if failAt.Some? && failAt.value < |targets| then targets[..failAt.value] else targets;
    NotificationsAppendNone(trace, MapSeq(shown, TargetEvent));
  }

  /** The render pass notifies nothing and leaves the batch lists alone. */
  lemma RenderPassNotifiesNothing(st: State, env: RenderEnvironment)
    ensures var p := RenderPassSpec(st, env).state;
      && Notifications(p.trace) == Notifications(st.trace)
      && p == st.(trace := p.trace, receivedJobQueue := p.receivedJobQueue,
                  receivedPostTargetJobQueue := p.receivedPostTargetJobQueue)
  {
    if !(env.fault.Some? && env.fault.value.site.AtEnsureBackendContext?) {
      var st1 := st.(trace := st.trace + [BackendContextEnsured]);
      NotificationsAppendNone(st.trace, [BackendContextEnsured]);
      var st2 := ExecuteJobsSpec(st1, false, env.failingJobs);
      ExecuteJobsNotifiesNothing(st1, false, env.failingJobs);
      var t := RenderTargetsSpec(st2.trace, st2.activeTargets, FailingTarget(env));
      TargetsNotifyNothing(st2.trace, st2.activeTargets, FailingTarget(env));
      var st3 := st2.(trace := t.trace);
      ExecuteJobsNotifiesNothing(st3, true, env.failingJobs);
    }
  }

  /** The readiness check and the render pass notify nothing, leave the batch
      lists and the threading flags alone, and fail only with `RenderFailure`. */
  lemma FinishNotifiesNothing(st: State, env: RenderEnvironment, catchExceptions: bool)
    ensures var f := FinishSpec(st, env, catchExceptions);
      && Notifications(f.state.trace) == Notifications(st.trace)
      && f.state == st.(trace := f.state.trace, receivedJobQueue := f.state.receivedJobQueue,
                        receivedPostTargetJobQueue := f.state.receivedPostTargetJobQueue)
      && (f.error.None? || f.error == Some(RenderFailure))
  {
    if env.isReady {
      RenderPassNotifiesNothing(st, env);
      var p := RenderPassSpec(st, env);
      if p.thrown.Some? && p.thrown.value && catchExceptions {
        NotificationsAppendNone(p.state.trace, [RenderErrorLogged]);
      }
    }
  }

  /** `RenderCore` keeps the threading flags; when its batches all apply it
      notifies "processed" for the batches listed before plus the ones it
      drained and moves them all to the rendered list; when a batch fails it
      fails with `StreamFailure` and notifies nothing. */
  lemma RenderCoreNotifications(st: State, env: RenderEnvironment, catchExceptions: bool, debug: bool)
    ensures var d := PrepareSpec(st, env.now, debug);
      var c := RenderCoreSpec(st, env, catchExceptions, debug);
      && c.state.safeThread == st.safeThread
      && c.state.uiThreadIsInsideRender == st.uiThreadIsInsideRender
      && (d.error.None? ==>
            && (c.error.None? || c.error == Some(RenderFailure))
            && c.state.batches == [] && c.state.toNotifyProcessed == []
            && c.state.toNotifyRendered == st.toNotifyRendered + st.toNotifyProcessed + st.batches
            && Notifications(c.state.trace) == Notifications(st.trace) + MapSeq(st.toNotifyProcessed + st.batches, ProcessedEvent))
      && (d.error.Some? ==>
            && c.error.Some? && c.error.value.StreamFailure?
            && c.state.toNotifyRendered == st.toNotifyRendered
            && Notifications(c.state.trace) == Notifications(st.trace))
  {
    var d := PrepareSpec(st, env.now, debug);
    PrepareNotifiesNothing(st, env.now, debug);
    if d.error.None? {
      AdvanceNotifiesProcessed(d.state);
      FinishNotifiesNothing(AdvanceSpec(d.state), env, catchExceptions);
    }
  }

  /** Every batch is notified "processed" and then "rendered" exactly once, in
      two waves. A cycle whose batches all apply notifies "processed" for the
      batches listed before plus the ones it drained, then "rendered" for the
      batches listed for it plus those, whether or not the render pass threw,
      and leaves every list empty. A cycle whose batch fails still notifies
      "rendered" for the batches already listed for it, in `finally`. Either
      way the safe thread is reset. */
  lemma CycleNotifiesEachBatchOnce(st: State, thread: ThreadId, env: RenderEnvironment,
                                   catchExceptions: bool, debug: bool)
    ensures var r := RenderSafeSpec(st, thread, env, catchExceptions, debug);
      && r.state.toNotifyRendered == []
      && r.state.safeThread.None?
      && (r.error.Some? ==> !r.error.value.Reentrancy?)
      && ((r.error.None? || r.error.value.RenderFailure?) ==>
            && r.state.batches == [] && r.state.toNotifyProcessed == []
            && Notifications(r.state.trace) ==
                 Notifications(st.trace)
                 + MapSeq(st.toNotifyProcessed + st.batches, ProcessedEvent)
                 + MapSeq(st.toNotifyRendered + st.toNotifyProcessed + st.batches, RenderedEvent))
      && (r.error.Some? && r.error.value.StreamFailure? ==>
            Notifications(r.state.trace) == Notifications(st.trace) + MapSeq(st.toNotifyRendered, RenderedEvent))
  {
    var st0 := st.(safeThread := Some(thread));
    RenderCoreNotifications(st0, env, catchExceptions, debug);
    var c := RenderCoreSpec(st0, env, catchExceptions, debug);
    NotificationsAppend(c.state.trace, MapSeq(c.state.toNotifyRendered, RenderedEvent));
    NotificationsOfBatches(c.state.toNotifyRendered);
  }

  // ---------------------------------------------------------------------
  // The render cycle's contract

  /** When the render interface is not ready, the jobs and targets are
      skipped: the queued jobs (including those just read) stay queued and no
      job or target runs. */
  lemma NotReadyKeepsJobs(st: State, env: RenderEnvironment, catchExceptions: bool, debug: bool)
    requires !env.isReady
    requires PrepareSpec(st, env.now, debug).error.None?
    ensures var d := PrepareSpec(st, env.now, debug).state;
      var c := RenderCoreSpec(st, env, catchExceptions, debug);
      && c.error.None?
      && c.state.receivedJobQueue == d.receivedJobQueue
      && c.state.receivedPostTargetJobQueue == d.receivedPostTargetJobQueue
      && c.state.trace == d.trace + MapSeq(d.toNotifyProcessed, ProcessedEvent)
                          + [AnimationsProcessed, RenderResourceChangesApplied]
  {
  }

  /** With a ready render interface and no exception, the cycle runs in the
      fixed order: time, batches, "processed", animations, resource changes,
      backend context, every pre-target job, every target in list order,
      every post-target job; both queues end empty. */
  lemma CycleOrder(st: State, env: RenderEnvironment, catchExceptions: bool, debug: bool)
    requires env.isReady && env.fault.None?
    requires PrepareSpec(st, env.now, debug).error.None?
    ensures var d := PrepareSpec(st, env.now, debug).state;
      var c := RenderCoreSpec(st, env, catchExceptions, debug);
      && c.error.None?
      && c.state.receivedJobQueue == [] && c.state.receivedPostTargetJobQueue == []
      && c.state.trace ==
           d.trace
           + MapSeq(d.toNotifyProcessed, ProcessedEvent)
           + [AnimationsProcessed, RenderResourceChangesApplied, BackendContextEnsured]
           + JobEvents(d.receivedJobQueue, env.failingJobs)
           + MapSeq(d.activeTargets, TargetEvent)
           + JobEvents(d.receivedPostTargetJobQueue, env.failingJobs)
  {
    var d := PrepareSpec(st, env.now, debug).state;
    var a := AdvanceSpec(d);
    var b := a.(trace := a.trace + [BackendContextEnsured]);
    assert b.trace == d.trace + MapSeq(d.toNotifyProcessed, ProcessedEvent)
                      + [AnimationsProcessed, RenderResourceChangesApplied, BackendContextEnsured];
    var e := ExecuteJobsSpec(b, false, env.failingJobs);
    var t := RenderTargetsSpec(e.trace, e.activeTargets, None);
    var f := ExecuteJobsSpec(e.(trace := t.trace), true, env.failingJobs);
    assert RenderPassSpec(a, env).state == f;
  }

  /** A render-pass exception (one the pass reaches) carries the filter's
      verdict; the post-target jobs do not run, and a target that throws
      stops the later targets. */
  lemma PassFaultVerdict(st: State, env: RenderEnvironment)
    requires env.fault.Some?
    requires env.fault.value.site.AtTarget? ==> env.fault.value.site.index < |st.activeTargets|
    ensures var p := RenderPassSpec(st, env);
      && p.thrown == Some(env.fault.value.contextLost)
      && p.state.receivedPostTargetJobQueue == st.receivedPostTargetJobQueue
      && (env.fault.value.site.AtTarget? ==>
            p.state.trace == st.trace + [BackendContextEnsured] + JobEvents(st.receivedJobQueue, env.failingJobs)
                             + MapSeq(st.activeTargets[..env.fault.value.site.index], TargetEvent))
  {
  }

  /** The error a cycle ends with: `StreamFailure` exactly when a batch
      fails; otherwise `RenderFailure` exactly when the render interface is
      ready and the pass throws an exception that is not both accepted by the
      context-lost filter and caught; a swallowed exception is logged. */
  lemma RenderCoreError(st: State, env: RenderEnvironment, catchExceptions: bool, debug: bool)
    ensures var d := PrepareSpec(st, env.now, debug);
      var c := RenderCoreSpec(st, env, catchExceptions, debug);
      && (d.error.Some? <==> c.error.Some? && c.error.value.StreamFailure?)
      && (d.error.Some? ==> c.error == Some(StreamFailure(d.error.value)))
      && (d.error.None? ==>
            var p := RenderPassSpec(AdvanceSpec(d.state), env);
            && (c.error == Some(RenderFailure) <==>
                  env.isReady && p.thrown.Some? && !(p.thrown.value && catchExceptions))
            && (env.isReady && p.thrown == Some(true) && catchExceptions ==>
                  c.state.trace == p.state.trace + [RenderErrorLogged]))
  {
  }

  /** A re-entrant call from the UI thread fails with "Reentrancy is not
      supported" and changes nothing; any other call ends with no safe
      thread, an empty rendered list, and the UI flag as it was. */
  lemma RenderReentrancy(st: State, onUiThread: bool, thread: ThreadId, env: RenderEnvironment,
                         catchExceptions: bool, debug: bool)
    ensures var r := RenderSpec(st, onUiThread, thread, env, catchExceptions, debug);
      && (onUiThread && st.uiThreadIsInsideRender ==> r == Cycle(st, Some(Reentrancy)))
      && (!(onUiThread && st.uiThreadIsInsideRender) ==>
            && r.state.safeThread.None?
            && r.state.toNotifyRendered == []
            && r.state.uiThreadIsInsideRender == st.uiThreadIsInsideRender
            && (r.error.None? || !r.error.value.Reentrancy?))
  {
    if !(onUiThread && st.uiThreadIsInsideRender) {
      var st' := if onUiThread then st.(uiThreadIsInsideRender := true) else st;
      CycleNotifiesEachBatchOnce(st', thread, env, catchExceptions, debug);
      RenderCoreNotifications(st'.(safeThread := Some(thread)), env, catchExceptions, debug);
    }
  }

  /** While `RenderCore` runs inside `RenderReentrancySafe`, the safe thread
      is the calling thread, so `CheckAccess` holds on that thread only; it
      is reset afterwards. */
  lemma SafeThreadDuringRender(st: State, thread: ThreadId, env: RenderEnvironment, catchExceptions: bool, debug: bool)
    ensures RenderCoreSpec(st.(safeThread := Some(thread)), env, catchExceptions, debug).state.safeThread == Some(thread)
    ensures RenderSafeSpec(st, thread, env, catchExceptions, debug).state.safeThread.None?
  {
    RenderCoreNotifications(st.(safeThread := Some(thread)), env, catchExceptions, debug);
  }

  // ---------------------------------------------------------------------
  // The compositor

  class ServerCompositor {
    var batches: seq<CompositionBatch>
    var receivedJobQueue: seq<JobId>
    var receivedPostTargetJobQueue: seq<JobId>
    var lastBatchId: int
    var serverNow: int
    var activeTargets: seq<TargetId>
    var safeThread: Option<ThreadId>
    var uiThreadIsInsideRender: bool
    var toNotifyProcessed: seq<CompositionBatch>
    var toNotifyRendered: seq<CompositionBatch>
    var trace: seq<Event>
    /** Whether `DEBUG_COMPOSITOR_SERIALIZATION` is defined. */
    const debugSerialization: bool

    function Model(): State
      reads this
    {
      State(batches, receivedJobQueue, receivedPostTargetJobQueue, lastBatchId, serverNow, activeTargets,
            safeThread, uiThreadIsInsideRender, toNotifyProcessed, toNotifyRendered, trace)
    }

    constructor (debugSerialization: bool)
      ensures Model() == State([], [], [], 0, 0, [], None, false, [], [], [])
      ensures this.debugSerialization == debugSerialization
    {
      batches, receivedJobQueue, receivedPostTargetJobQueue := [], [], [];
      lastBatchId, serverNow, activeTargets := 0, 0, [];
      safeThread, uiThreadIsInsideRender := None, false;
      toNotifyProcessed, toNotifyRendered, trace := [], [], [];
      this.debugSerialization := debugSerialization;
    }

    /** `EnqueueBatch` appends at the back. */
    method EnqueueBatch(batch: CompositionBatch)
      modifies this
      ensures Model() == old(Model()).(batches := old(batches) + [batch])
    {
      batches := batches + [batch];
    }

    method UpdateServerTime(now: int)
      modifies this
      ensures Model() == old(Model()).(serverNow := now, trace := old(trace) + [ServerTimeUpdated(now)])
    {
      serverNow := now;
      trace := trace + [ServerTimeUpdated(now)];
    }

    function JobQueue(post: bool): seq<JobId>
      reads this
    {
      if post then receivedPostTargetJobQueue else receivedJobQueue
    }

    method ReadServerJobs(reader: BatchStreamReader, post: bool) returns (err: Option<StreamError>)
      requires reader.Valid()
      modifies this, reader`pos
      ensures reader.Valid()
      ensures var r := ReadJobs(old(JobQueue(post)), old(reader.Remaining()), EndMarker(post));
        && Model() == WithJobQueue(old(Model()), post, r.queue)
        && reader.Remaining() == r.rest
        && err == r.error
    {
      ghost var m0 := Model();
      ghost var s0 := reader.Remaining();
      var endMarker := EndMarker(post);
      while true
        invariant reader.Valid()
        invariant Model() == WithJobQueue(m0, post, JobQueue(post))
        invariant ReadJobs(old(JobQueue(post)), s0, endMarker) == ReadJobs(JobQueue(post), reader.Remaining(), endMarker)
        decreases |reader.Remaining()|
      {
        ghost var here := reader.Remaining();
        var obj := reader.ReadObject();
        if obj.Failure? {
          return Some(obj.error);
        }
        assert here[1..] == reader.Remaining();
        if obj.value == endMarker {
          return None;
        }
        if !obj.value.Job? {
          return Some(InvalidCast);
        }
        if post {
          receivedPostTargetJobQueue := receivedPostTargetJobQueue + [obj.value.job];
        } else {
          receivedJobQueue := receivedJobQueue + [obj.value.job];
        }
      }
    }

    method ReadDisposeJobs(reader: BatchStreamReader) returns (err: Option<StreamError>)
      requires reader.Valid()
      modifies this, reader`pos
      ensures reader.Valid()
      ensures var r := ReadDispose(old(trace), old(reader.Remaining()));
        && Model() == old(Model()).(trace := r.trace)
        && reader.Remaining() == r.rest
        && err == r.error
    {
      ghost var s0 := reader.Remaining();
      var count := reader.ReadInt();
      if count.Failure? {
        return Some(count.error);
      }
      assert reader.Remaining() == s0[1..];
      var c := count.value;
      while c > 0
        invariant reader.Valid()
        invariant Model() == old(Model()).(trace := trace)
        invariant ReadDispose(old(trace), s0) == DisposeObjects(trace, reader.Remaining(), c)
        decreases c
      {
        ghost var here := reader.Remaining();
        var obj := reader.ReadObject();
        if obj.Failure? {
          return Some(obj.error);
        }
        assert here[1..] == reader.Remaining();
        assert DisposeObjects(trace, here, c) == DisposeObjects(trace + DisposalOf(obj.value), here[1..], c - 1);
        if obj.value.ServerObject? && obj.value.disposable {
          trace := trace + [ObjectDisposed(obj.value.id)];
        } else {
          assert trace + DisposalOf(obj.value) == trace;
        }
        c := c - 1;
      }
      return None;
    }

    /** The server object's own `DeserializeChanges`, which reads its
        `changeCount` entries. */
    method DeserializeChanges(reader: BatchStreamReader, target: Token, batch: CompositionBatch)
        returns (err: Option<StreamError>)
      requires reader.Valid() && target.ServerObject?
      modifies this, reader`pos
      ensures reader.Valid()
      ensures var r := DeserializeObject(old(trace), old(reader.Remaining()), target, batch, false);
        && Model() == old(Model()).(trace := r.trace)
        && reader.Remaining() == r.rest
        && err == r.error
    {
      if |reader.tokens| - reader.pos < target.changeCount {
        reader.pos := |reader.tokens|;
        return Some(EndOfStream);
      }
      reader.pos := reader.pos + target.changeCount;
      trace := trace + [ObjectDeserialized(target.id, batch.sequenceId)];
      return None;
    }

    /** The `#if DEBUG_COMPOSITOR_SERIALIZATION` check after an object. */
    method CheckObjectEnd(reader: BatchStreamReader) returns (err: Option<StreamError>)
      requires reader.Valid()
      modifies reader`pos
      ensures reader.Valid()
      ensures var r := ObjectEndCheck(old(reader.Remaining()));
        reader.Remaining() == r.rest && err == r.error
    {
      ghost var s0 := reader.Remaining();
      var marker := reader.ReadObject();
      if marker.Failure? {
        return Some(marker.error);
      }
      assert reader.Remaining() == s0[1..];
      if marker.value != ObjectEndMarker {
        return Some(ObjectEndMismatch(true));
      }
      var magic := reader.ReadGuid();
      if magic.Failure? {
        return Some(magic.error);
      }
      assert reader.Remaining() == s0[2..];
      if magic.value != ObjectEndMagic {
        return Some(ObjectEndMismatch(false));
      }
      return None;
    }

    /** One server object: its changes, then the debug check. */
    method ApplyObject(reader: BatchStreamReader, target: Token, batch: CompositionBatch) returns (err: Option<StreamError>)
      requires reader.Valid() && target.ServerObject?
      modifies this, reader`pos
      ensures reader.Valid()
      ensures var r := DeserializeObject(old(trace), old(reader.Remaining()), target, batch, debugSerialization);
        && Model() == old(Model()).(trace := r.trace)
        && reader.Remaining() == r.rest
        && err == r.error
    {
      err := DeserializeChanges(reader, target, batch);
      if err.Some? || !debugSerialization {
        return;
      }
      err := CheckObjectEnd(reader);
    }

    /** The stream loop of `ApplyPendingBatches` for one batch. */
    method ApplyBatchStream(reader: BatchStreamReader, batch: CompositionBatch) returns (err: Option<StreamError>)
      requires reader.Valid()
      modifies this, reader`pos
      ensures var r := ApplyStream(old(Model()), old(reader.Remaining()), batch, debugSerialization);
        Model() == r.state && err == r.error
    {
      ghost var m0 := Model();
      ghost var s0 := reader.Remaining();
      while !reader.IsObjectEof()
        invariant reader.Valid()
        invariant ApplyStream(m0, s0, batch, debugSerialization) ==
                  ApplyStream(Model(), reader.Remaining(), batch, debugSerialization)
        decreases |reader.Remaining()|
      {
        ghost var here := reader.Remaining();
        var obj := reader.ReadObject();
        if obj.Failure? {
          assert false;
        }
        assert here[1..] == reader.Remaining();
        var t := obj.value;
        if t == RenderThreadJobsStartMarker {
          err := ReadServerJobs(reader, false);
        } else if t == RenderThreadPostTargetJobsStartMarker {
          err := ReadServerJobs(reader, true);
        } else if t == RenderThreadDisposeStartMarker {
          err := ReadDisposeJobs(reader);
        } else if t.ServerObject? {
          err := ApplyObject(reader, t, batch);
        } else {
          err := Some(InvalidCast);
        }
        if err.Some? {
          return;
        }
      }
      assert reader.Remaining() == [];
      return None;
    }

    /** `ApplyPendingBatches`. */
    method ApplyPendingBatches() returns (err: Option<StreamError>)
      modifies this
      ensures var r := Drain(old(Model()), debugSerialization);
        Model() == r.state && err == r.error
    {
      while true
        invariant Drain(old(Model()), debugSerialization) == Drain(Model(), debugSerialization)
        decreases |batches|
      {
        if |batches| == 0 {
          return None;
        }
        err := ApplyNextBatch();
        if err.Some? {
          return;
        }
      }
    }

    /** One iteration of the `ApplyPendingBatches` loop: dequeue a batch,
        apply its stream, then queue it for the processed notification and
        record its sequence id. */
    method ApplyNextBatch() returns (err: Option<StreamError>)
      requires batches != []
      modifies this
      ensures var a := ApplyFront(old(Model()), debugSerialization);
        Model() == a.state && err == a.error
    {
      var batch := batches[0];
      batches := batches[1..];
      var reader := new BatchStreamReader(batch.changes);
      err := ApplyBatchStream(reader, batch);
      if err.Some? {
        return;
      }
      toNotifyProcessed := toNotifyProcessed + [batch];
      lastBatchId := batch.sequenceId;
    }

    /** `queue.Dequeue()` on the chosen job queue. */
    method DequeueJob(post: bool) returns (job: JobId)
      requires JobQueue(post) != []
      modifies this
      ensures job == old(JobQueue(post))[0]
      ensures Model() == WithJobQueue(old(Model()), post, old(JobQueue(post))[1..])
    {
      if post {
        job := receivedPostTargetJobQueue[0];
        receivedPostTargetJobQueue := receivedPostTargetJobQueue[1..];
      } else {
        job := receivedJobQueue[0];
        receivedJobQueue := receivedJobQueue[1..];
      }
    }

    /** `ExecuteServerJobs`: runs every queued job once, front first, and
        swallows whatever a job throws. */
    method ExecuteServerJobs(post: bool, failing: set<JobId>)
      modifies this
      ensures Model() == ExecuteJobsSpec(old(Model()), post, failing)
    {
      ghost var q0 := JobQueue(post);
      ghost var t0 := trace;
      ghost var k := 0;
      while |JobQueue(post)| > 0
        invariant 0 <= k <= |q0| && JobQueue(post) == q0[k..]
        invariant trace == t0 + JobEvents(q0[..k], failing)
        invariant Model() == WithJobQueue(old(Model()), post, JobQueue(post)).(trace := trace)
        decreases |JobQueue(post)|
      {
        var job := DequeueJob(post);
        JobEventsSnoc(q0, k, failing);
        AppendAssoc(t0, JobEvents(q0[..k], failing), [JobExecuted(job, job in failing)]);
        trace := trace + [JobExecuted(job, job in failing)];
        k := k + 1;
      }
      assert q0[..k] == q0;
    }

    method NotifyBatchesProcessed()
      modifies this
      ensures Model() == NotifyProcessedSpec(old(Model()))
    {
      NotifyEachProcessed();
      CopyProcessedToRendered();
      toNotifyProcessed := [];
    }

    /** The first loop of `NotifyBatchesProcessed`: notifies each batch of the
        list, in order. */
    method NotifyEachProcessed()
      modifies this
      ensures Model() == old(Model()).(trace := old(trace) + MapSeq(toNotifyProcessed, ProcessedEvent))
    {
      var processed := toNotifyProcessed;
      for i := 0 to |processed|
        invariant trace == old(trace) + MapSeq(processed[..i], ProcessedEvent)
        invariant Model() == old(Model()).(trace := trace)
      {
        MapSeqSnoc(processed, i, ProcessedEvent);
        AppendAssoc(old(trace), MapSeq(processed[..i], ProcessedEvent), [ProcessedEvent(processed[i])]);
        trace := trace + [ProcessedEvent(processed[i])];
      }
      assert processed[..|processed|] == processed;
    }

    /** The second loop of `NotifyBatchesProcessed`: adds each batch of the
        list to the rendered-notification list, in order. */
    method CopyProcessedToRendered()
      modifies this
      ensures Model() == old(Model()).(toNotifyRendered := old(toNotifyRendered) + toNotifyProcessed)
    {
      var processed := toNotifyProcessed;
      for i := 0 to |processed|
        invariant toNotifyRendered == old(toNotifyRendered) + processed[..i]
        invariant Model() == old(Model()).(toNotifyRendered := toNotifyRendered)
      {
        assert processed[..i + 1] == processed[..i] + [processed[i]];
        AppendAssoc(old(toNotifyRendered), processed[..i], [processed[i]]);
        toNotifyRendered := toNotifyRendered + [processed[i]];
      }
      assert processed[..|processed|] == processed;
    }

    method NotifyBatchesRendered()
      modifies this
      ensures Model() == NotifyRenderedSpec(old(Model()))
    {
      var rendered := toNotifyRendered;
      for i := 0 to |rendered|
        invariant trace == old(trace) + MapSeq(rendered[..i], RenderedEvent)
        invariant Model() == old(Model()).(trace := trace)
      {
        MapSeqSnoc(rendered, i, RenderedEvent);
        AppendAssoc(old(trace), MapSeq(rendered[..i], RenderedEvent), [RenderedEvent(rendered[i])]);
        trace := trace + [RenderedEvent(rendered[i])];
      }
      assert rendered[..|rendered|] == rendered;
      toNotifyRendered := [];
    }

    /** Renders the active targets in list order; returns whether one threw. */
    method RenderTargets(failAt: Option<nat>) returns (threw: bool)
      modifies this
      ensures var r := RenderTargetsSpec(old(trace), old(activeTargets), failAt);
        Model() == old(Model()).(trace := r.trace) && threw == r.threw
    {
      var targets := activeTargets;
      for i := 0 to |targets|
        invariant trace == old(trace) + MapSeq(targets[..i], TargetEvent)
        invariant Model() == old(Model()).(trace := trace)
        invariant failAt.Some? ==> i <= failAt.value
      {
        if failAt == Some(i) {
          return true;
        }
        assert targets[..i + 1][..i] == targets[..i];
        trace := trace + [TargetEvent(targets[i])];
      }
      assert targets[..|targets|] == targets;
      return false;
    }

    /** The `try` body of `RenderCore` after the readiness check. */
    method RenderPass(env: RenderEnvironment) returns (thrown: Option<bool>)
      modifies this
      ensures var p := RenderPassSpec(old(Model()), env);
        Model() == p.state && thrown == p.thrown
    {
      if env.fault.Some? && env.fault.value.site.AtEnsureBackendContext? {
        return Some(env.fault.value.contextLost);
      }
      trace := trace + [BackendContextEnsured];
      ExecuteServerJobs(false, env.failingJobs);
      var threw := RenderTargets(FailingTarget(env));
      if threw {
        return Some(env.fault.value.contextLost);
      }
      ExecuteServerJobs(true, env.failingJobs);
      return None;
    }

    /** `NotifyBatchesProcessed`, `Animations.Process`, `ApplyEnqueuedRenderResourceChanges`. */
    method AdvanceFrame()
      modifies this
      ensures Model() == AdvanceSpec(old(Model()))
    {
      NotifyBatchesProcessed();
      trace := trace + [AnimationsProcessed];
      trace := trace + [RenderResourceChangesApplied];
    }

    /** The readiness check and the `try`/`catch` of `RenderCore`. */
    method RenderIfReady(env: RenderEnvironment, catchExceptions: bool) returns (err: Option<RenderError>)
      modifies this
      ensures var f := FinishSpec(old(Model()), env, catchExceptions);
        Model() == f.state && err == f.error
    {
      if !env.isReady {
        return None;
      }
      var thrown := RenderPass(env);
      if thrown.None? {
        return None;
      }
      if thrown.value && catchExceptions {
        trace := trace + [RenderErrorLogged];
        return None;
      }
      return Some(RenderFailure);
    }

    method RenderCore(env: RenderEnvironment, catchExceptions: bool) returns (err: Option<RenderError>)
      modifies this
      ensures var c := RenderCoreSpec(old(Model()), env, catchExceptions, debugSerialization);
        Model() == c.state && err == c.error
    {
      UpdateServerTime(env.now);
      var e := ApplyPendingBatches();
      if e.Some? {
        return Some(StreamFailure(e.value));
      }
      AdvanceFrame();
      err := RenderIfReady(env, catchExceptions);
    }

    method RenderReentrancySafe(thread: ThreadId, env: RenderEnvironment, catchExceptions: bool)
        returns (err: Option<RenderError>)
      modifies this
      ensures var c := RenderSafeSpec(old(Model()), thread, env, catchExceptions, debugSerialization);
        Model() == c.state && err == c.error
    {
      safeThread := Some(thread);
      err := RenderCore(env, catchExceptions);
      NotifyBatchesRendered();
      safeThread := None;
    }

    /** `Render(catchExceptions)` called on `thread`; `onUiThread` is
        `Dispatcher.UIThread.CheckAccess()`. */
    method Render(onUiThread: bool, thread: ThreadId, env: RenderEnvironment, catchExceptions: bool)
        returns (err: Option<RenderError>)
      modifies this
      ensures var c := RenderSpec(old(Model()), onUiThread, thread, env, catchExceptions, debugSerialization);
        Model() == c.state && err == c.error
    {
      if onUiThread {
        if uiThreadIsInsideRender {
          return Some(Reentrancy);
        }
        uiThreadIsInsideRender := true;
        err := RenderReentrancySafe(thread, env, catchExceptions);
        uiThreadIsInsideRender := false;
      } else {
        err := RenderReentrancySafe(thread, env, catchExceptions);
      }
    }

    method AddCompositionTarget(target: TargetId)
      modifies this
      ensures Model() == old(Model()).(activeTargets := old(activeTargets) + [target])
    {
      activeTargets := activeTargets + [target];
    }

    method RemoveCompositionTarget(target: TargetId)
      modifies this
      ensures Model() == old(Model()).(activeTargets := RemoveFirst(old(activeTargets), target))
    {
      activeTargets := RemoveFirst(activeTargets, target);
    }

    /** `CheckAccess`: only the thread inside `RenderReentrancySafe` has
        access; outside a render no thread has. */
    predicate CheckAccess(thread: ThreadId): (r: bool)
      reads this
      ensures r ==> safeThread.Some?
      ensures safeThread == Some(thread) ==> r
    {
      safeThread == Some(thread)
    }

    method VerifyAccess(thread: ThreadId) returns (r: Outcome<AccessError>)
      ensures r.Fail? <==> safeThread != Some(thread)
      ensures r.Fail? ==> r.error == NotUnderCompositorLock
    {
      if !CheckAccess(thread) {
        return Fail(NotUnderCompositorLock);
      }
      return Pass;
    }
  }

  /** At most one thread has access at a time. */
  lemma CheckAccessExclusive(c: ServerCompositor, t1: ThreadId, t2: ThreadId)
    requires c.CheckAccess(t1) && c.CheckAccess(t2)
    ensures t1 == t2
  {
  }

  function EndMarker(post: bool): Token {
    if post then RenderThreadPostTargetJobsEndMarker else RenderThreadJobsEndMarker
  }

  function WithJobQueue(st: State, post: bool, q: seq<JobId>): State {
    if post then st.(receivedPostTargetJobQueue := q) else st.(receivedJobQueue := q)
  }
}

=== FILE: drawing.dfy ===
/** The drawing-context vocabulary shared by the render-data nodes and the
    snapshot's recording walker: the calls an `IDrawingContextImpl` receives,
    the values the walker logs, and the platform drawing context itself, which
    is represented by the calls it has received. */
module DrawingContext {
  import opened Wrappers
  import opened MediaTypes
  import opened ServerBrushes
  import opened BrushExtensions
  import opened ServerPen
  import opened PenExtensions

  /** One call on `IDrawingContextImpl` (or `IDrawingContextImplWithEffects`).
      The three `PushClip` overloads and the two `DrawBitmap` overloads are
      distinct constructors; `CreateLayer` is the walker's own method. */
  datatype DrawCall =
    | Clear(color: Color)
    | DrawBitmap(source: BitmapImpl, opacity: real, sourceRect: Rect, destRect: Rect)
    | DrawBitmapMasked(source: BitmapImpl, opacityMask: Brush, opacityMaskRect: Rect, destRect: Rect)
    | DrawLine(pen: Option<Pen>, p1: Point, p2: Point)
    | DrawGeometry(brush: Option<Brush>, pen: Option<Pen>, geometry: GeometryImpl)
    | DrawRectangle(brush: Option<Brush>, pen: Option<Pen>, roundedRect: RoundedRect, boxShadows: BoxShadows)
    | DrawRegion(brush: Option<Brush>, pen: Option<Pen>, region: RegionImpl)
    | DrawEllipse(brush: Option<Brush>, pen: Option<Pen>, rect: Rect)
    | DrawGlyphRun(foreground: Option<Brush>, glyphRun: GlyphRunImpl)
    | CreateLayer(size: PixelSize)
    | PushClip(rect: Rect)
    | PushRoundedClip(roundedRect: RoundedRect)
    | PushRegionClip(region: RegionImpl)
    | PopClip
    | PushLayer(bounds: Rect)
    | PopLayer
    | PushOpacity(opacity: real, opacityBounds: Option<Rect>)
    | PopOpacity
    | PushOpacityMask(mask: Brush, bounds: Rect)
    | PopOpacityMask
    | PushGeometryClip(geometry: GeometryImpl)
    | PopGeometryClip
    | PushRenderOptions(renderOptions: RenderOptions)
    | PopRenderOptions
    | PushEffect(effect: Effect)
    | PopEffect
  {
    predicate IsPop() {
      PopClip? || PopLayer? || PopOpacity? || PopOpacityMask? || PopGeometryClip? || PopRenderOptions? || PopEffect?
    }

    /** The calls that exist only on `IDrawingContextImplWithEffects`. */
    predicate IsEffectCall() {
      PushEffect? || PopEffect?
    }
  }

  /** The name of the walker method that receives the call, which is what
      `[CallerMemberName]` gives `AddItem`. */
  function OperationName(c: DrawCall): string {
    match c
    case Clear(_) => "Clear"
    case DrawBitmap(_, _, _, _) => "DrawBitmap"
    case DrawBitmapMasked(_, _, _, _) => "DrawBitmap"
    case DrawLine(_, _, _) => "DrawLine"
    case DrawGeometry(_, _, _) => "DrawGeometry"
    case DrawRectangle(_, _, _, _) => "DrawRectangle"
    case DrawRegion(_, _, _) => "DrawRegion"
    case DrawEllipse(_, _, _) => "DrawEllipse"
    case DrawGlyphRun(_, _) => "DrawGlyphRun"
    case CreateLayer(_) => "CreateLayer"
    case PushClip(_) => "PushClip"
    case PushRoundedClip(_) => "PushClip"
    case PushRegionClip(_) => "PushClip"
    case PopClip => "PopClip"
    case PushLayer(_) => "PushLayer"
    case PopLayer => "PopLayer"
    case PushOpacity(_, _) => "PushOpacity"
    case PopOpacity => "PopOpacity"
    case PushOpacityMask(_, _) => "PushOpacityMask"
    case PopOpacityMask => "PopOpacityMask"
    case PushGeometryClip(_) => "PushGeometryClip"
    case PopGeometryClip => "PopGeometryClip"
    case PushRenderOptions(_) => "PushRenderOptions"
    case PopRenderOptions => "PopRenderOptions"
    case PushEffect(_) => "PushEffect"
    case PopEffect => "PopEffect"
  }

  /** A platform resource, logged through its `ToString()`. */
  datatype Resource =
    | BitmapResource(bitmap: BitmapImpl)
    | GeometryResource(geometry: GeometryImpl)
    | RegionResource(region: RegionImpl)
    | GlyphRunResource(glyphRun: GlyphRunImpl)

  /** A value stored in a diagnostic dictionary (`object?`). The `ToString()`
      of a resource or a brush is opaque and is represented by the object it
      was taken of. */
  datatype LogValue =
    | NullValue
    | Text(text: string)
    | ResourceString(resource: Resource)
    | BrushString(brushObject: Brush)
    | ColorValue(color: Color)
    | RealValue(number: real)
    | PointValue(point: Point)
    | RectValue(rectValue: Rect)
    | RoundedRectValue(roundedRectValue: RoundedRect)
    | BoxShadowsValue(boxShadows: BoxShadows)
    | PixelSizeValue(pixelSize: PixelSize)
    | RenderOptionsValue(renderOptions: RenderOptions)
    | ImmutableBrushValue(immutableBrush: ImmutableBrush)
    | ImmutablePenValue(immutablePen: ImmutablePen)
    | ImmutableEffectValue(immutableEffect: ImmutableEffect)

  /** The keys of a log dictionary. The walker only ever writes these
      constant names; `Name` is the string each stands for. */
  datatype LogKey =
    | OperationKey
    | ColorKey
    | BitmapKey
    | OpacityKey
    | SourceRectKey
    | DestRectKey
    | OpacityMarkKey
    | PenKey
    | Point1Key
    | Point2Key
    | BrushKey
    | GeometryKey
    | RectKey
    | BoxShadowsKey
    | RegionKey
    | ForegroundKey
    | GlyphRunKey
    | SizeKey
    | ClipKey
    | BoundsKey
    | OpacityMaskKey
    | RenderOptionsKey
    | EffectKey
  {
    function Name(): string {
      match this
      case OperationKey => "Operation"
      case ColorKey => "Color"
      case BitmapKey => "Bitmap"
      case OpacityKey => "Opacity"
      case SourceRectKey => "SourceRect"
      case DestRectKey => "DestRect"
      case OpacityMarkKey => "OpacityMark"
      case PenKey => "Pen"
      case Point1Key => "Point1"
      case Point2Key => "Point2"
      case BrushKey => "Brush"
      case GeometryKey => "Geometry"
      case RectKey => "Rect"
      case BoxShadowsKey => "BoxShadows"
      case RegionKey => "Region"
      case ForegroundKey => "Foreground"
      case GlyphRunKey => "GlyphRun"
      case SizeKey => "Size"
      case ClipKey => "Clip"
      case BoundsKey => "Bounds"
      case OpacityMaskKey => "OpacityMask"
      case RenderOptionsKey => "RenderOptions"
      case EffectKey => "Effect"
    }
  }

  /** One dictionary of the operations log. */
  type LogEntry = map<LogKey, LogValue>

  /** `brush?.ToImmutable()`: null stays null, otherwise the conversion, which
      may throw. */
  function LoggedBrush(b: Option<Brush>): (r: Result<LogValue, ArgumentError>)
    ensures b.None? ==> r == Success(NullValue)
    ensures b.Some? && r.Success? ==> r.value.ImmutableBrushValue? && BrushToImmutable(b) == Success(r.value.immutableBrush)
    ensures b.Some? ==> (r.Failure? <==> BrushToImmutable(b).Failure?)
  {
    if b.None? then Success(NullValue)
    else match BrushToImmutable(b)
      case Success(i) => Success(ImmutableBrushValue(i))
      case Failure(e) => Failure(e)
  }

  /** `pen?.ToImmutable()`. */
  function LoggedPen(p: Option<Pen>): (r: Result<LogValue, ArgumentError>)
    ensures p.None? ==> r == Success(NullValue)
    ensures p.Some? && r.Success? ==> r.value.ImmutablePenValue? && PenToImmutable(p) == Success(r.value.immutablePen)
    ensures p.Some? ==> (r.Failure? <==> PenToImmutable(p).Failure?)
  {
    if p.None? then Success(NullValue)
    else match PenToImmutable(p)
      case Success(i) => Success(ImmutablePenValue(i))
      case Failure(e) => Failure(e)
  }

  /** The "Brush" and "Pen" entries of the brush-and-pen draw calls; the brush
      is converted before the pen. */
  function BrushAndPen(b: Option<Brush>, p: Option<Pen>): Result<LogEntry, ArgumentError> {
    match LoggedBrush(b)
    case Failure(e) => Failure(e)
    case Success(bv) =>
      match LoggedPen(p)
      case Failure(e) => Failure(e)
      case Success(pv) => Success(map[BrushKey := bv, PenKey := pv])
  }

  /** The dictionary each walker method builds before `AddItem` adds the
      "Operation" key; building it fails when a brush or pen conversion throws. */
  function Fields(c: DrawCall): (r: Result<LogEntry, ArgumentError>)
    ensures r.Success? ==> OperationKey !in r.value
    ensures r.Failure? ==>
      c.DrawLine? || c.DrawGeometry? || c.DrawRectangle? || c.DrawRegion? || c.DrawEllipse? ||
      c.DrawGlyphRun? || c.PushOpacityMask?
  {
    match c
    case Clear(color) => Success(map[ColorKey := ColorValue(color)])
    case DrawBitmap(source, opacity, sourceRect, destRect) =>
      Success(map[BitmapKey := ResourceString(BitmapResource(source)), OpacityKey := RealValue(opacity),
                  SourceRectKey := RectValue(sourceRect), DestRectKey := RectValue(destRect)])
    case DrawBitmapMasked(source, opacityMask, opacityMaskRect, destRect) =>
      Success(map[BitmapKey := ResourceString(BitmapResource(source)), OpacityMarkKey := BrushString(opacityMask),
                  SourceRectKey := RectValue(opacityMaskRect), DestRectKey := RectValue(destRect)])
    case DrawLine(pen, p1, p2) =>
      var pv := LoggedPen(pen);
      if pv.Failure? then Failure(pv.error)
      else Success(map[PenKey := pv.value, Point1Key := PointValue(p1), Point2Key := PointValue(p2)])
    case DrawGeometry(brush, pen, geometry) =>
      var m := BrushAndPen(brush, pen);
      if m.Failure? then m
      else Success(m.value[GeometryKey := ResourceString(GeometryResource(geometry))])
    case DrawRectangle(brush, pen, rect, boxShadows) =>
      var m := BrushAndPen(brush, pen);
      if m.Failure? then m
      else Success(m.value[RectKey := RoundedRectValue(rect)][BoxShadowsKey := BoxShadowsValue(boxShadows)])
    case DrawRegion(brush, pen, region) =>
      var m := BrushAndPen(brush, pen);
      if m.Failure? then m
      else Success(m.value[RegionKey := ResourceString(RegionResource(region))])
    case DrawEllipse(brush, pen, rect) =>
      var m := BrushAndPen(brush, pen);
      if m.Failure? then m
      else Success(m.value[RectKey := RectValue(rect)])
    case DrawGlyphRun(foreground, glyphRun) =>
      var fv := LoggedBrush(foreground);
      if fv.Failure? then Failure(fv.error)
      else Success(map[ForegroundKey := fv.value, GlyphRunKey := ResourceString(GlyphRunResource(glyphRun))])
    case CreateLayer(size) => Success(map[SizeKey := PixelSizeValue(size)])
    case PushClip(clip) => Success(map[ClipKey := RectValue(clip)])
    case PushRoundedClip(clip) => Success(map[ClipKey := RoundedRectValue(clip)])
    case PushRegionClip(region) => Success(map[ClipKey := ResourceString(RegionResource(region))])
    case PushLayer(bounds) => Success(map[BoundsKey := RectValue(bounds)])
    case PushOpacity(opacity, bounds) =>
      Success(map[OpacityKey := RealValue(opacity),
                  BoundsKey := if bounds.Some? then RectValue(bounds.value) else NullValue])
    case PushOpacityMask(mask, bounds) =>
      var m := BrushToImmutable(Some(mask));
      if m.Failure? then Failure(m.error)
      else Success(map[OpacityMaskKey := ImmutableBrushValue(m.value), BoundsKey := RectValue(bounds)])
    case PushGeometryClip(clip) => Success(map[GeometryKey := ResourceString(GeometryResource(clip))])
    case PushRenderOptions(options) => Success(map[RenderOptionsKey := RenderOptionsValue(options)])
    case PushEffect(effect) => Success(map[EffectKey := ImmutableEffectValue(effect.converted)])
    case PopClip => Success(map[])
    case PopLayer => Success(map[])
    case PopOpacity => Success(map[])
    case PopOpacityMask => Success(map[])
    case PopGeometryClip => Success(map[])
    case PopRenderOptions => Success(map[])
    case PopEffect => Success(map[])
  }

  /** What `AddItem` does to a dictionary before appending it. */
  function WithOperation(fields: LogEntry, caller: string): LogEntry {
    fields[OperationKey := Text(caller)]
  }

  /** The log entry of a call, or the exception that prevents it. */
  function EntryOf(c: DrawCall): (r: Result<LogEntry, ArgumentError>)
    ensures r.Success? <==> Fields(c).Success?
  {
    match Fields(c)
    case Failure(e) => Failure(e)
    case Success(f) => Success(WithOperation(f, OperationName(c)))
  }

  /** `AddItem` adds one key, "Operation", and keeps every field the walker
      method built. */
  lemma EntryOfAddsOperation(c: DrawCall)
    requires EntryOf(c).Success?
    ensures EntryOf(c).value.Keys == Fields(c).value.Keys + {OperationKey}
    ensures |EntryOf(c).value| == |Fields(c).value| + 1
    ensures forall k :: k in Fields(c).value ==> EntryOf(c).value[k] == Fields(c).value[k]
  {
  }

  /** Every entry names the walker method that received its call. */
  lemma EntryNamesOperation(c: DrawCall)
    requires EntryOf(c).Success?
    ensures OperationKey in EntryOf(c).value && EntryOf(c).value[OperationKey] == Text(OperationName(c))
  {
    assert EntryOf(c).value == Fields(c).value[OperationKey := Text(OperationName(c))];
  }

  /** A `Pop*` call is always logged, and its entry holds nothing but its name. */
  lemma PopEntryHoldsOnlyName(c: DrawCall)
    requires c.IsPop()
    ensures EntryOf(c).Success? && EntryOf(c).value.Keys == {OperationKey}
  {
    assert Fields(c) == Success(map[]);
  }

  /** What the replay relies on: the entry names its call, and a pop entry
      holds nothing else. */
  lemma EntryNamesCall(c: DrawCall)
    requires EntryOf(c).Success?
    ensures OperationKey in EntryOf(c).value && EntryOf(c).value[OperationKey] == Text(OperationName(c))
    ensures c.IsPop() ==> EntryOf(c).value.Keys == {OperationKey}
  {
    EntryNamesOperation(c);
    if c.IsPop() {
      PopEntryHoldsOnlyName(c);
    }
  }

  /** The brush-and-pen calls whose brush and pen are both null are always
      logged, with null logged for each. */
  lemma EntryOfNullBrushAndPen(c: DrawCall)
    requires c.DrawGeometry? || c.DrawRectangle? || c.DrawRegion? || c.DrawEllipse?
    requires c.brush.None? && c.pen.None?
    ensures EntryOf(c).Success?
    ensures BrushKey in EntryOf(c).value && EntryOf(c).value[BrushKey] == NullValue
    ensures PenKey in EntryOf(c).value && EntryOf(c).value[PenKey] == NullValue
  {
    assert BrushAndPen(None, None) == Success(map[BrushKey := NullValue, PenKey := NullValue]);
  }

  /** Only a brush, pen or opacity-mask conversion can throw: the calls
      without one are always logged. */
  lemma EntryOfWithoutConversion(c: DrawCall)
    requires c.Clear? || c.DrawBitmap? || c.DrawBitmapMasked? || c.CreateLayer? || c.PushClip?
      || c.PushRoundedClip? || c.PushRegionClip? || c.PushLayer? || c.PushOpacity? || c.PushGeometryClip?
      || c.PushRenderOptions? || c.PushEffect? || c.IsPop()
    ensures EntryOf(c).Success?
  {
  }

  /** The layer a platform context returns from `CreateLayer`. */
  datatype LayerImpl = LayerImpl(size: PixelSize, index: nat)

  /** The platform drawing context: it records every call it receives. Whether
      it also implements `IDrawingContextImplWithEffects` is fixed. */
  class RecordingDrawingContext {
    var calls: seq<DrawCall>
    var transform: Matrix
    const supportsEffects: bool

    constructor (supportsEffects: bool, transform: Matrix)
      ensures calls == [] && this.transform == transform && this.supportsEffects == supportsEffects
    {
      calls := [];
      this.transform := transform;
      this.supportsEffects := supportsEffects;
    }

    method Receive(c: DrawCall)
      requires !c.IsEffectCall() || supportsEffects
      modifies this`calls
      ensures calls == old(calls) + [c]
    {
      calls := calls + [c];
    }

    method CreateLayer(size: PixelSize) returns (layer: LayerImpl)
      modifies this`calls
      ensures calls == old(calls) + [DrawCall.CreateLayer(size)]
      ensures layer == LayerImpl(size, |old(calls)|)
    {
      layer := LayerImpl(size, |calls|);
      calls := calls + [DrawCall.CreateLayer(size)];
    }
  }
}

=== FILE: gradient_stops.dfy ===
/** `GradientStops`: the client's mutable list of gradient stops, and the
    conversion of any stop list to immutable stops. */
module GradientStopList {
  import opened MediaTypes

  /** The immutable copy of a stop list: one immutable stop per input stop,
      carrying that stop's offset and colour. Defined from the back so that
      filling an array index by index follows it. */
  function ImmutableStops(stops: seq<GradientStop>): (r: seq<ImmutableGradientStop>)
    ensures |r| == |stops|
  {
    if stops == [] then []
    else
      var last := stops[|stops| - 1];
      ImmutableStops(stops[..|stops| - 1]) + [ImmutableGradientStop(last.Offset(), last.StopColor())]
  }

  /** Element i of the copy has the offset and colour of input element i. */
  lemma {:induction false} ImmutableStopsAt(stops: seq<GradientStop>, i: nat)
    requires i < |stops|
    ensures ImmutableStops(stops)[i] == ImmutableGradientStop(stops[i].Offset(), stops[i].StopColor())
  {
    if i < |stops| - 1 {
      ImmutableStopsAt(stops[..|stops| - 1], i);
    }
  }

  /** A list whose stops are already immutable (the server brushes keep such a
      list) is copied to exactly those stops. */
  lemma {:induction false} ImmutableStopsOfImmutable(stops: seq<ImmutableGradientStop>)
    ensures ImmutableStops(AsGradientStops(stops)) == stops
  {
    if stops != [] {
      var n := |stops| - 1;
      assert AsGradientStops(stops)[..n] == AsGradientStops(stops[..n]);
      ImmutableStopsOfImmutable(stops[..n]);
      assert stops == stops[..n] + [stops[n]];
    }
  }

  /** Views immutable stops as `IGradientStop`s. */
  function AsGradientStops(stops: seq<ImmutableGradientStop>): (r: seq<GradientStop>)
    ensures |r| == |stops|
    ensures forall i :: 0 <= i < |stops| ==> r[i] == ImmutableStop(stops[i])
  {
    seq(|stops|, i requires 0 <= i < |stops| => ImmutableStop(stops[i]))
  }

  /** `GradientStops.AsImmutable`: a fresh array filled index by index. */
  method AsImmutable(stops: seq<GradientStop>) returns (r: array<ImmutableGradientStop>)
    ensures fresh(r)
    ensures r[..] == ImmutableStops(stops)
  {
    r := new ImmutableGradientStop[|stops|](_ => ImmutableGradientStop(0.0, Color(0)));
    for i := 0 to |stops|
      invariant r[..i] == ImmutableStops(stops[..i])
    {
      var stop := stops[i];
      r[i] := ImmutableGradientStop(stop.Offset(), stop.StopColor());
      assert stops[..i + 1][..i] == stops[..i];
      assert r[..i + 1] == r[..i] + [r[i]];
    }
    assert stops[..|stops|] == stops;
    assert r[..r.Length] == r[..];
  }

  class GradientStops {
    var items: seq<GradientStop>

    constructor ()
      ensures items == []
    {
      items := [];
    }

    /** `ToImmutable()` is `AsImmutable(this)`; the list itself is not changed. */
    method ToImmutable() returns (r: array<ImmutableGradientStop>)
      ensures fresh(r)
      ensures r[..] == ImmutableStops(items)
    {
      r := AsImmutable(items);
    }
  }
}

=== FILE: media.dfy ===
/** Value types of the media layer that the core passes around without
    interpreting them. Geometry is kept as exact reals (no rounding, no NaN);
    platform resources are opaque handles identified by a number. */
module MediaTypes {

  /** A colour, as its packed ARGB value. */
  datatype Color = Color(argb: nat)

  datatype Point = Point(x: real, y: real)

  datatype Vector = Vector(x: real, y: real)

  datatype Rect = Rect(x: real, y: real, width: real, height: real)
  {
    /** Inclusive containment test of `Rect.Contains(Point)`. */
    predicate Contains(p: Point) {
      x <= p.x <= x + width && y <= p.y <= y + height
    }
  }

  datatype RoundedRect = RoundedRect(rect: Rect, radiusX: real, radiusY: real)

  datatype Matrix = Matrix(m11: real, m12: real, m21: real, m22: real, m31: real, m32: real)

  datatype PixelSize = PixelSize(width: int, height: int)

  /** A point or a scalar that is either absolute or relative to the bounds it
      is used with. */
  datatype RelativePoint = RelativePoint(point: Point, relative: bool)

  datatype RelativeScalar = RelativeScalar(scalar: real, relative: bool)

  datatype GradientSpreadMethod = Pad | Reflect | Repeat

  datatype PenLineCap = FlatCap | RoundCap | SquareCap

  datatype PenLineJoin = BevelJoin | MiterJoin | RoundJoin

  datatype BoxShadows = BoxShadows(count: nat)

  datatype RenderOptions = RenderOptions(bitmapInterpolationMode: nat, edgeMode: nat)

  /** An immutable gradient stop, the element type of the immutable brushes. */
  datatype ImmutableGradientStop = ImmutableGradientStop(offset: real, color: Color)

  /** `IGradientStop`: either a client (mutable) stop or an immutable one; both
      expose an offset and a colour. */
  datatype GradientStop =
    | MutableStop(mutableOffset: real, mutableColor: Color)
    | ImmutableStop(stop: ImmutableGradientStop)
  {
    function Offset(): real {
      match this
      case MutableStop(o, _) => o
      case ImmutableStop(s) => s.offset
    }

    function StopColor(): Color {
      match this
      case MutableStop(_, c) => c
      case ImmutableStop(s) => s.color
    }
  }

  /** `ITransform` and its immutable counterpart. `ITransform.ToImmutable` is
      not part of this model: it is represented as capturing the current
      matrix value. */
  datatype Transform = Transform(value: Matrix)

  datatype ImmutableTransform = ImmutableTransform(value: Matrix)

  function TransformToImmutable(t: Transform): ImmutableTransform {
    ImmutableTransform(t.value)
  }

  /** `IEffect` and its immutable counterpart; the effect's own conversion is
      not part of this model and is represented by the value it yields. */
  datatype ImmutableEffect = ImmutableEffect(id: nat)

  datatype Effect = Effect(id: nat, converted: ImmutableEffect)

  /** Opaque platform resources. */
  datatype BitmapImpl = BitmapImpl(id: nat)

  datatype GeometryImpl = GeometryImpl(id: nat)

  datatype RegionImpl = RegionImpl(id: nat)

  datatype GlyphRunImpl = GlyphRunImpl(id: nat)

  /** C#'s `(int)` cast of a double: truncation toward zero. */
  function TruncateToInt(x: real): (r: int)
    ensures 0.0 <= x ==> r as real <= x < r as real + 1.0
    ensures x < 0.0 ==> r as real - 1.0 < x <= r as real
  {
    if 0.0 <= x then x.Floor else -((-x).Floor)
  }
}

=== FILE: refresh_adapter.dfy ===
/** `ScrollViewerIRefreshInfoProviderAdapter`: finds the `ScrollViewer` a
    pull-to-refresh visualizer attaches to, and validates it before building
    the `RefreshInfoProvider`. Event handlers and gesture recognizers are
    represented only by the fields that decide whether `Adapt` throws. */
module PullToRefresh {
  import opened Wrappers

  /** How many levels below the root the search looks. */
  const MaxSearchDepth: nat := 10

  datatype PullDirection = TopToBottom | BottomToTop | LeftToRight | RightToLeft

  datatype Size = Size(width: real, height: real)

  /** The logical parent (`Parent`) of a scroll viewer's content. */
  datatype LogicalParent = LogicalParent(id: nat, isInputElement: bool)

  /** `ScrollViewer.Content`: null, an object that is not a `Visual`, or a
      visual with or without a visual parent. */
  datatype Content =
    | NoContent
    | NotAVisual
    | VisualContent(id: nat, hasVisualParent: bool, parent: Option<LogicalParent>)

  datatype ScrollViewer = ScrollViewer(id: nat, content: Content)

  /** A node of the visual tree; `scrollViewer` is set when the node is one. */
  datatype Visual = Visual(scrollViewer: Option<ScrollViewer>, children: seq<Visual>)

  // ---------------------------------------------------------------------
  // The search

  /** The first scroll viewer among `vs`, in order. */
  function FirstScrollViewer(vs: seq<Visual>): (r: Option<ScrollViewer>)
    ensures r.None? <==> forall i :: 0 <= i < |vs| ==> vs[i].scrollViewer.None?
    ensures r.Some? ==> exists i :: 0 <= i < |vs| && vs[i].scrollViewer == r &&
                                    forall j :: 0 <= j < i ==> vs[j].scrollViewer.None?
  {
    if vs == [] then None
    else if vs[0].scrollViewer.Some? then vs[0].scrollViewer
    else
      var r := FirstScrollViewer(vs[1..]);
      assert forall i :: 1 <= i < |vs| ==> vs[i] == vs[1..][i - 1];
      r
  }

  /** `AdaptFromTreeRecursiveHelper(root, depth)`: at depth 0 the first child
      that is a scroll viewer, otherwise the first child whose own search at
      `depth - 1` finds one. */
  function FindAt(root: Visual, depth: nat): Option<ScrollViewer>
    decreases root, 1
  {
    if depth == 0 then FirstScrollViewer(root.children)
    else FindInChildren(root.children, depth - 1)
  }

  function FindInChildren(cs: seq<Visual>, depth: nat): Option<ScrollViewer>
    decreases cs, 0
  {
    if cs == [] then None
    else match FindAt(cs[0], depth)
      case Some(v) => Some(v)
      case None => FindInChildren(cs[1..], depth)
  }

  /** The nodes `k` levels below `v`, left to right (level 0 is `v` itself). */
  function Level(v: Visual, k: nat): seq<Visual>
    decreases v, 1
  {
    if k == 0 then [v] else LevelOf(v.children, k - 1)
  }

  function LevelOf(cs: seq<Visual>, k: nat): seq<Visual>
    decreases cs, 0
  {
    if cs == [] then [] else Level(cs[0], k) + LevelOf(cs[1..], k)
  }

  lemma {:induction false} FirstScrollViewerAppend(a: seq<Visual>, b: seq<Visual>)
    ensures FirstScrollViewer(a + b) ==
      if FirstScrollViewer(a).Some? then FirstScrollViewer(a) else FirstScrollViewer(b)
  {
    if a != [] {
      assert (a + b)[1..] == a[1..] + b;
      FirstScrollViewerAppend(a[1..], b);
    } else {
      assert a + b == b;
    }
  }

  lemma {:induction false} LevelOfFirst(cs: seq<Visual>)
    ensures LevelOf(cs, 0) == cs
  {
    if cs != [] {
      LevelOfFirst(cs[1..]);
      assert cs == [cs[0]] + cs[1..];
    }
  }

  /** The helper at `depth` returns the leftmost scroll viewer exactly
      `depth + 1` levels below the root. */
  lemma {:induction false} FindAtLevel(v: Visual, depth: nat)
    ensures FindAt(v, depth) == FirstScrollViewer(Level(v, depth + 1))
    decreases v, 1
  {
    if depth == 0 {
      LevelOfFirst(v.children);
    } else {
      FindInChildrenLevel(v.children, depth - 1);
    }
  }

  lemma {:induction false} FindInChildrenLevel(cs: seq<Visual>, depth: nat)
    ensures FindInChildren(cs, depth) == FirstScrollViewer(LevelOf(cs, depth + 1))
    decreases cs, 0
  {
    if cs != [] {
      FindAtLevel(cs[0], depth);
      FindInChildrenLevel(cs[1..], depth);
      FirstScrollViewerAppend(Level(cs[0], depth + 1), LevelOf(cs[1..], depth + 1));
    }
  }

  /** The `while (depth < MaxSearchDepth)` loop from `depth` on. */
  function SearchFrom(root: Visual, depth: nat): Option<ScrollViewer>
    decreases MaxSearchDepth - depth
  {
    if depth >= MaxSearchDepth then None
    else match FindAt(root, depth)
      case Some(v) => Some(v)
      case None => SearchFrom(root, depth + 1)
  }

  /** The scroll viewer `AdaptFromTree` adapts: the root itself when it is
      one, otherwise the result of the search. */
  function SearchTarget(root: Visual): Option<ScrollViewer> {
    if root.scrollViewer.Some? then root.scrollViewer else SearchFrom(root, 0)
  }

  lemma {:induction false} SearchFromShallowest(root: Visual, depth: nat) returns (d: nat)
    requires SearchFrom(root, depth).Some?
    ensures depth <= d < MaxSearchDepth
    ensures SearchFrom(root, depth) == FirstScrollViewer(Level(root, d + 1))
    ensures forall k :: depth < k <= d ==> FirstScrollViewer(Level(root, k)).None?
    decreases MaxSearchDepth - depth
  {
    FindAtLevel(root, depth);
    if FindAt(root, depth).Some? {
      d := depth;
    } else {
      d := SearchFromShallowest(root, depth + 1);
      forall k | depth < k <= d
        ensures FirstScrollViewer(Level(root, k)).None?
      {
        if k == depth + 1 {
          assert FindAt(root, depth).None?;
        }
      }
    }
  }

  lemma {:induction false} SearchFromNone(root: Visual, depth: nat)
    ensures SearchFrom(root, depth).None? <==>
      forall k :: depth < k <= MaxSearchDepth ==> FirstScrollViewer(Level(root, k)).None?
    decreases MaxSearchDepth - depth
  {
    if depth < MaxSearchDepth {
      FindAtLevel(root, depth);
      SearchFromNone(root, depth + 1);
    }
  }

  /** The search is an iterative deepening: a root that is a scroll viewer is
      taken as is; otherwise the result is the leftmost scroll viewer of the
      shallowest level from 1 to `MaxSearchDepth` that holds one, and there is
      none exactly when those levels hold none. */
  lemma SearchTargetShallowestLeftmost(root: Visual) returns (level: nat)
    ensures root.scrollViewer.Some? ==> SearchTarget(root) == root.scrollViewer
    ensures root.scrollViewer.None? ==>
      (SearchTarget(root).None? <==>
         forall k, i :: 1 <= k <= MaxSearchDepth && 0 <= i < |Level(root, k)| ==> Level(root, k)[i].scrollViewer.None?)
    ensures root.scrollViewer.None? && SearchTarget(root).Some? ==>
      && 1 <= level <= MaxSearchDepth
      && (exists i :: 0 <= i < |Level(root, level)| && Level(root, level)[i].scrollViewer == SearchTarget(root)
                      && forall j :: 0 <= j < i ==> Level(root, level)[j].scrollViewer.None?)
      && forall k, i :: 1 <= k < level && 0 <= i < |Level(root, k)| ==> Level(root, k)[i].scrollViewer.None?
  {
    level := 0;
    if root.scrollViewer.None? {
      SearchFindsNothing(root);
      if SearchFrom(root, 0).Some? {
        var d := SearchFromShallowest(root, 0);
        level := d + 1;
        LevelsAboveHoldNone(root, level);
      }
    }
  }

  /** The search from the root finds nothing exactly when no node of levels 1
      to `MaxSearchDepth` is a scroll viewer. */
  lemma SearchFindsNothing(root: Visual)
    ensures SearchFrom(root, 0).None? <==>
      forall k, i :: 1 <= k <= MaxSearchDepth && 0 <= i < |Level(root, k)| ==> Level(root, k)[i].scrollViewer.None?
  {
    SearchFromNone(root, 0);
    if SearchFrom(root, 0).None? {
      forall k, i | 1 <= k <= MaxSearchDepth && 0 <= i < |Level(root, k)|
        ensures Level(root, k)[i].scrollViewer.None?
      {
        assert FirstScrollViewer(Level(root, k)).None?;
      }
    }
  }

  /** Levels whose first scroll viewer is absent hold no scroll viewer at all. */
  lemma LevelsAboveHoldNone(root: Visual, level: nat)
    requires forall k :: 0 < k < level ==> FirstScrollViewer(Level(root, k)).None?
    ensures forall k, i :: 1 <= k < level && 0 <= i < |Level(root, k)| ==> Level(root, k)[i].scrollViewer.None?
  {
    forall k, i | 1 <= k < level && 0 <= i < |Level(root, k)|
      ensures Level(root, k)[i].scrollViewer.None?
    {
      assert FirstScrollViewer(Level(root, k)).None?;
    }
  }

  // ---------------------------------------------------------------------
  // Validation

  datatype RefreshInfoProvider = RefreshInfoProvider(direction: PullDirection, visualizerSize: Size, content: nat)

  datatype AdaptError =
    | ArgumentNull                  // "Adaptee cannot be null"
    | ContentNull                   // "Adaptee's content property cannot be null."
    | ContentNotVisual              // "Adaptee's content property must be a Visual"
    | ContentParentNotInputElement  // "Adaptee's content('s) parent must be a(n) InputElement"
    | NullReference                 // a handler taken from a null provider (the exception type depends on the runtime)

  /** The adapter's fields; `hasPullGestureRecognizer` and
      `isVisualizerInteractionSourceAttached` stand for
      `_pullGestureRecognizer != null` and the flag of the same name. */
  datatype AdapterState = AdapterState(
    scrollViewer: Option<ScrollViewer>,
    refreshInfoProvider: Option<RefreshInfoProvider>,
    interactionSource: Option<LogicalParent>,
    hasPullGestureRecognizer: bool,
    isVisualizerInteractionSourceAttached: bool)

  const InitialAdapter := AdapterState(None, None, None, false, false)

  /** `content.Parent is InputElement`. */
  predicate ParentIsInputElement(c: Content)
    requires c.VisualContent?
  {
    c.parent.Some? && c.parent.value.isInputElement
  }

  datatype Step = Step(state: AdapterState, error: Option<AdaptError>)

  /** `MakeInteractionSource`: the interaction source is recorded, and the
      recognizer and the provider's handlers are attached when a recognizer
      exists. As written the handlers are read from `_refreshInfoProvider`
      without a null check; `checkProvider` adds that check. */
  function MakeInteractionSourceSpec(st: AdapterState, element: LogicalParent, checkProvider: bool): Step {
    var st1 := st.(interactionSource := Some(element));
    if !st1.hasPullGestureRecognizer then Step(st1, None)
    else if st1.refreshInfoProvider.None? then
      if checkProvider then Step(st1, None) else Step(st1, Some(NullReference))
    else Step(st1.(isVisualizerInteractionSourceAttached := true), None)
  }

  /** `ScrollViewer_Loaded`, called directly from `Adapt`. */
  function LoadedSpec(st: AdapterState, checkProvider: bool): Step
    requires st.scrollViewer.Some?
  {
    var c := st.scrollViewer.value.content;
    if !c.VisualContent? then Step(st, Some(ContentNotVisual))
    else if !ParentIsInputElement(c) then Step(st, Some(ContentParentNotInputElement))
    else MakeInteractionSourceSpec(st, c.parent.value, checkProvider)
  }

  datatype Adapted = Adapted(state: AdapterState, result: Result<RefreshInfoProvider, AdaptError>)

  /** `Adapt`, with or without the null check in `MakeInteractionSource`. */
  function AdaptWith(st: AdapterState, adaptee: Option<ScrollViewer>, size: Size, direction: PullDirection,
                     checkProvider: bool): Adapted
  {
    if adaptee.None? then Adapted(st, Failure(ArgumentNull))
    else
      var st1 := st.(refreshInfoProvider := None, scrollViewer := adaptee);
      var c := adaptee.value.content;
      if c.NoContent? then Adapted(st1, Failure(ContentNull))
      else if c.NotAVisual? then Adapted(st1, Failure(ContentNotVisual))
      else
        var l := if c.hasVisualParent then LoadedSpec(st1, checkProvider) else Step(st1, None);
        if l.error.Some? then Adapted(l.state, Failure(l.error.value))
        else if c.hasVisualParent && !ParentIsInputElement(c) then Adapted(l.state, Failure(ContentParentNotInputElement))
        else
          var p := RefreshInfoProvider(direction, size, c.id);
          var st2 := l.state.(refreshInfoProvider := Some(p), hasPullGestureRecognizer := true);
          Adapted(if st2.interactionSource.Some? then st2.(isVisualizerInteractionSourceAttached := true) else st2,
                  Success(p))
  }

  /** `Adapt` as written. */
  function AdaptAsWritten(st: AdapterState, adaptee: Option<ScrollViewer>, size: Size, direction: PullDirection): Adapted {
    AdaptWith(st, adaptee, size, direction, false)
  }

  /** `Adapt` with the null check. */
  function AdaptSpec(st: AdapterState, adaptee: Option<ScrollViewer>, size: Size, direction: PullDirection): Adapted {
    AdaptWith(st, adaptee, size, direction, true)
  }

  /** What `Adapt` should decide from the adaptee alone. */
  function ValidationOutcome(adaptee: Option<ScrollViewer>, size: Size, direction: PullDirection)
    : Result<RefreshInfoProvider, AdaptError>
  {
    if adaptee.None? then Failure(ArgumentNull)
    else match adaptee.value.content
      case NoContent => Failure(ContentNull)
      case NotAVisual => Failure(ContentNotVisual)
      case VisualContent(id, hasVisualParent, parent) =>
        if hasVisualParent && !(parent.Some? && parent.value.isInputElement) then Failure(ContentParentNotInputElement)
        else Success(RefreshInfoProvider(direction, size, id))
  }

  /** With the null check, `Adapt` fails exactly on a null adaptee, a null or
      non-visual content, or content that already has a visual parent whose
      logical parent is not an `InputElement`, whatever the adapter adapted
      before; on success it returns a provider for the content and keeps it.
      A null adaptee changes nothing; after any other call the adaptee is the
      current scroll viewer, and a failed call leaves no provider. */
  lemma AdaptOutcome(st: AdapterState, adaptee: Option<ScrollViewer>, size: Size, direction: PullDirection)
    ensures var a := AdaptSpec(st, adaptee, size, direction);
      && a.result == ValidationOutcome(adaptee, size, direction)
      && (adaptee.None? ==> a.state == st)
      && (adaptee.Some? ==> a.state.scrollViewer == adaptee)
      && (adaptee.Some? && a.result.Failure? ==> a.state.refreshInfoProvider.None?)
      && (a.result.Success? ==> a.state.refreshInfoProvider == Some(a.result.value) && a.state.hasPullGestureRecognizer)
      && (a.result.Success? && a.state.interactionSource.Some? ==> a.state.isVisualizerInteractionSourceAttached)
  {
  }

  /** As written, a second `Adapt` of a scroll viewer whose content is
      already in a visual tree under an `InputElement` throws: the recognizer
      from the first call is still set while the provider has just been
      cleared. */
  lemma AdaptAsWrittenSecondCallThrows()
    ensures var sv := ScrollViewer(1, VisualContent(2, true, Some(LogicalParent(3, true))));
      var size := Size(10.0, 10.0);
      var first := AdaptAsWritten(InitialAdapter, Some(sv), size, TopToBottom);
      && first.result.Success?
      && AdaptAsWritten(first.state, Some(sv), size, TopToBottom).result == Failure(NullReference)
      && ValidationOutcome(Some(sv), size, TopToBottom).Success?
  {
  }

  // ---------------------------------------------------------------------
  // The adapter

  /** `Success(p)` of `Adapt` as the non-null provider `AdaptFromTree` returns. */
  function Found(r: Result<RefreshInfoProvider, AdaptError>): Result<Option<RefreshInfoProvider>, AdaptError> {
    match r
    case Success(p) => Success(Some(p))
    case Failure(e) => Failure(e)
  }

  class ScrollViewerRefreshAdapter {
    const refreshPullDirection: PullDirection
    var scrollViewer: Option<ScrollViewer>
    var refreshInfoProvider: Option<RefreshInfoProvider>
    var interactionSource: Option<LogicalParent>
    var hasPullGestureRecognizer: bool
    var isVisualizerInteractionSourceAttached: bool

    function Model(): AdapterState
      reads this
    {
      AdapterState(scrollViewer, refreshInfoProvider, interactionSource, hasPullGestureRecognizer,
                   isVisualizerInteractionSourceAttached)
    }

    constructor (pullDirection: PullDirection)
      ensures Model() == InitialAdapter && refreshPullDirection == pullDirection
    {
      refreshPullDirection := pullDirection;
      scrollViewer, refreshInfoProvider, interactionSource := None, None, None;
      hasPullGestureRecognizer, isVisualizerInteractionSourceAttached := false, false;
    }

    method MakeInteractionSource(element: LogicalParent) returns (err: Option<AdaptError>)
      modifies this
      ensures var s := MakeInteractionSourceSpec(old(Model()), element, true);
        Model() == s.state && err == s.error
    {
      interactionSource := Some(element);
      if hasPullGestureRecognizer && refreshInfoProvider.Some? {
        isVisualizerInteractionSourceAttached := true;
      }
      return None;
    }

    method ScrollViewerLoaded() returns (err: Option<AdaptError>)
      requires scrollViewer.Some?
      modifies this
      ensures var s := LoadedSpec(old(Model()), true);
        Model() == s.state && err == s.error
    {
      var content := scrollViewer.value.content;
      if !content.VisualContent? {
        return Some(ContentNotVisual);
      }
      if !ParentIsInputElement(content) {
        return Some(ContentParentNotInputElement);
      }
      err := MakeInteractionSource(content.parent.value);
    }

    method Adapt(adaptee: Option<ScrollViewer>, size: Size) returns (r: Result<RefreshInfoProvider, AdaptError>)
      modifies this
      ensures var a := AdaptSpec(old(Model()), adaptee, size, refreshPullDirection);
        Model() == a.state && r == a.result
    {
      if adaptee.None? {
        return Failure(ArgumentNull);
      }
      refreshInfoProvider := None;
      scrollViewer := adaptee;
      var content := adaptee.value.content;
      if content.NoContent? {
        return Failure(ContentNull);
      }
      if content.NotAVisual? {
        return Failure(ContentNotVisual);
      }
      if content.hasVisualParent {
        var err := ScrollViewerLoaded();
        if err.Some? {
          return Failure(err.value);
        }
        if !ParentIsInputElement(content) {
          return Failure(ContentParentNotInputElement);
        }
      }
      var provider := RefreshInfoProvider(refreshPullDirection, size, content.id);
      refreshInfoProvider := Some(provider);
      hasPullGestureRecognizer := true;
      if interactionSource.Some? {
        isVisualizerInteractionSourceAttached := true;
      }
      return Success(provider);
    }

    /** `AdaptFromTree`: adapts the search target, or returns no provider and
        changes nothing when there is none. */
    method AdaptFromTree(root: Visual, size: Size) returns (r: Result<Option<RefreshInfoProvider>, AdaptError>)
      modifies this
      ensures var t := SearchTarget(root);
        && (t.None? ==> r == Success(None) && Model() == old(Model()))
        && (t.Some? ==> var a := AdaptSpec(old(Model()), t, size, refreshPullDirection);
              Model() == a.state && r == Found(a.result))
    {
      if root.scrollViewer.Some? {
        var a := Adapt(root.scrollViewer, size);
        return Found(a);
      }
      var depth := 0;
      while depth < MaxSearchDepth
        invariant 0 <= depth <= MaxSearchDepth
        invariant SearchFrom(root, 0) == SearchFrom(root, depth)
        invariant Model() == old(Model())
        decreases MaxSearchDepth - depth
      {
        var scroll := FindAt(root, depth);
        if scroll.Some? {
          var a := Adapt(scroll, size);
          return Found(a);
        }
        depth := depth + 1;
      }
      return Success(None);
    }
  }
}

=== FILE: server_pen.dfy ===
/** `ServerCompositionSimplePen`: the server-side pen and its conversion to an
    `ImmutablePen`. */
module ServerPen {
  import opened Wrappers
  import opened MediaTypes
  import opened ServerBrushes
  import opened BrushExtensions

  datatype ImmutablePen = ImmutablePen(
    brush: Option<ImmutableBrush>,
    thickness: real,
    dashStyle: Option<ImmutableDashStyle>,
    lineCap: PenLineCap,
    lineJoin: PenLineJoin,
    miterLimit: real)

  /** The field values of a server simple pen; a null brush or dash style is `None`. */
  datatype ServerPenState = ServerPenState(
    brush: Option<Brush>,
    thickness: real,
    dashStyle: Option<DashStyle>,
    lineCap: PenLineCap,
    lineJoin: PenLineJoin,
    miterLimit: real)

  /** The explicit `IPen.DashStyle` implementation. */
  function PenDashStyle(p: ServerPenState): Option<DashStyle> {
    p.dashStyle
  }

  /** `Brush?.ToImmutable()` and `DashStyle?.ToImmutable()`: null stays null. */
  function OptionalBrushToImmutable(b: Option<Brush>): Result<Option<ImmutableBrush>, ArgumentError> {
    if b.None? then Success(None)
    else match BrushToImmutable(b)
      case Success(i) => Success(Some(i))
      case Failure(e) => Failure(e)
  }

  function OptionalDashStyleToImmutable(d: Option<DashStyle>): Result<Option<ImmutableDashStyle>, ArgumentError> {
    if d.None? then Success(None)
    else match DashStyleToImmutable(d)
      case Success(i) => Success(Some(i))
      case Failure(e) => Failure(e)
  }

  /** `ToImmutable`: the brush is converted first, then the dash style; an
      exception from either conversion propagates. The immutable pen keeps
      thickness, caps, join and miter limit; its brush is null exactly when
      the pen's brush is null and is otherwise the brush's `ToImmutable()`;
      likewise its dash style, which is the conversion of the style
      `IPen.DashStyle` exposes. */
  function ServerPenToImmutable(p: ServerPenState): (r: Result<ImmutablePen, ArgumentError>)
    ensures r.Success? ==>
      && r.value.thickness == p.thickness && r.value.lineCap == p.lineCap
      && r.value.lineJoin == p.lineJoin && r.value.miterLimit == p.miterLimit
      && (r.value.brush.None? <==> p.brush.None?)
      && (p.brush.Some? ==> BrushToImmutable(p.brush) == Success(r.value.brush.value))
      && (r.value.dashStyle.None? <==> PenDashStyle(p).None?)
      && (PenDashStyle(p).Some? ==> DashStyleToImmutable(PenDashStyle(p)) == Success(r.value.dashStyle.value))
  {
    match OptionalBrushToImmutable(p.brush)
    case Failure(e) => Failure(e)
    case Success(brush) =>
      match OptionalDashStyleToImmutable(PenDashStyle(p))
      case Failure(e) => Failure(e)
      case Success(dash) => Success(ImmutablePen(brush, p.thickness, dash, p.lineCap, p.lineJoin, p.miterLimit))
  }

  /** Which exception the conversion throws: the brush's, when the brush is of
      an unknown kind, else the dash style's. A null brush or style never
      throws. */
  lemma ServerPenToImmutableErrors(p: ServerPenState)
    ensures ServerPenToImmutable(p).Failure? ==> ServerPenToImmutable(p).error == ArgumentOutOfRange
    ensures p.brush.None? && p.dashStyle.None? ==> ServerPenToImmutable(p).Success?
    ensures BrushToImmutable(p.brush) == Failure(ArgumentOutOfRange) ==>
      ServerPenToImmutable(p) == Failure(ArgumentOutOfRange)
  {
  }
}

=== FILE: snapshot.dfy ===
/** `CompositionTreeSnapshot`: a diagnostic copy of the server visual tree.
    Each draw-list visual's render data is replayed through a recording
    walker into a fresh bitmap, and the walker's log becomes the item's
    `DrawOperations`. */
module TreeSnapshot {
  import opened Wrappers
  import opened MediaTypes
  import opened BrushExtensions
  import opened DrawingContext
  import opened RenderDataNodes
  import opened Sequences

  /** The calls the walker passes on for a call it has logged: all of them,
      except `PushEffect`/`PopEffect` when the inner context has no effects. */
  function Forwarded(c: DrawCall, supportsEffects: bool): (r: seq<DrawCall>)
    ensures r == [] || r == [c]
    ensures r == [] <==> c.IsEffectCall() && !supportsEffects
  {
    if c.IsEffectCall() && !supportsEffects then [] else [c]
  }

  /** `DrawingContextWalkerImpl`: logs every call, then forwards it. */
  class DrawingContextWalker {
    const inner: RecordingDrawingContext
    var operationsLog: seq<LogEntry>

    constructor (inner: RecordingDrawingContext)
      ensures this.inner == inner && operationsLog == []
    {
      this.inner := inner;
      operationsLog := [];
    }

    /** The `Transform` getter reads the inner context's transform. */
    function Transform(): Matrix
      reads inner
    {
      inner.transform
    }

    /** The `Transform` setter writes the inner context's transform and logs nothing. */
    method SetTransform(m: Matrix)
      modifies inner`transform
      ensures inner.transform == m && Transform() == m
    {
      inner.transform := m;
    }

    /** `Dispose` does nothing. */
    method Dispose()
      ensures operationsLog == old(operationsLog) && inner.calls == old(inner.calls)
    {
    }

    method AddItem(dictionary: LogEntry, caller: string)
      modifies this`operationsLog
      ensures operationsLog == old(operationsLog) + [WithOperation(dictionary, caller)]
    {
      operationsLog := operationsLog + [dictionary[OperationKey := Text(caller)]];
    }

    /** Every `Draw*`, `Push*` and `Pop*` method and `Clear`: build the
        dictionary (a brush or pen conversion may throw, and then nothing is
        logged or forwarded), log it under the method's name, then forward the
        call. */
    method Record(c: DrawCall) returns (err: Option<ArgumentError>)
      modifies this`operationsLog, inner`calls
      ensures EntryOf(c).Failure? ==>
        err == Some(EntryOf(c).error) && operationsLog == old(operationsLog) && inner.calls == old(inner.calls)
      ensures EntryOf(c).Success? ==>
        && err.None?
        && operationsLog == old(operationsLog) + [EntryOf(c).value]
        && inner.calls == old(inner.calls) + Forwarded(c, inner.supportsEffects)
    {
      var fields := Fields(c);
      if fields.Failure? {
        return Some(fields.error);
      }
      AddItem(fields.value, OperationName(c));
      if !c.IsEffectCall() || inner.supportsEffects {
        inner.Receive(c);
      }
      return None;
    }

    /** `CreateLayer` logs its size and returns the inner context's layer. */
    method CreateLayer(size: PixelSize) returns (layer: LayerImpl)
      modifies this`operationsLog, inner`calls
      ensures operationsLog == old(operationsLog) + [EntryOf(DrawCall.CreateLayer(size)).value]
      ensures inner.calls == old(inner.calls) + [DrawCall.CreateLayer(size)]
      ensures layer == LayerImpl(size, |old(inner.calls)|)
    {
      AddItem(map[SizeKey := PixelSizeValue(size)], "CreateLayer");
      layer := inner.CreateLayer(size);
    }
  }

  /** What replaying a sequence of calls through a walker yields: the entries
      logged, the calls forwarded and the exception that stopped it. */
  datatype Replayed = Replayed(log: seq<LogEntry>, forwarded: seq<DrawCall>, error: Option<ArgumentError>)

  /** Replays `calls` in order, `entry` giving each call's log entry or the
      exception that prevents it, and stops at the first exception. Defined
      from the back, one call at a time. */
  function ReplayWith(calls: seq<DrawCall>, supportsEffects: bool, entry: DrawCall -> Result<LogEntry, ArgumentError>): (r: Replayed)
    ensures |r.log| <= |calls|
  {
    if calls == [] then Replayed([], [], None)
    else
      var prev := ReplayWith(calls[..|calls| - 1], supportsEffects, entry);
      var c := calls[|calls| - 1];
      if prev.error.Some? then prev
      else match entry(c)
        case Failure(e) => Replayed(prev.log, prev.forwarded, Some(e))
        case Success(x) => Replayed(prev.log + [x], prev.forwarded + Forwarded(c, supportsEffects), None)
  }

  /** What the walker does with `calls`: each call's entry is `EntryOf`. */
  function ReplayLog(calls: seq<DrawCall>, supportsEffects: bool): Replayed {
    ReplayWith(calls, supportsEffects, EntryOf)
  }

  /** A complete replay logs one entry per call, in call order. */
  lemma {:induction false} ReplayLogsEveryCall(calls: seq<DrawCall>, fx: bool, entry: DrawCall -> Result<LogEntry, ArgumentError>)
    requires ReplayWith(calls, fx, entry).error.None?
    ensures var r := ReplayWith(calls, fx, entry);
      && |r.log| == |calls|
      && forall i :: 0 <= i < |calls| ==> entry(calls[i]) == Success(r.log[i])
  {
    if calls != [] {
      var n := |calls| - 1;
      ReplayLogsEveryCall(calls[..n], fx, entry);
      var r := ReplayWith(calls, fx, entry);
      forall i | 0 <= i < |calls|
        ensures entry(calls[i]) == Success(r.log[i])
      {
        if i < n {
          assert calls[..n][i] == calls[i];
        }
      }
    }
  }

  /** Each entry the walker logs in a complete replay is named after its
      call, and a `Pop*` entry holds only its name. */
  lemma ReplayNamesEveryCall(calls: seq<DrawCall>, supportsEffects: bool)
    requires ReplayLog(calls, supportsEffects).error.None?
    ensures var r := ReplayLog(calls, supportsEffects);
      && |r.log| == |calls|
      && forall i :: 0 <= i < |calls| ==>
        && OperationKey in r.log[i]
        && r.log[i][OperationKey] == Text(OperationName(calls[i]))
        && (calls[i].IsPop() ==> r.log[i].Keys == {OperationKey})
  {
    ReplayLogsEveryCall(calls, supportsEffects, EntryOf);
    forall i | 0 <= i < |calls| {
      EntryNamesCall(calls[i]);
    }
  }

  /** A replay that fails has logged exactly the calls before the first one
      whose entry cannot be built, and nothing after it. */
  lemma {:induction false} ReplayStopsAtFirstFailure(calls: seq<DrawCall>, fx: bool, entry: DrawCall -> Result<LogEntry, ArgumentError>)
    requires ReplayWith(calls, fx, entry).error.Some?
    ensures var r := ReplayWith(calls, fx, entry);
      && |r.log| < |calls|
      && entry(calls[|r.log|]).Failure?
      && r.error == Some(entry(calls[|r.log|]).error)
      && ReplayWith(calls[..|r.log|], fx, entry).error.None?
      && ReplayWith(calls[..|r.log|], fx, entry).log == r.log
  {
    var n := |calls| - 1;
    var prev := ReplayWith(calls[..n], fx, entry);
    if prev.error.Some? {
      ReplayStopsAtFirstFailure(calls[..n], fx, entry);
      assert calls[..n][..|prev.log|] == calls[..|prev.log|];
    } else {
      ReplayLogsEveryCall(calls[..n], fx, entry);
      assert calls[..n] == calls[..|prev.log|];
    }
  }

  /** Replays `calls` through the walker one `Record` at a time. */
  method ReplayCalls(walker: DrawingContextWalker, calls: seq<DrawCall>) returns (err: Option<ArgumentError>)
    modifies walker`operationsLog, walker.inner`calls
    ensures var r := ReplayLog(calls, walker.inner.supportsEffects);
      && walker.operationsLog == old(walker.operationsLog) + r.log
      && walker.inner.calls == old(walker.inner.calls) + r.forwarded
      && err == r.error
  {
    var i := 0;
    err := None;
    while i < |calls| && err.None?
      invariant 0 <= i <= |calls|
      invariant var r := ReplayLog(calls[..i], walker.inner.supportsEffects);
        && walker.operationsLog == old(walker.operationsLog) + r.log
        && walker.inner.calls == old(walker.inner.calls) + r.forwarded
        && err == r.error
    {
      err := RecordNext(walker, calls, i, old(walker.operationsLog), old(walker.inner.calls));
      i := i + 1;
    }
    if err.Some? {
      ReplayFailurePersists(calls, i, walker.inner.supportsEffects, EntryOf);
    } else {
      assert calls[..i] == calls;
    }
  }

  /** `Record` for call `i`, after the calls before it have been replayed
      without an exception. */
  method RecordNext(walker: DrawingContextWalker, calls: seq<DrawCall>, i: nat,
                    ghost log0: seq<LogEntry>, ghost calls0: seq<DrawCall>) returns (err: Option<ArgumentError>)
    requires i < |calls|
    requires var r := ReplayLog(calls[..i], walker.inner.supportsEffects);
      && r.error.None?
      && walker.operationsLog == log0 + r.log
      && walker.inner.calls == calls0 + r.forwarded
    modifies walker`operationsLog, walker.inner`calls
    ensures var r := ReplayLog(calls[..i + 1], walker.inner.supportsEffects);
      && walker.operationsLog == log0 + r.log
      && walker.inner.calls == calls0 + r.forwarded
      && err == r.error
  {
    ghost var r := ReplayLog(calls[..i], walker.inner.supportsEffects);
    assert calls[..i + 1][..i] == calls[..i];
    err := walker.Record(calls[i]);
    if err.None? {
      AppendAssoc(log0, r.log, [EntryOf(calls[i]).value]);
      AppendAssoc(calls0, r.forwarded, Forwarded(calls[i], walker.inner.supportsEffects));
    }
  }

  /** Once a prefix of the calls has failed, the whole replay yields that
      prefix's outcome. */
  lemma {:induction false} ReplayFailurePersists(calls: seq<DrawCall>, k: nat, fx: bool, entry: DrawCall -> Result<LogEntry, ArgumentError>)
    requires k <= |calls|
    requires ReplayWith(calls[..k], fx, entry).error.Some?
    ensures ReplayWith(calls, fx, entry) == ReplayWith(calls[..k], fx, entry)
    decreases |calls| - k
  {
    if k < |calls| {
      assert calls[..k + 1][..k] == calls[..k];
      ReplayFailurePersists(calls, k + 1, fx, entry);
    } else {
      assert calls[..k] == calls;
    }
  }

  /** A render-data item, as the calls its `Invoke` makes: a bitmap node
      (with the values of its fields), or any other node, represented by the
      calls it makes. */
  datatype RenderDataItem =
    | BitmapNodeItem(bitmap: Option<BitmapImpl>, opacity: real, sourceRect: Rect, destRect: Rect)
    | OtherItem(calls: seq<DrawCall>)

  function ItemCalls(item: RenderDataItem): seq<DrawCall> {
    match item
    case BitmapNodeItem(b, o, s, d) => BitmapDrawCalls(b, o, s, d)
    case OtherItem(calls) => calls
  }

  /** The calls of all items, item after item. */
  function AllCalls(items: seq<RenderDataItem>): (r: seq<DrawCall>)
  {
    if items == [] then [] else AllCalls(items[..|items| - 1]) + ItemCalls(items[|items| - 1])
  }

  /** The item-constructor loop: `Invoke` every render-data item in order
      with the walker as the drawing context. */
  method ReplayItems(walker: DrawingContextWalker, items: seq<RenderDataItem>) returns (err: Option<ArgumentError>)
    modifies walker`operationsLog, walker.inner`calls
    ensures var r := ReplayLog(AllCalls(items), walker.inner.supportsEffects);
      && walker.operationsLog == old(walker.operationsLog) + r.log
      && walker.inner.calls == old(walker.inner.calls) + r.forwarded
      && err == r.error
  {
    var i := 0;
    err := None;
    while i < |items| && err.None?
      invariant 0 <= i <= |items|
      invariant var r := ReplayLog(AllCalls(items[..i]), walker.inner.supportsEffects);
        && walker.operationsLog == old(walker.operationsLog) + r.log
        && walker.inner.calls == old(walker.inner.calls) + r.forwarded
        && err == r.error
    {
      err := InvokeItem(walker, items, i, old(walker.operationsLog), old(walker.inner.calls));
      i := i + 1;
    }
    ReplayItemsStop(items, i, walker.inner.supportsEffects);
  }

  /** `item.Invoke(ref renderContext)` for item `i`, after the items before it
      have been replayed without an exception. */
  method InvokeItem(walker: DrawingContextWalker, items: seq<RenderDataItem>, i: nat,
                    ghost log0: seq<LogEntry>, ghost calls0: seq<DrawCall>) returns (err: Option<ArgumentError>)
    requires i < |items|
    requires var r := ReplayLog(AllCalls(items[..i]), walker.inner.supportsEffects);
      && r.error.None?
      && walker.operationsLog == log0 + r.log
      && walker.inner.calls == calls0 + r.forwarded
    modifies walker`operationsLog, walker.inner`calls
    ensures var r := ReplayLog(AllCalls(items[..i + 1]), walker.inner.supportsEffects);
      && walker.operationsLog == log0 + r.log
      && walker.inner.calls == calls0 + r.forwarded
      && err == r.error
  {
    ghost var fx := walker.inner.supportsEffects;
    ghost var ra := ReplayLog(AllCalls(items[..i]), fx);
    ghost var rb := ReplayLog(ItemCalls(items[i]), fx);
    ReplayItemsStep(items, i, fx);
    err := ReplayCalls(walker, ItemCalls(items[i]));
    AppendAssoc(log0, ra.log, rb.log);
    AppendAssoc(calls0, ra.forwarded, rb.forwarded);
  }

  /** Replaying the calls of one more item continues the replay of the items before it. */
  lemma ReplayItemsStep(items: seq<RenderDataItem>, i: nat, fx: bool)
    requires i < |items|
    ensures var ra := ReplayLog(AllCalls(items[..i]), fx);
      var rb := ReplayLog(ItemCalls(items[i]), fx);
      ra.error.None? ==>
        ReplayLog(AllCalls(items[..i + 1]), fx) == Replayed(ra.log + rb.log, ra.forwarded + rb.forwarded, rb.error)
  {
    assert items[..i + 1][..i] == items[..i];
    assert AllCalls(items[..i + 1]) == AllCalls(items[..i]) + ItemCalls(items[i]);
    ReplayAppend(AllCalls(items[..i]), ItemCalls(items[i]), fx, EntryOf);
  }

  /** Where the item loop stops, after every item or after the items up to
      `k` have failed, the replay so far is the replay of all the items. */
  lemma ReplayItemsStop(items: seq<RenderDataItem>, k: nat, fx: bool)
    requires k <= |items|
    requires k == |items| || ReplayLog(AllCalls(items[..k]), fx).error.Some?
    ensures ReplayLog(AllCalls(items), fx) == ReplayLog(AllCalls(items[..k]), fx)
  {
    if k < |items| {
      AllCallsPrefix(items, k);
      ReplayFailurePersists(AllCalls(items), |AllCalls(items[..k])|, fx, EntryOf);
    } else {
      assert items[..k] == items;
    }
  }

  /** The calls of a prefix of the items are a prefix of all calls. */
  lemma {:induction false} AllCallsPrefix(items: seq<RenderDataItem>, k: nat)
    requires k <= |items|
    ensures |AllCalls(items[..k])| <= |AllCalls(items)|
    ensures AllCalls(items)[..|AllCalls(items[..k])|] == AllCalls(items[..k])
    decreases |items| - k
  {
    if k < |items| {
      AllCallsPrefix(items, k + 1);
      assert items[..k + 1][..k] == items[..k];
      var a := AllCalls(items[..k]);
      var b := AllCalls(items[..k + 1]);
      assert b == a + ItemCalls(items[k]);
      assert AllCalls(items)[..|a|] == b[..|a|];
    } else {
      assert items[..k] == items;
    }
  }

  /** Replaying `a + b` is replaying `a`, then (if that did not fail)
      replaying `b` with the results appended. */
  lemma {:induction false} ReplayAppend(a: seq<DrawCall>, b: seq<DrawCall>, fx: bool, entry: DrawCall -> Result<LogEntry, ArgumentError>)
    ensures var ra := ReplayWith(a, fx, entry);
      var rb := ReplayWith(b, fx, entry);
      ReplayWith(a + b, fx, entry) ==
        if ra.error.Some? then ra else Replayed(ra.log + rb.log, ra.forwarded + rb.forwarded, rb.error)
  {
    if b == [] {
      assert a + b == a;
    } else {
      var n := |b| - 1;
      assert (a + b)[..|a + b| - 1] == a + b[..n];
      ReplayAppend(a, b[..n], fx, entry);
    }
  }

  /** A node of the server visual tree, as far as the snapshot reads it.
      `renderDataItems` is `(visual as ServerCompositionDrawListVisual)?.RenderData?.Items`;
      `children` is the child list when `isContainer` holds, and is not read
      otherwise. */
  datatype ServerVisual = ServerVisual(
    typeName: string,
    renderDataItems: Option<seq<RenderDataItem>>,
    isContainer: bool,
    children: seq<ServerVisual>,
    size: Vector,
    combinedTransform: Matrix,
    clipToBounds: bool,
    clip: Option<GeometryImpl>,
    diagnosticProperties: map<string, LogValue>)

  /** The item's `RenderTargetBitmap`: its pixel size and the calls drawn into it. */
  datatype SnapshotBitmap = SnapshotBitmap(size: PixelSize, drawn: seq<DrawCall>)

  datatype SnapshotItem = SnapshotItem(
    name: string,
    bitmap: Option<SnapshotBitmap>,
    drawOperations: Option<seq<LogEntry>>,
    properties: map<string, LogValue>,
    transform: Matrix,
    clipToBounds: bool,
    geometryClip: Option<GeometryImpl>,
    size: Vector,
    children: seq<SnapshotItem>)

  /** The bitmap size: each component of `Size` cast to `int`. */
  function BitmapSize(size: Vector): PixelSize {
    PixelSize(TruncateToInt(size.x), TruncateToInt(size.y))
  }

  /** The `CompositionTreeSnapshotItem` constructor. `supportsEffects` says
      whether the bitmap's drawing context implements effects. A conversion
      that throws while replaying, or while building a child, is the
      constructor's exception. */
  function ItemOf(v: ServerVisual, supportsEffects: bool): (r: Result<SnapshotItem, ArgumentError>)
    ensures r.Success? ==>
      && r.value.name == v.typeName && r.value.properties == v.diagnosticProperties
      && r.value.transform == v.combinedTransform && r.value.clipToBounds == v.clipToBounds
      && r.value.geometryClip == v.clip && r.value.size == v.size
    ensures v.renderDataItems.None? && !v.isContainer ==> r.Success? && r.value.children == []
    decreases v, 1
  {
    var replay := if v.renderDataItems.Some? then ReplayLog(AllCalls(v.renderDataItems.value), supportsEffects)
                  else Replayed([], [], None);
    if replay.error.Some? then Failure(replay.error.value)
    else
      var children := if v.isContainer then ChildrenOf(v.children, supportsEffects) else Success([]);
      if children.Failure? then Failure(children.error)
      else Success(SnapshotItem(
        v.typeName,
        if v.renderDataItems.Some? then Some(SnapshotBitmap(BitmapSize(v.size), replay.forwarded)) else None,
        if v.renderDataItems.Some? then Some(replay.log) else None,
        v.diagnosticProperties,
        v.combinedTransform,
        v.clipToBounds,
        v.clip,
        v.size,
        children.value))
  }

  /** `Children.List.Select(...).ToList()`: one item per child, built in
      order; the first exception stops it. */
  function ChildrenOf(cs: seq<ServerVisual>, supportsEffects: bool): (r: Result<seq<SnapshotItem>, ArgumentError>)
    ensures r.Success? ==> |r.value| == |cs|
    decreases cs, 0
  {
    if cs == [] then Success([])
    else
      var prev := ChildrenOf(cs[..|cs| - 1], supportsEffects);
      if prev.Failure? then prev
      else
        var last := ItemOf(cs[|cs| - 1], supportsEffects);
        if last.Failure? then Failure(last.error)
        else Success(prev.value + [last.value])
  }

  /** Child item i is the item of child visual i. */
  lemma {:induction false} ChildrenOfAt(cs: seq<ServerVisual>, supportsEffects: bool, i: nat)
    requires ChildrenOf(cs, supportsEffects).Success? && i < |cs|
    ensures ItemOf(cs[i], supportsEffects).Success?
    ensures ChildrenOf(cs, supportsEffects).value[i] == ItemOf(cs[i], supportsEffects).value
  {
    var n := |cs| - 1;
    if i < n {
      ChildrenOfAt(cs[..n], supportsEffects, i);
    }
  }

  /** The snapshot keeps the tree's shape and order: the item is named after
      the visual's type, has one child item per child of a container visual,
      in order, and none otherwise; it has draw operations and a bitmap
      exactly when the visual is a draw-list visual with render-data items,
      and those operations are the replay of the items' calls, in order. */
  lemma ItemOfShape(v: ServerVisual, supportsEffects: bool)
    requires ItemOf(v, supportsEffects).Success?
    ensures var item := ItemOf(v, supportsEffects).value;
      && |item.children| == (if v.isContainer then |v.children| else 0)
      && (forall i :: 0 <= i < |item.children| ==>
            ItemOf(v.children[i], supportsEffects) == Success(item.children[i]))
      && (item.drawOperations.Some? <==> v.renderDataItems.Some?)
      && (item.bitmap.Some? <==> v.renderDataItems.Some?)
      && (v.renderDataItems.Some? ==>
            var calls := AllCalls(v.renderDataItems.value);
            && |item.drawOperations.value| == |calls|
            && (forall i :: 0 <= i < |calls| ==> EntryOf(calls[i]) == Success(item.drawOperations.value[i]))
            && item.bitmap.value.size == BitmapSize(v.size))
  {
    var item := ItemOf(v, supportsEffects).value;
    if v.isContainer {
      forall i | 0 <= i < |item.children|
        ensures ItemOf(v.children[i], supportsEffects) == Success(item.children[i])
      {
        ChildrenOfAt(v.children, supportsEffects, i);
      }
    }
    if v.renderDataItems.Some? {
      ReplayLogsEveryCall(AllCalls(v.renderDataItems.value), supportsEffects, EntryOf);
    }
  }

  /** The bitmaps of a snapshot tree, in the order `Destroy` disposes them:
      the item's own first, then its children's, child after child. */
  function Bitmaps(item: SnapshotItem): seq<SnapshotBitmap>
    decreases item, 1
  {
    (if item.bitmap.Some? then [item.bitmap.value] else []) + ChildrenBitmaps(item.children)
  }

  function ChildrenBitmaps(cs: seq<SnapshotItem>): seq<SnapshotBitmap>
    decreases cs, 0
  {
    if cs == [] then [] else ChildrenBitmaps(cs[..|cs| - 1]) + Bitmaps(cs[|cs| - 1])
  }

  /** Where disposed bitmaps are observed. */
  class DisposalLog {
    var disposed: seq<SnapshotBitmap>

    constructor ()
      ensures disposed == []
    {
      disposed := [];
    }
  }

  /** `Destroy`: dispose the item's own bitmap, if any, then destroy every child. */
  method Destroy(item: SnapshotItem, log: DisposalLog)
    modifies log
    ensures log.disposed == old(log.disposed) + Bitmaps(item)
    decreases item
  {
    if item.bitmap.Some? {
      log.disposed := log.disposed + [item.bitmap.value];
    }
    ghost var mid := log.disposed;
    for i := 0 to |item.children|
      invariant log.disposed == mid + ChildrenBitmaps(item.children[..i])
    {
      assert item.children[..i + 1][..i] == item.children[..i];
      Destroy(item.children[i], log);
    }
    assert item.children[..|item.children|] == item.children;
  }

  /** The number of draw-list visuals with render-data items in a tree. */
  function DrawListCount(v: ServerVisual): nat
    decreases v, 1
  {
    (if v.renderDataItems.Some? then 1 else 0) + (if v.isContainer then ChildrenDrawListCount(v.children) else 0)
  }

  function ChildrenDrawListCount(cs: seq<ServerVisual>): nat
    decreases cs, 0
  {
    if cs == [] then 0 else ChildrenDrawListCount(cs[..|cs| - 1]) + DrawListCount(cs[|cs| - 1])
  }

  /** A snapshot has one bitmap per draw-list visual with render-data items,
      so `Destroy` disposes exactly that many. */
  lemma {:induction false} BitmapsPerDrawList(v: ServerVisual, supportsEffects: bool)
    requires ItemOf(v, supportsEffects).Success?
    ensures |Bitmaps(ItemOf(v, supportsEffects).value)| == DrawListCount(v)
    decreases v, 1
  {
    if v.isContainer {
      ChildrenBitmapsPerDrawList(v.children, supportsEffects);
    }
  }

  lemma {:induction false} ChildrenBitmapsPerDrawList(cs: seq<ServerVisual>, supportsEffects: bool)
    requires ChildrenOf(cs, supportsEffects).Success?
    ensures |ChildrenBitmaps(ChildrenOf(cs, supportsEffects).value)| == ChildrenDrawListCount(cs)
    decreases cs, 0
  {
    if cs != [] {
      var n := |cs| - 1;
      ChildrenBitmapsPerDrawList(cs[..n], supportsEffects);
      BitmapsPerDrawList(cs[n], supportsEffects);
      var items := ChildrenOf(cs, supportsEffects).value;
      assert items[..n] == ChildrenOf(cs[..n], supportsEffects).value;
    }
  }

  /** `CompositionTreeSnapshot`. */
  class CompositionTreeSnapshot {
    const root: SnapshotItem
    var isDisposed: bool

    constructor (root: SnapshotItem)
      ensures this.root == root && !isDisposed
    {
      this.root := root;
      isDisposed := false;
    }

    /** `HitTest` always yields null. */
    function HitTest(pos: Point): (r: Option<SnapshotItem>)
      ensures r.None?
    {
      None
    }

    /** `DisposeAsync`: sets `IsDisposed` and destroys the item tree (the
        server job it queues is taken to run). */
    method DisposeAsync(log: DisposalLog)
      modifies this, log
      ensures isDisposed
      ensures log.disposed == old(log.disposed) + Bitmaps(root)
    {
      isDisposed := true;
      Destroy(root, log);
    }
  }

  /** `TakeAsync`: null when the visual has no root, otherwise a snapshot of
      the visual's server tree. */
  method TakeAsync(hasRoot: bool, server: ServerVisual, supportsEffects: bool)
      returns (r: Result<CompositionTreeSnapshot?, ArgumentError>)
    ensures !hasRoot ==> r == Success(null)
    ensures hasRoot ==> (r.Success? <==> ItemOf(server, supportsEffects).Success?)
    ensures hasRoot && r.Success? ==>
      r.value != null && fresh(r.value) && r.value.root == ItemOf(server, supportsEffects).value && !r.value.isDisposed
  {
    if !hasRoot {
      return Success(null);
    }
    var item := ItemOf(server, supportsEffects);
    if item.Failure? {
      return Failure(item.error);
    }
    var snapshot := new CompositionTreeSnapshot(item.value);
    return Success(snapshot);
  }

  /** `RenderToBitmapAsync`: null when the item has no bitmap, otherwise the
      bitmap's content. */
  function RenderToBitmap(item: SnapshotItem): (r: Option<SnapshotBitmap>)
    ensures r.None? <==> item.bitmap.None?
    ensures r.Some? ==> r.value == item.bitmap.value
  {
    item.bitmap
  }
}

=== FILE: transport.dfy ===
/** The batch stream: the serialized changes of one batch, read back on the
    render thread. The source keeps an object stream and a data stream side by
    side; here both are one sequence of tokens, read in the order written. */
module Transport {
  import opened Wrappers
  import opened MediaTypes

  type JobId = nat

  type ObjectId = nat

  /** The magic value written after every object's changes in debug builds. */
  const ObjectEndMagic: int := 0x5EED_0BEC

  datatype Token =
    // entries of the object stream
    | RenderThreadDisposeStartMarker
    | RenderThreadJobsStartMarker
    | RenderThreadJobsEndMarker
    | RenderThreadPostTargetJobsStartMarker
    | RenderThreadPostTargetJobsEndMarker
    | ObjectEndMarker
    | Job(job: JobId)
      /** A server object whose changes follow; `changeCount` is the number of
          entries its own deserializer reads, which the source decides from
          the object's dirty-field mask. */
    | ServerObject(id: ObjectId, disposable: bool, changeCount: nat)
    | GradientStopObject(stop: ImmutableGradientStop)
    // entries of the data stream
    | IntData(n: int)
    | GuidData(guid: int)
    | SpreadMethodData(spreadMethod: GradientSpreadMethod)
      /** The fields written by the generated base-brush serializer. */
    | BrushBaseData(opacity: real, transform: Option<Transform>, transformOrigin: RelativePoint)

  /** What goes wrong while reading a batch; each is an exception in the source. */
  datatype StreamError =
    | EndOfStream            // read past the end of the batch
    | InvalidCast            // an object of the wrong kind where a cast is applied
    | Malformed              // a data entry of the wrong kind
    | ObjectEndMismatch(onObjectStream: bool)  // debug check after an object's changes

  class BatchStreamReader {
    const tokens: seq<Token>
    var pos: nat

    ghost predicate Valid()
      reads this
    {
      pos <= |tokens|
    }

    constructor (tokens: seq<Token>)
      ensures Valid() && this.tokens == tokens && pos == 0
    {
      this.tokens := tokens;
      pos := 0;
    }

    /** The entries not read yet. */
    function Remaining(): seq<Token>
      reads this
      requires Valid()
    {
      tokens[pos..]
    }

    predicate IsObjectEof()
      reads this
    {
      |tokens| <= pos
    }

    method ReadObject() returns (r: Result<Token, StreamError>)
      requires Valid()
      modifies this`pos
      ensures Valid()
      ensures old(pos) < |tokens| ==> r == Success(tokens[old(pos)]) && pos == old(pos) + 1
      ensures |tokens| <= old(pos) ==> r == Failure(EndOfStream) && pos == old(pos)
    {
      if pos < |tokens| {
        r := Success(tokens[pos]);
        pos := pos + 1;
      } else {
        r := Failure(EndOfStream);
      }
    }

    method ReadInt() returns (r: Result<int, StreamError>)
      requires Valid()
      modifies this`pos
      ensures Valid()
      ensures r == IntAt(old(Remaining()))
      ensures pos == if r.Success? then old(pos) + 1 else old(pos)
    {
      if pos == |tokens| {
        r := Failure(EndOfStream);
      } else if tokens[pos].IntData? {
        r := Success(tokens[pos].n);
        pos := pos + 1;
      } else {
        r := Failure(Malformed);
      }
    }

    method ReadGuid() returns (r: Result<int, StreamError>)
      requires Valid()
      modifies this`pos
      ensures Valid()
      ensures r == GuidAt(old(Remaining()))
      ensures pos == if r.Success? then old(pos) + 1 else old(pos)
    {
      if pos == |tokens| {
        r := Failure(EndOfStream);
      } else if tokens[pos].GuidData? {
        r := Success(tokens[pos].guid);
        pos := pos + 1;
      } else {
        r := Failure(Malformed);
      }
    }

    method ReadSpreadMethod() returns (r: Result<GradientSpreadMethod, StreamError>)
      requires Valid()
      modifies this`pos
      ensures Valid()
      ensures r == SpreadMethodAt(old(Remaining()))
      ensures pos == if r.Success? then old(pos) + 1 else old(pos)
    {
      if pos == |tokens| {
        r := Failure(EndOfStream);
      } else if tokens[pos].SpreadMethodData? {
        r := Success(tokens[pos].spreadMethod);
        pos := pos + 1;
      } else {
        r := Failure(Malformed);
      }
    }

    method ReadBrushBase() returns (r: Result<Token, StreamError>)
      requires Valid()
      modifies this`pos
      ensures Valid()
      ensures r == BrushBaseAt(old(Remaining()))
      ensures pos == if r.Success? then old(pos) + 1 else old(pos)
    {
      if pos == |tokens| {
        r := Failure(EndOfStream);
      } else if tokens[pos].BrushBaseData? {
        r := Success(tokens[pos]);
        pos := pos + 1;
      } else {
        r := Failure(Malformed);
      }
    }
  }

  /** What a typed data read yields at the head of `s`. */
  function IntAt(s: seq<Token>): Result<int, StreamError> {
    if s == [] then Failure(EndOfStream)
    else if s[0].IntData? then Success(s[0].n)
    else Failure(Malformed)
  }

  function GuidAt(s: seq<Token>): Result<int, StreamError> {
    if s == [] then Failure(EndOfStream)
    else if s[0].GuidData? then Success(s[0].guid)
    else Failure(Malformed)
  }

  function SpreadMethodAt(s: seq<Token>): Result<GradientSpreadMethod, StreamError> {
    if s == [] then Failure(EndOfStream)
    else if s[0].SpreadMethodData? then Success(s[0].spreadMethod)
    else Failure(Malformed)
  }

  function BrushBaseAt(s: seq<Token>): (r: Result<Token, StreamError>)
    ensures r.Success? ==> r.value.BrushBaseData?
  {
    if s == [] then Failure(EndOfStream)
    else if s[0].BrushBaseData? then Success(s[0])
    else Failure(Malformed)
  }
}
